=== FILE: README.md ===
# Promote refactoring: a Dafny model

This project models the text and path logic of the "promote" refactoring of
angular-cli's `ng2` addon. The refactoring moves a component unit to another
directory and then rewrites every relative import and export specifier that
pointed at it. Five parts are modelled, one Dafny module each, plus four
shared helper modules:

- `Change` (`change.dfy`): the three edits `InsertChange`, `RemoveChange` and
  `ReplaceChange`, each a splice over a file's content using JavaScript's
  clamping `substring`. The module also proves the law behind "order = position,
  apply from the bottom of the file up": applying layered edits one after
  another gives the same text as splicing each of them into the original
  content at its original offset.
- `SortedApply` (`apply_sorted.dfy`): `applySortedChangePromise`. It sorts the
  changes by descending order with a stable insertion sort, then folds them
  over a map from path to content. It also models the sort as written, where
  no change has an `order` and so nothing is reordered (see Findings).
- `ModuleResolver` (`module_resolver.dfy`): `isRelativeImport`,
  `getNewSpecifierText`, `resolveDependentFiles`, `resolveOwnImports` and the
  barrel edits of `resolveExport`.
- `ModuleResolve` (`module_resolve.dfy`): `diffPaths` and the edit choice of
  `parseModuleSpecifiers`. Its known quirks are stated as lemmas rather than
  hidden.
- `DependentFiles` (`dependent_files.dfy`): `getFiles` over a directory tree
  datatype, the `*.component.ts` filter, and the basename match of
  `getDependentFiles`.
- `Text`, `NodePath`, `ObjectMap` and `Outcome` are shared helpers:
  - `Text`: strings and JavaScript's `substring`, `slice`, `charAt`,
    `split('/')` and `join('/')`.
  - `NodePath`: Node's `path.dirname`, `basename`, `extname`, `normalize`,
    `resolve` and `relative` over lists of `/`-free segments.
  - `ObjectMap`: a JavaScript object as an insertion-ordered entry list.
  - `Outcome`: `Result` and the errors (a thrown `Error`, a failed read).

The central round trip is `NodePath.ResolveRelative`: resolving
`relative(from, to)` from `from` names `to` again. From it, the specifiers
that `NewSpecifier` and `OwnImportText` write are proved to name the target
the move intends, or the module the old specifier named. The source's own
rewrites miss in several cases: the barrel case and the unordered changes
under "## Findings", and the `parseModuleSpecifiers` quirks in the
paragraphs below.

In `ModuleResolver`, `oldFile` is the component file being moved and `newDir`
is the directory it moves into. `promote.ts` calls the resolver with those two
values. In `ModuleResolve`, `oldPath` and `newPath` are the unit's old and new
directories, as `parseModuleSpecifiers` receives them. An import record is the
`{specifier, pos, end}` triple the TypeScript scan reports. `pos` is the
offset of the space before the opening quote, and `end` is the offset just
past the closing quote.

Where the code and the tests disagree, the model follows the code:

- A move down inserts the delta before `/<unit>` (module-resolve.ts:112-113).
  So `../foo` in `src/app/bar` becomes `../bar/foo`, while
  tests/acceptance/module-resolve.spec.ts:79 expects `./foo`. Both name the
  same place: `ModuleResolve.MoveDownRepoints` proves that the edited
  specifier names the unit's new place.
- `parseModuleSpecifiers` applies at most one edit (see Findings), while the
  tests expect every dependent to be rewritten.

A move between two sibling directories under `src/app` keeps the depth of
the parent. So `diffPaths` takes its removal branch (module-resolve.ts:46-63),
which only strips the old parent's directories and never adds the new one's.
`ModuleResolve.SiblingMoveMisses` shows where such a dependent ends up.

A move down keeps every new-parent directory below `src/app`
(module-resolve.ts:32-36), including the ones the old parent already had.
So it repoints dependents correctly only for a move from directly under
`src/app`, which is the case `ModuleResolve.MoveDownRepoints` proves.
`ModuleResolve.DeepMoveDownMisses` shows that moving from `src/app/<a>` into
`src/app/<a>/<b>` points a dependent at `src/app/<a>/<a>/<b>/<u>`.

The `toRemove` edit puts its `.` at `pos + 2` (module-resolve.ts:90), which is
inside the specifier only when one space separates `from` and the quote.
tests/acceptance/module-resolve.spec.ts:123-135 moves a unit whose dependent
at tests/acceptance/module-resolve.spec.ts:37 has many such spaces.
`ModuleResolve.WideSpacedImportMisses` shows that this edit leaves the
specifier unchanged.

The `toRemove` removal starts at `pos + 4` (module-resolve.ts:92), two
characters into the specifier, wherever the delta lies in it. It removes the
delta only when the delta sits right after the specifier's first two
characters, as in `../<b>/<unit>`. `ModuleResolve.TwoUpRemoveMisses` moves a unit from
`src/app/b` up to `src/app`. A dependent in `src/app/<x>/<y>` imports it as
`../../b/<unit>`, and the edit turns that into `.../b/<unit>`. In general the
result is never `../../<unit>`, the specifier that names the new place.

## Model

| member | source | states |
|---|---|---|
| `Change.Insert` | addon/ng2/utilities/change.ts:48 | The result is longer by exactly `\|toAdd\|`. The text before the clamped position is kept, `toAdd` follows it, and the rest of the content follows unchanged. |
| `Change.Remove` | addon/ng2/utilities/change.ts:75 | The text before the clamped position is kept, followed by the content from the clamped end of the span. When the span lies inside the content, the result is shorter by exactly `\|toRemove\|`. |
| `Change.Replace` | addon/ng2/utilities/change.ts:103 | The text before the position is kept, then `newText`, then the content from the clamped end of `\|oldText\|`. The length changes accordingly. |
| `Change.ApplyChange` | addon/ng2/utilities/change.ts:48-103 | Any change leaves the content before its clamped position untouched. In range, it is the cut-and-insert splice at `pos`. |
| `Change.ApplyDispatches` | addon/ng2/utilities/change.ts:41-111 | The one splice agrees with each kind's own `apply` expression. |
| `Change.RemoveIgnoresText` | addon/ng2/utilities/change.ts:75 | A removal depends only on the length of `toRemove`, never on its characters; nothing checks for stale text. |
| `Change.ReplaceIgnoresOldText` | addon/ng2/utilities/change.ts:103 | A replacement depends only on the length of `oldText`. |
| `Change.ReplaceEmptyIsInsert` | addon/ng2/utilities/change.ts:48-103 | Replacing the empty text is inserting `newText`. |
| `Change.ReplaceWithEmptyIsRemove` | addon/ng2/utilities/change.ts:75-103 | Replacing with the empty text is removing `oldText`. |
| `Change.InsertThenRemove` | addon/ng2/utilities/change.ts:48-75 | Removing what was just inserted at the same in-range position restores the content. |
| `Change.RemoveThenInsert` | addon/ng2/utilities/change.ts:48-75 | Re-inserting the removed text restores the content when the removal matched the text at its position. |
| `Change.ReplaceThenReplaceBack` | addon/ng2/utilities/change.ts:103 | A matching replacement is undone by the swapped replacement. |
| `Change.ApplyInPrefix` | addon/ng2/utilities/change.ts:16-18 | A change whose span lies inside a prefix edits the prefix and leaves everything after it alone. |
| `Change.ApplyInOrderInPrefix` | addon/ng2/utilities/change.ts:16-18 | A bottom-up list confined to a prefix leaves the rest of the file alone. |
| `Change.ApplyInOrderIsSimultaneous` | addon/ng2/utilities/change.ts:16-18 | Applying a bottom-up (layered) list one change after another gives the text with every change spliced into the original content at its original offset. |
| `SortedApply.InsertByOrder` | addon/ng2/utilities/module-resolver.ts:41 | Inserting into a descending list keeps it descending and adds exactly one occurrence of the change. |
| `SortedApply.SortByOrder` | addon/ng2/utilities/module-resolver.ts:41 | The sort's result is descending by order and is a permutation of the input. |
| `SortedApply.ApplyAll` | addon/ng2/utilities/module-resolver.ts:42 | The fold succeeds exactly when every change names an existing file. It never adds or drops a file. |
| `SortedApply.ApplySortedChanges` | addon/ng2/utilities/module-resolver.ts:39-43 | Sorting and then folding succeeds exactly when every change's file exists, and it keeps the set of files. |
| `SortedApply.SortByCompare` | addon/ng2/utilities/module-resolver.ts:41 | A stable sort under any comparator returns a permutation of its input, and it returns the input unchanged when no pair compares above 0. |
| `SortedApply.ApplySortedChangesAsWritten` | addon/ng2/utilities/module-resolver.ts:39-43 | As written, the changes are applied in the order they were passed in, because every pair compares equal. |
| `SortedApply.AsWrittenAppliesTopDown` | addon/ng2/utilities/module-resolver.ts:41 | Two insertions into `ab` at 0 and 1, passed top-down, give `XYab` as written and `XaYb` under the sort by position. |
| `SortedApply.OnFile` | addon/ng2/utilities/module-resolver.ts:42 | It selects exactly the changes that target the given file. |
| `SortedApply.ApplyAllOnFile` | addon/ng2/utilities/module-resolver.ts:42 | Each file ends up with exactly its own changes applied, in list order. |
| `SortedApply.OnFileDescending` | addon/ng2/utilities/module-resolver.ts:41 | The changes of one file, taken from a descending list, are still descending. |
| `SortedApply.StackedIsLayered` | addon/ng2/utilities/change.ts:16-18 | A list in which every change ends before the start of every earlier one runs from the bottom of the file up. |
| `SortedApply.SortedOnFileStacked` | addon/ng2/utilities/module-resolver.ts:31-43 | When a file's changes fit the content, sit at different positions and do not overlap, sorting stacks them from the bottom up. |
| `SortedApply.ApplySortedIsSimultaneous` | addon/ng2/utilities/module-resolver.ts:31-43 | For non-overlapping changes, the text written to a file is its original content with each of its changes spliced in at its original offset. |
| `ModuleResolver.IsRelativeImport` | addon/ng2/utilities/module-resolver.ts:50-55 | True exactly when the specifier starts with `/`, `./` or `../`, so `.`, `..` and package names are not relative. |
| `ModuleResolver.RelativeEmpty` | addon/ng2/utilities/module-resolver.ts:64 | The relative path is empty exactly when both directories normalise to the same path. |
| `ModuleResolver.NewSpecifierText` | addon/ng2/utilities/module-resolver.ts:62-69 | The result is empty or starts with `.`, and is never `/`-led. From the dependent's directory it names the new directory. It is empty exactly when the dependent already sits there. |
| `ModuleResolver.NewSpecifierAsWrittenMisses` | addon/ng2/utilities/module-resolver.ts:128-130 | With a barrel and a dependent inside the new directory, the source's specifier names `<parent of the new directory>/<that parent's name>`. That is the target only when the new directory has its parent's name. |
| `ModuleResolver.NewSpecifierAsWrittenExample` | addon/ng2/utilities/module-resolver.ts:128-130 | A dependent in `src/app/shared`, promoted into `src/app/shared`, is pointed at `src/app/app`. |
| `ModuleResolver.NewSpecifierAsWrittenAims` | addon/ng2/utilities/module-resolver.ts:120-131 | The source's specifier names the target from every dependent's directory except one inside a new directory that has a barrel. There it names `<parent>/<parent's name>`. |
| `ModuleResolver.NewSpecifier` | addon/ng2/utilities/module-resolver.ts:120-131 | The new specifier, resolved from the dependent's directory, names the barrel's directory or the moved file. It differs from the source's only in the barrel-and-same-directory case. |
| `ModuleResolver.ParentSpecifier` | addon/ng2/utilities/module-resolver.ts:129 | From inside a directory, `../<its name>` names that directory again. |
| `ModuleResolver.ChildSpecifier` | addon/ng2/utilities/module-resolver.ts:125-126 | `<head>/<name>` names `name` inside what `head` names, and `./` names the directory itself. |
| `ModuleResolver.OwnSpecFileName` | addon/ng2/utilities/module-resolver.ts:108-116 | The filter drops exactly `<base>.spec.ts` and `<base>.spec` for a non-empty base, and keeps every other dependent. |
| `ModuleResolver.ReplaceInsideQuotes` | addon/ng2/utilities/module-resolver.ts:132-133 | The replacement at `end - \|specifier\| - 1` matches the old text exactly. It swaps only the text between the quotes and leaves the new specifier quoted, with `end` shifted by the change in length. |
| `ModuleResolver.DependentEdits` | addon/ng2/utilities/module-resolver.ts:118-134 | The source plans one replacement per import record, in order, each swapping that record's specifier in place. The new text names the target unless the file lies in a new directory that has a barrel. In that case it names the entry called like the new directory's parent, inside that parent. |
| `ModuleResolver.CorrectedDependentEdits` | addon/ng2/utilities/module-resolver.ts:118-134 | With the corrected specifier, every one of these replacements names the target. |
| `ModuleResolver.ResolveDependentFiles` | addon/ng2/utilities/module-resolver.ts:100-139 | Every change the source plans is a replacement in a dependent file other than the unit's own spec file. It names the target for every file outside a new directory with a barrel, and the parent's namesake inside one. |
| `ModuleResolver.CorrectedResolveDependentFiles` | addon/ng2/utilities/module-resolver.ts:100-139 | With the corrected specifier, every planned replacement names the target. |
| `ModuleResolver.ResolveDependentFilesComplete` | addon/ng2/utilities/module-resolver.ts:110-136 | Every import of every kept dependent gets a replacement from the source. It repoints the import at the target whenever the file lies outside a new directory that has a barrel. |
| `ModuleResolver.CorrectedResolveDependentFilesComplete` | addon/ng2/utilities/module-resolver.ts:110-136 | With the corrected specifier, every import of every kept dependent is repointed at the target. |
| `ModuleResolver.RelativeImports` | addon/ng2/utilities/module-resolver.ts:151 | It keeps exactly the relative imports. |
| `ModuleResolver.RelativeImportsIsFilter` | addon/ng2/utilities/module-resolver.ts:151 | The selection keeps source order and repetitions: it distributes over concatenation and keeps a single import exactly when it is relative. |
| `ModuleResolver.OwnImportText` | addon/ng2/utilities/module-resolver.ts:153-158 | The new text is empty or dot-led. Read from the new directory, it names the module the old specifier named from the old one. |
| `ModuleResolver.ResolveOwnImports` | addon/ng2/utilities/module-resolver.ts:146-164 | Exactly one replacement per relative import, all in the moved file and at the specifier's position. Each carries the import to the same module. |
| `ModuleResolver.UnitExports` | addon/ng2/utilities/module-resolver.ts:289-293 | It selects exactly the exports whose specifier is `./<base>`. |
| `ModuleResolver.UnitExportsIsFilter` | addon/ng2/utilities/module-resolver.ts:289-293 | The selection keeps the barrel's order and repetitions: it distributes over concatenation and keeps a single export exactly when its specifier is `./<base>`. |
| `ModuleResolver.RemoveExportDeletesLine` | addon/ng2/utilities/module-resolver.ts:294-298 | When the statement ends with `;` and a line break, the removal matches its text and deletes exactly the statement and that line break. |
| `ModuleResolver.BarrelRemovals` | addon/ng2/utilities/module-resolver.ts:289-299 | One removal per export of the unit, in the old directory's barrel, each of `blockText + "\n"` at the statement's start. |
| `ModuleResolver.BarrelInsert` | addon/ng2/utilities/module-resolver.ts:314-322 | An insertion into the new directory's barrel. With no exports it puts `export * from './<base>';` and a line break at 0. Otherwise it puts a line break and that statement just after the last export's `;`. |
| `ModuleResolver.ExportNamesUnit` | addon/ng2/utilities/module-resolver.ts:316 | The specifier `./<base>` of the export line, resolved from the new directory, names the moved file inside that directory. |
| `ModuleResolver.BarrelInsertThenRemove` | addon/ng2/utilities/module-resolver.ts:289-321 | After the insertion, the barrel holds `export * from './<base>';` followed by a line break, at the offsets a parser reports for that export. The export re-exports the unit. The removal that would be planned for it undoes the insertion, so promoting back restores the barrel. |
| `ModuleResolver.ResolveExport` | addon/ng2/utilities/module-resolver.ts:278-327 | It plans only removals and insertions. With an old barrel, the plan starts with exactly the `BarrelRemovals`: one per export of the unit, with its text and offset. With a new barrel, it ends with exactly the `BarrelInsert` into that barrel. There are no other changes. |
| `NodePath.ResolveRelative` | addon/ng2/utilities/module-resolver.ts:154-155 | Resolving `relative(from, to)` from `from` names the normalised `to`. |
| `NodePath.RelativeNotRooted` | addon/ng2/utilities/module-resolver.ts:64 | A relative path never starts with `/`. |
| `NodePath.DotLed` | addon/ng2/utilities/module-resolver.ts:65-67 | The result is empty or dot-led, and empty exactly when the input is. |
| `NodePath.ResolveDotLed` | addon/ng2/utilities/module-resolver.ts:156-158 | The `./` prefix does not change what a specifier names. |
| `NodePath.Extname` | addon/ng2/utilities/get-dependent-files.ts:40 | The extension is empty exactly when the name has no `.` after its first character, or is `..`. Otherwise it is the dot-led proper suffix from the last `.`, holding no other `.`. |
| `NodePath.BasenameExt` | addon/ng2/utilities/module-resolver.ts:108 | When the basename ends in a non-empty suffix shorter than itself, the result plus that suffix is the basename. Otherwise the result is the basename. It never holds a separator. |
| `ObjectMap.Put` | addon/ng2/utilities/get-dependent-files.ts:104 | Assigning a key adds it and reads back the new value. Other keys keep their values, distinct keys stay distinct, and existing keys keep their place. |
| `ObjectMap.PutPut` | addon/ng2/utilities/get-dependent-files.ts:102-105 | Writing one key twice leaves only the second value. |
| `DependentFiles.GetFiles` | addon/ng2/utilities/get-dependent-files.ts:37-47 | The walk fails exactly when an extensionless plain file would be read as a directory. It only appends, so the incoming list is a prefix of the result. |
| `DependentFiles.GetFilesListed` | addon/ng2/utilities/get-dependent-files.ts:37-47 | It collects exactly the files with an extension, including those inside extensionless directories, after what the list already held. |
| `DependentFiles.ListedBelow` | addon/ng2/utilities/get-dependent-files.ts:41-43 | Every collected file lies strictly below the directory walked. |
| `DependentFiles.IsComponentFileName` | addon/ng2/utilities/get-dependent-files.ts:83-89 | The filter keeps exactly the names ending in `.component.ts` with something before it. |
| `DependentFiles.Filter` | addon/ng2/utilities/get-dependent-files.ts:83-89 | It keeps exactly the component files. |
| `DependentFiles.FilterIsFilter` | addon/ng2/utilities/get-dependent-files.ts:83-89 | The filter keeps the listing's order and repetitions: it distributes over concatenation and keeps a single file exactly when it is a component file. |
| `DependentFiles.ReadAll` | addon/ng2/utilities/get-dependent-files.ts:93-100 | Reading succeeds exactly when every component file is readable. |
| `DependentFiles.ReadAllContents` | addon/ng2/utilities/get-dependent-files.ts:93-100 | `allFiles` holds each file read, with that file's specifiers, under distinct keys and nothing else. |
| `DependentFiles.LastMatchIndex` | addon/ng2/utilities/get-dependent-files.ts:101-107 | The index is -1 exactly when no import refers to the unit. Otherwise the import there refers to it and none after it does. |
| `DependentFiles.PutMatchesLast` | addon/ng2/utilities/get-dependent-files.ts:102-105 | The inner loop leaves only the file's last referring import, because later matches overwrite earlier ones. |
| `DependentFiles.PickDependentsContents` | addon/ng2/utilities/get-dependent-files.ts:101-107 | A file becomes a key exactly when one of its imports refers to the unit, and it maps to the last such import. |
| `DependentFiles.GetDependentFiles` | addon/ng2/utilities/get-dependent-files.ts:80-109 | The result never holds a file twice. |
| `DependentFiles.GetDependentFilesSpec` | addon/ng2/utilities/get-dependent-files.ts:80-109 | The search fails exactly when the tree cannot be walked or a component file cannot be read. Otherwise a file is a dependent exactly when it is a listed component file with an import whose basename is the unit's directory name, mapped to the last such import. |
| `ModuleResolve.IndexOfSegment` | addon/ng2/utilities/module-resolve.ts:33 | `indexOf` returns -1 exactly when the segment is absent, and otherwise its first occurrence. |
| `ModuleResolve.KeepOnAdd` | addon/ng2/utilities/module-resolve.ts:32-36 | It keeps exactly the non-empty new-parent segments whose first occurrence lies below the root. |
| `ModuleResolve.KeepOnAddIsFilter` | addon/ng2/utilities/module-resolve.ts:32-36 | The `toAdd` filter keeps the order and repetitions of the segments the delta text is joined from. It distributes over concatenation and tests each segment alone. |
| `ModuleResolve.KeepOnRemove` | addon/ng2/utilities/module-resolve.ts:47-49 | It keeps exactly the old-parent segments that occur nowhere in the text `src/app`. |
| `ModuleResolve.KeepOnRemoveIsFilter` | addon/ng2/utilities/module-resolve.ts:47-49 | The `toRemove` filter keeps the order and repetitions of the segments the delta text is joined from. It distributes over concatenation and tests each segment alone. |
| `ModuleResolve.DeltaText` | addon/ng2/utilities/module-resolve.ts:38-45 | The delta text is `.` exactly when nothing is kept. Otherwise it is `/`-led, and for plain segments it is `/` followed by the kept segments joined with `/`. |
| `ModuleResolve.DiffPaths` | addon/ng2/utilities/module-resolve.ts:19-66 | It fails with the same-place error exactly when both parents are equal. The operation is `toAdd` exactly when the new parent is deeper. The text is the delta of the new-parent segments whose first index lies below the root when adding. When removing, it is the delta of the old-parent segments that are not part of `src/app`. |
| `ModuleResolve.DiffPathsMoveDown` | addon/ng2/utilities/module-resolve.ts:31-45 | Moving from directly under the root into `y`, whose segments are plain and none named `src` or `app`, gives the delta `/` followed by `y`, to add. |
| `ModuleResolve.DiffPathsAdd` | addon/ng2/utilities/module-resolve.ts:31-45 | Moving into `src/app/<y>` from any shallower parent gives the delta `/` followed by all of `y`, to add, including the directories the old parent already had. |
| `ModuleResolve.DiffPathsMoveUp` | addon/ng2/utilities/module-resolve.ts:46-63 | Moving from `src/app/<b>` to `src/app` gives the delta `/<b>`, to remove, when `b` is not part of `src/app`. |
| `ModuleResolve.DiffPathsRemove` | addon/ng2/utilities/module-resolve.ts:46-63 | A move to a different parent that is no deeper gives the whole old parent below the root, to remove. |
| `ModuleResolve.RootOnRemove` | addon/ng2/utilities/module-resolve.ts:47-49 | The root's own segments never survive the remove filter. |
| `ModuleResolve.EditFor` | addon/ng2/utilities/module-resolve.ts:87-113 | Every edit targets the dependent. A removal removes exactly the delta text. An insertion adds the delta when adding, and `.` when removing. |
| `ModuleResolve.EditStaysInQuotes` | addon/ng2/utilities/module-resolve.ts:88-113 | For an import written with one space before the quote, the edit changes only the text between the quotes. |
| `ModuleResolve.WideSpacedImportMisses` | addon/ng2/utilities/module-resolve.ts:88-90 | With more than one space before the opening quote, the `.` of a `toRemove` edit lands in the whitespace: the file keeps the same specifier between the same quotes. |
| `ModuleResolve.MoveDownRepoints` | addon/ng2/utilities/module-resolve.ts:100-114 | Moving down from directly under the root, a dependent whose `<h>/<unit>` named the unit names the unit's new place once edited. |
| `ModuleResolve.MoveUpRepointsSibling` | addon/ng2/utilities/module-resolve.ts:88-90 | Moving up from `src/app/<b>`, a dependent in `b` whose `./<unit>` named the unit now reads `../<unit>` and names its new place. |
| `ModuleResolve.MoveUpRepointsCousin` | addon/ng2/utilities/module-resolve.ts:91-93 | Moving up from `src/app/<b>`, a dependent's `../<b>/<unit>` now reads `../<unit>` and names the unit's new place. |
| `ModuleResolve.SiblingMoveMisses` | addon/ng2/utilities/module-resolve.ts:46-63 | Moving between two sibling directories removes `/<a>`. The dependent is pointed at `src/app/<unit>`, which is not where the unit went. |
| `ModuleResolve.RootSubstringMisses` | addon/ng2/utilities/module-resolve.ts:47-49 | A segment that occurs inside the text `src/app` is never removed. The delta becomes `.`, and `../<s>/<unit>` turns into `..<s>/<unit>`. |
| `ModuleResolve.RootSubstringExample` | addon/ng2/utilities/module-resolve.ts:9 | `pp` is such a segment. |
| `ModuleResolve.DeepMoveUpMisses` | tests/acceptance/module-resolve.spec.ts:110-121 | Moving from `src/app/<a>/<b>/<c>` up to `src/app/<a>/<b>` removes the whole `/<a>/<b>/<c>`. A neighbour's `../<u>` turns into `.../<u>`, while `../../<u>` is what names the unit's new place. |
| `ModuleResolve.TwoUpRemoveMisses` | addon/ng2/utilities/module-resolve.ts:92 | Moving from `src/app/<b>` up to `src/app` removes `/<b>`. A dependent in `src/app/<x>/<y>` whose `../../<b>/<u>` named the old place loses as many characters as `/<b>` has, starting right after its leading `..`, rather than the delta itself. For a one-letter `b` this leaves `.../<b>/<u>`, and it is never `../../<u>`, which names the new place. |
| `ModuleResolve.DeepMoveUpExample` | tests/acceptance/module-resolve.spec.ts:110-121 | The directory names of the repository's deep-move test meet the conditions of the previous row. |
| `ModuleResolve.DeepMoveDownMisses` | addon/ng2/utilities/module-resolve.ts:31-45 | Moving from `src/app/<a>` down to `src/app/<a>/<b>` gives the delta `/<a>/<b>`. A dependent whose `<h>/<u>` named `src/app/<a>/<u>` is pointed at `src/app/<a>/<a>/<b>/<u>`, not at the unit's new place. |
| `ModuleResolve.ParseModuleSpecifiersAsWritten` | addon/ng2/utilities/module-resolve.ts:68-120 | No dependents gives "no dependent files". Any other success plans exactly one edit. Failure is the same-place error or the missing hard-coded dependent. |
| `ModuleResolve.EditsFrom` | addon/ng2/utilities/module-resolve.ts:87-94 | One edit per dependent, in key order, each the edit its import calls for. |
| `ModuleResolve.PlanDependentEdits` | addon/ng2/utilities/module-resolve.ts:84-115 | No dependents gives "no dependent files". Otherwise it fails exactly on a move within one directory, and plans one edit per dependent, for that dependent. |
| `ModuleResolve.AsWrittenAddsOnlyLast` | addon/ng2/utilities/module-resolve.ts:104-115 | On a move down, the source applies exactly the last planned edit. |
| `ModuleResolve.AsWrittenMissesDependent` | tests/acceptance/module-resolve.spec.ts:53-68 | Moving `src/app/bar/baz` up, the source edits only `bar.component.ts`. The plan also removes `/bar` from `foo.component.ts`. |

## Left out

- File I/O: the `readFile`/`writeFile` calls of each `apply`, `readdirSync`,
  `glob` and `fs-promise.ts`. File contents are a `map<Path, string>`, the
  directory listing is an `Entry` tree, and whether a barrel exists is a
  boolean parameter.
- The TypeScript compiler API: `createtsSourceFile`, `getModuleSpecifier`,
  `getExportDeclaration`, `getExportedSymbols`. Their outputs are given as
  `ImportRecord` and `ModuleExport` values.
- The promise chaining and `Promise.all`. The changes are folded sequentially.
  The race in each `apply`, which uses `content` before the read fills it, is
  not modelled: each `apply` is taken to read the file first.
- `hasPromotedSymbols` and `exportedSymbolsAccumulator`: they return nothing
  and only log.
- `MessageChange`, which has no behaviour.
- The `promote.ts` command, which validates arguments and renames files, and
  `getSiblingFiles`.
- The lookup in `parseModuleSpecifiers` of the component file inside the old
  directory (module-resolve.ts:69-78). The dependents map is a parameter.
- Platform path separators: `/` is the only separator. Trailing separators of
  specifiers are ignored by `SpecifierBasename`.
- The undeclared `a` at module-resolve.ts:97 and the syntax slips in
  `diffPaths` (the `forEach` calls closed with `};`). The model gives each
  expression its evident meaning.
- `Change.Order`: `order` is never assigned in change.ts (change.ts:30 declares
  it without a value). So the comparator `nextChange.order - currentChange.order`
  (module-resolver.ts:41) is `undefined - undefined`, which is NaN, and
  `Array.prototype.sort` treats NaN as 0. Under a stable sort, nothing is
  reordered, and each file's changes are applied in input order, not from the
  bottom up. `SortedApply.ApplySortedChangesAsWritten` models this (see
  Findings). The rest of the model takes the documented intent
  (change.ts:16-17), so the order of a change is its position. Older engines
  whose sort is unstable on long arrays may reorder equal elements; that is
  not modelled.
- `SortedApply.ApplySortedIsSimultaneous`: this law needs the changes of a
  file to be non-overlapping and at distinct positions. Under equal orders the
  stable sort keeps input order, where the source's `Array.prototype.sort` is
  not bound to.
- The concrete scenario of tests/acceptance/get-dependent-files.spec.ts:94-109
  is not restated as a lemma of its own. `DependentFiles.GetDependentFilesSpec`
  states the general law it instantiates.
- The same applies to the concrete specifiers of
  tests/acceptance/module-resolve.spec.ts:70-87. `ModuleResolve.MoveDownRepoints`
  states what the inserted delta does to any `<h>/<unit>`.
- The resolver and get-dependent-files.ts do not fit together as written.
  module-resolver.ts calls `hasIndexFile` (module-resolver.ts:102-103),
  `createTsSourceFile` (:147, :211, :226, :242-253, :286, :308) and `getImportClauses`
  (:148), none of which get-dependent-files.ts defines. It reads
  `specifierText` (:51-53, :132, :153) where the records carry `specifier`
  (get-dependent-files.ts:61). It calls `.map` on each dependent's value
  (:118) where getDependentFiles stores a single record per file
  (get-dependent-files.ts:104). The model takes the resolver's reading: each
  dependent maps to a list of `ImportRecord`s, `specifierText` is the record's
  `specifier`, and whether a barrel exists is a boolean parameter.
  `ModuleResolver.ResolveDependentFiles` is therefore not composed with
  `DependentFiles.GetDependentFiles`.
- `ModuleResolver.ResolveExport`: plans both the removals from the old barrel
  and the insertion into the new one. As written, resolveExport reads
  `denodeify` and `glob` without importing them (module-resolver.ts:279), so
  every call throws a `ReferenceError` before any barrel is looked at. Past
  that, it hands the removals to `this.sortedChangePromise` (:300), which the
  class does not define, so with an old barrel the chain would still reject
  before the insertion of :304-323.
- Character units: a `string` here is a sequence of characters, and offsets
  count those characters. JavaScript's `substring` and `.length`
  (change.ts:48, 75, 103) and the scanner's `pos`/`end` count UTF-16 code
  units. Content and offsets are taken in one unit, so a surrogate pair before
  an edit point is not modelled.

## Findings

| source | as written | input that shows it | evidently intended | confidence | as-written member | corrected member |
|---|---|---|---|---|---|---|
| addon/ng2/utilities/module-resolver.ts:128-130 | With a barrel in the new directory and a dependent already inside it, the new specifier is `../` plus the basename of the new directory's parent. | A dependent in `src/app/shared`, the unit promoted into `src/app/shared`, which has a barrel: the specifier `../app` names `src/app/app`. | `../` plus the new directory's own name, which names the new directory and so its barrel. | not executed; the path arithmetic is proved, the intent is read from the neighbouring branches | `ModuleResolver.NewSpecifierAsWritten` (`NewSpecifierAsWrittenMisses`, `NewSpecifierAsWrittenExample`, `NewSpecifierAsWrittenAims`, `DependentEdits`, `ResolveDependentFiles`, `ResolveDependentFilesComplete`) | `ModuleResolver.NewSpecifier` (`CorrectedDependentEdits`, `CorrectedResolveDependentFiles`, `CorrectedResolveDependentFilesComplete`) |
| addon/ng2/utilities/module-resolve.ts:87-115 | When removing, `changes.push[...]` reads a property instead of calling, so no loop edit is recorded. Only an insertion into the hard-coded `src/app/bar/bar.component.ts` is applied. When adding, each turn overwrites `a`, so only the last dependent is edited. | Moving `src/app/bar/baz` to `src/app/baz` with dependents `bar.component.ts` (`./baz`) and `foo.component.ts` (`../bar/baz`): `foo.component.ts` keeps `../bar/baz`, where tests/acceptance/module-resolve.spec.ts:64-67 expects `../baz`. | Every dependent gets the edit the delta calls for. | not executed; the evidence is the test's expectation for both files | `ModuleResolve.ParseModuleSpecifiersAsWritten` (`AsWrittenMissesDependent`, `AsWrittenAddsOnlyLast`) | `ModuleResolve.PlanDependentEdits` |
| addon/ng2/utilities/module-resolver.ts:41 | No change assigns `order`, so the comparator yields NaN for every pair, which the sort reads as "equal". The changes are applied in the order they were passed in. | Two insertions into one file containing `ab`, `X` at 0 and then `Y` at 1: they give `XYab`, so `Y` lands inside the text just inserted instead of between `a` and `b`. | Sort by position, descending, so that each file is edited from the bottom up and every offset still refers to the original text (change.ts:16-17), giving `XaYb`. | not executed; the NaN rule of `Array.prototype.sort` is read from ECMAScript, and the intent from the comment at change.ts:16-17 | `SortedApply.ApplySortedChangesAsWritten` (`AsWrittenAppliesTopDown`) | `SortedApply.ApplySortedChanges` (`ApplySortedIsSimultaneous`) |

=== FILE: apply_sorted.dfy ===
/**
 `applySortedChangePromise`: the changes are sorted by descending order and
 applied one after another, each reading and rewriting the file it names.
 File contents are a map from path to text.
 */
module SortedApply {
  import opened NodePath
  import opened Outcome
  import opened Change

  type Files = map<Path, string>

  /** No change is followed by one of higher order. */
  predicate Descending(cs: seq<Change>) {
    forall i, j :: 0 <= i < j < |cs| ==> Order(cs[j]) <= Order(cs[i])
  }

  /**
   Places `c` in front of the first change of lower or equal order, so that
   among equal orders the earlier change of the input stays first (the sort
   is stable).
   */
  function InsertByOrder(c: Change, s: seq<Change>): (r: seq<Change>)
    requires Descending(s)
    ensures Descending(r)
    ensures multiset(r) == multiset(s) + multiset{c}
    decreases |s|
  {
    if |s| == 0 || Order(s[0]) <= Order(c) then
      PrependAbove(c, s);
      [c] + s
    else
      var rest := InsertByOrder(c, s[1..]);
      PrependBelow(c, s, rest);
      [s[0]] + rest
  }

  /** A change of at least the order of the head goes in front. */
  lemma PrependAbove(c: Change, s: seq<Change>)
    requires Descending(s) && (|s| == 0 || Order(s[0]) <= Order(c))
    ensures Descending([c] + s)
  {
    forall y | y in s ensures Order(y) <= Order(c) {
      var j :| 0 <= j < |s| && s[j] == y;
    }
    PrependDescending(c, s);
  }

  /** Keeping the head in front of the tail with `c` inserted keeps the order and the contents. */
  lemma PrependBelow(c: Change, s: seq<Change>, rest: seq<Change>)
    requires Descending(s) && |s| > 0 && Order(c) < Order(s[0])
    requires Descending(rest) && multiset(rest) == multiset(s[1..]) + multiset{c}
    ensures Descending([s[0]] + rest)
    ensures multiset([s[0]] + rest) == multiset(s) + multiset{c}
  {
    forall x | x in rest ensures Order(x) <= Order(s[0]) {
      assert x in multiset(rest);
      if x != c {
        var j :| 0 <= j < |s[1..]| && s[1..][j] == x;
        assert s[j + 1] == x;
      }
    }
    PrependDescending(s[0], rest);
    assert s == [s[0]] + s[1..];
  }

  lemma PrependDescending(x: Change, t: seq<Change>)
    requires Descending(t)
    requires forall y :: y in t ==> Order(y) <= Order(x)
    ensures Descending([x] + t)
  {
    forall i, j | 0 <= i < j < |[x] + t| ensures Order(([x] + t)[j]) <= Order(([x] + t)[i]) {
      if i > 0 {
        assert ([x] + t)[i] == t[i - 1];
      }
      assert ([x] + t)[j] == t[j - 1];
    }
  }

  /** `changes.sort((a, b) => b.order - a.order)`. */
  function SortByOrder(cs: seq<Change>): (r: seq<Change>)
    ensures Descending(r)
    ensures multiset(r) == multiset(cs)
    decreases |cs|
  {
    if |cs| == 0 then []
    else
      assert cs == [cs[0]] + cs[1..];
      InsertByOrder(cs[0], SortByOrder(cs[1..]))
  }

  /**
   The `reduce` over the sorted changes: each change in turn reads its file,
   applies itself and writes the file back. A change naming a file that is
   not there rejects the chain.
   */
  function ApplyAll(files: Files, cs: seq<Change>): (r: Result<Files>)
    ensures r.Ok? <==> forall i :: 0 <= i < |cs| ==> cs[i].path in files
    ensures r.Ok? ==> r.value.Keys == files.Keys
    decreases |cs|
  {
    if |cs| == 0 then Ok(files)
    else if cs[0].path !in files then Err(ReadFailed(cs[0].path))
    else
      var r := ApplyAll(files[cs[0].path := ApplyChange(cs[0], files[cs[0].path])], cs[1..]);
      assert forall i :: 1 <= i < |cs| ==> cs[i] == cs[1..][i - 1];
      r
  }

  /** `applySortedChangePromise(changes)`. */
  function ApplySortedChanges(files: Files, cs: seq<Change>): (r: Result<Files>)
    ensures r.Ok? <==> forall c :: c in cs ==> c.path in files
    ensures r.Ok? ==> r.value.Keys == files.Keys
  {
    var sorted := SortByOrder(cs);
    assert forall c :: c in cs <==> c in sorted by {
      forall c ensures c in cs <==> c in sorted {
        assert c in cs <==> c in multiset(cs);
      }
    }
    ApplyAll(files, sorted)
  }

  /**
   The comparator of `applySortedChangePromise` as written. No change assigns
   `order`, so `nextChange.order - currentChange.order` is `undefined -
   undefined`, which is NaN, and `Array.prototype.sort` reads NaN as 0: every
   pair of changes compares equal.
   */
  function CompareAsWritten(a: Change, b: Change): int {
    0
  }

  /**
   One step of a stable insertion sort under the comparator `cmp`: `c`, which
   came first in the input, goes in front of the first change it does not sort
   after.
   */
  function InsertByCompare(c: Change, s: seq<Change>, cmp: (Change, Change) -> int): (r: seq<Change>)
    ensures multiset(r) == multiset(s) + multiset{c}
    ensures (forall a, b :: cmp(a, b) <= 0) ==> r == [c] + s
    decreases |s|
  {
    if |s| == 0 || cmp(c, s[0]) <= 0 then [c] + s
    else
      assert s == [s[0]] + s[1..];
      [s[0]] + InsertByCompare(c, s[1..], cmp)
  }

  /** `changes.sort(cmp)`, done stably. */
  function SortByCompare(cs: seq<Change>, cmp: (Change, Change) -> int): (r: seq<Change>)
    ensures multiset(r) == multiset(cs)
    ensures (forall a, b :: cmp(a, b) <= 0) ==> r == cs
    decreases |cs|
  {
    if |cs| == 0 then []
    else
      assert cs == [cs[0]] + cs[1..];
      InsertByCompare(cs[0], SortByCompare(cs[1..], cmp), cmp)
  }

  /**
   `applySortedChangePromise(changes)` as written: with every pair comparing
   equal the stable sort keeps the input order, so the changes are applied in
   the order they were passed in, not from the bottom of each file up.
   */
  function ApplySortedChangesAsWritten(files: Files, cs: seq<Change>): (r: Result<Files>)
    ensures r == ApplyAll(files, cs)
  {
    ApplyAll(files, SortByCompare(cs, CompareAsWritten))
  }

  /**
   Two insertions into `ab`, passed in top-down: as written the second lands
   after the first one's text (`XYab`), where the sort by position applies the
   lower one first and puts each at its intended offset (`XaYb`).
   */
  lemma AsWrittenAppliesTopDown(p: Path, x: Change, y: Change)
    requires x == InsertChange(p, 0, "X") && y == InsertChange(p, 1, "Y")
    ensures ApplySortedChangesAsWritten(map[p := "ab"], [x, y]) == Ok(map[p := "XYab"])
    ensures ApplySortedChanges(map[p := "ab"], [x, y]) == Ok(map[p := "XaYb"])
  {
    TwoInserts(p, x, y);
    InOrder(p, "ab", x, y, "Xab", "XYab");
    SortPair(x, y);
    InOrder(p, "ab", y, x, "aYb", "XaYb");
  }

  /** Two changes to the only file, applied in turn. */
  lemma InOrder(p: Path, content: string, a: Change, b: Change, mid: string, last: string)
    requires a.path == p && b.path == p
    requires ApplyChange(a, content) == mid && ApplyChange(b, mid) == last
    ensures ApplyAll(map[p := content], [a, b]) == Ok(map[p := last])
  {
    var files := map[p := content];
    ApplyTwo(files, a, b, mid, last);
    assert files[p := last] == map[p := last];
  }

  /** Of two changes, the one lower in the file is sorted first. */
  lemma SortPair(x: Change, y: Change)
    requires Order(x) < Order(y)
    ensures SortByOrder([x, y]) == [y, x]
  {
    assert [x, y][1..] == [y];
    assert SortByOrder([y]) == [y];
  }

  lemma TwoInserts(p: Path, x: Change, y: Change)
    requires x == InsertChange(p, 0, "X") && y == InsertChange(p, 1, "Y")
    ensures ApplyChange(x, "ab") == "Xab" && ApplyChange(y, "Xab") == "XYab"
    ensures ApplyChange(y, "ab") == "aYb" && ApplyChange(x, "aYb") == "XaYb"
  {
    assert "ab"[..0] + "X" + "ab"[0..] == "Xab";
    assert "Xab"[..1] + "Y" + "Xab"[1..] == "XYab";
    assert "ab"[..1] + "Y" + "ab"[1..] == "aYb";
    assert "aYb"[..0] + "X" + "aYb"[0..] == "XaYb";
  }

  /** Two changes to one file, applied in turn. */
  lemma ApplyTwo(files: Files, a: Change, b: Change, mid: string, last: string)
    requires a.path in files && b.path == a.path
    requires ApplyChange(a, files[a.path]) == mid && ApplyChange(b, mid) == last
    ensures ApplyAll(files, [a, b]) == Ok(files[a.path := last])
  {
    var f1 := files[a.path := mid];
    assert [a, b][1..] == [b];
    assert ApplyAll(f1, [b]) == ApplyAll(f1[b.path := last], []);
    assert f1[b.path := last] == files[a.path := last];
  }

  /** The changes of `cs` that target `p`, in their order in `cs`. */
  function OnFile(cs: seq<Change>, p: Path): (r: seq<Change>)
    ensures forall c :: c in r <==> c in cs && c.path == p
    decreases |cs|
  {
    if |cs| == 0 then []
    else
      assert forall c :: c in cs <==> c == cs[0] || c in cs[1..];
      if cs[0].path == p then [cs[0]] + OnFile(cs[1..], p) else OnFile(cs[1..], p)
  }

  /** Each file sees exactly its own changes, in the order of the list. */
  lemma {:induction false} ApplyAllOnFile(files: Files, cs: seq<Change>, p: Path)
    requires ApplyAll(files, cs).Ok? && p in files
    ensures ApplyAll(files, cs).value[p] == ApplyInOrder(files[p], OnFile(cs, p))
    decreases |cs|
  {
    if |cs| > 0 {
      var c := cs[0];
      var files' := files[c.path := ApplyChange(c, files[c.path])];
      ApplyAllOnFile(files', cs[1..], p);
    }
  }

  lemma {:induction false} OnFileDescending(cs: seq<Change>, p: Path)
    requires Descending(cs)
    ensures Descending(OnFile(cs, p))
    decreases |cs|
  {
    if |cs| > 0 {
      OnFileDescending(cs[1..], p);
      var rest := OnFile(cs[1..], p);
      if cs[0].path == p {
        forall x | x in rest ensures Order(x) <= Order(cs[0]) {
          var j :| 0 <= j < |cs[1..]| && cs[1..][j] == x;
          assert cs[j + 1] == x;
        }
        PrependDescending(cs[0], rest);
      }
    }
  }

  lemma {:induction false} OnFileCount(cs: seq<Change>, p: Path, c: Change)
    ensures multiset(OnFile(cs, p))[c] == if c.path == p then multiset(cs)[c] else 0
    decreases |cs|
  {
    if |cs| > 0 {
      OnFileCount(cs[1..], p, c);
      assert cs == [cs[0]] + cs[1..];
    }
  }

  /** Two changes whose spans do not overlap. */
  predicate Apart(a: Change, b: Change) {
    a.pos + Span(a) <= b.pos || b.pos + Span(b) <= a.pos
  }

  /**
   The changes of `cs` that target `p` fit a content of length `n`, sit at
   pairwise different positions with spans that do not overlap, and none is
   listed twice.
   */
  predicate NonOverlapping(cs: seq<Change>, p: Path, n: int) {
    && (forall c :: c in cs && c.path == p ==> 0 <= c.pos && c.pos + Span(c) <= n)
    && (forall a, b :: a in cs && b in cs && a.path == p && b.path == p && a != b ==>
          a.pos != b.pos && Apart(a, b))
    && (forall c :: c in cs && c.path == p ==> multiset(cs)[c] <= 1)
  }

  /** Every change ends at or before the start of every change listed before it. */
  predicate Stacked(s: seq<Change>, n: int) {
    && (forall i :: 0 <= i < |s| ==> 0 <= s[i].pos && s[i].pos + Span(s[i]) <= n)
    && (forall i, j :: 0 <= i < j < |s| ==> s[j].pos + Span(s[j]) <= s[i].pos)
  }

  lemma {:induction false} StackedIsLayered(s: seq<Change>, n: int)
    requires Stacked(s, n)
    ensures Layered(s, n)
    decreases |s|
  {
    if |s| > 0 {
      assert Stacked(s[1..], s[0].pos) by {
        forall i | 0 <= i < |s[1..]| ensures 0 <= s[1..][i].pos && s[1..][i].pos + Span(s[1..][i]) <= s[0].pos {
          assert s[1..][i] == s[i + 1];
        }
        forall i, j | 0 <= i < j < |s[1..]| ensures s[1..][j].pos + Span(s[1..][j]) <= s[1..][i].pos {
          assert s[1..][i] == s[i + 1] && s[1..][j] == s[j + 1];
        }
      }
      StackedIsLayered(s[1..], s[0].pos);
    }
  }

  /** In a list holding each element at most once, different indices hold different elements. */
  lemma NoRepeatAt(s: seq<Change>, i: int, j: int)
    requires 0 <= i < j < |s|
    requires multiset(s)[s[i]] <= 1
    ensures s[i] != s[j]
  {
    assert s == s[..j] + s[j..];
    assert s[i] in multiset(s[..j]);
    assert s[j] in multiset(s[j..]);
    assert multiset(s) == multiset(s[..j]) + multiset(s[j..]);
  }

  /** The sorted changes to a file whose changes do not overlap are stacked bottom-up. */
  lemma SortedOnFileStacked(cs: seq<Change>, p: Path, n: int)
    requires NonOverlapping(cs, p, n)
    ensures Stacked(OnFile(SortByOrder(cs), p), n)
  {
    var sorted := SortByOrder(cs);
    var s := OnFile(sorted, p);
    OnFileDescending(sorted, p);
    forall i | 0 <= i < |s| ensures 0 <= s[i].pos && s[i].pos + Span(s[i]) <= n {
      SortedOnFileMember(cs, p, n, s[i]);
    }
    forall i, j | 0 <= i < j < |s| ensures s[j].pos + Span(s[j]) <= s[i].pos {
      SortedOnFileMember(cs, p, n, s[i]);
      SortedOnFileMember(cs, p, n, s[j]);
      NoRepeatAt(s, i, j);
      StackedPair(cs, p, n, s[i], s[j]);
    }
  }

  lemma StackedPair(cs: seq<Change>, p: Path, n: int, a: Change, b: Change)
    requires NonOverlapping(cs, p, n)
    requires a in cs && b in cs && a.path == p && b.path == p && a != b
    requires Order(b) <= Order(a)
    ensures b.pos + Span(b) <= a.pos
  {
  }

  lemma SortedOnFileMember(cs: seq<Change>, p: Path, n: int, c: Change)
    requires NonOverlapping(cs, p, n)
    requires c in OnFile(SortByOrder(cs), p)
    ensures c in cs && c.path == p && 0 <= c.pos && c.pos + Span(c) <= n
    ensures multiset(OnFile(SortByOrder(cs), p))[c] <= 1
  {
    var sorted := SortByOrder(cs);
    assert c in multiset(sorted);
    OnFileCount(sorted, p, c);
  }

  /**
   Bottom-to-top application is safe: when the changes to `p` do not overlap,
   the sorted changes to `p` are layered from the bottom up, and the text
   written to `p` is the original text with every one of them spliced in at
   its original offset.
   */
  lemma ApplySortedIsSimultaneous(files: Files, cs: seq<Change>, p: Path)
    requires ApplySortedChanges(files, cs).Ok? && p in files
    requires NonOverlapping(cs, p, |files[p]|)
    ensures var s := OnFile(SortByOrder(cs), p);
      && Layered(s, |files[p]|)
      && ApplySortedChanges(files, cs).value[p] == Simultaneous(files[p], s)
  {
    var s := OnFile(SortByOrder(cs), p);
    ApplyAllOnFile(files, SortByOrder(cs), p);
    SortedOnFileStacked(cs, p, |files[p]|);
    StackedIsLayered(s, |files[p]|);
    ApplyInOrderIsSimultaneous(files[p], s);
  }
}

=== FILE: change.dfy ===
/**
 The three text edits of the refactoring (insert, remove, replace) as splices
 over a file's content, and what happens when several of them are applied to
 one file from the bottom up.
 */
module Change {
  import opened Text
  import opened NodePath

  datatype Change =
    | InsertChange(path: Path, pos: int, toAdd: string)
    | RemoveChange(path: Path, pos: int, toRemove: string)
    | ReplaceChange(path: Path, pos: int, oldText: string, newText: string)

  /** How many characters of the original content the change takes out. */
  function Span(c: Change): nat {
    match c
    case InsertChange(_, _, _) => 0
    case RemoveChange(_, _, t) => |t|
    case ReplaceChange(_, _, t, _) => |t|
  }

  /** The text the change puts in their place. */
  function Payload(c: Change): string {
    match c
    case InsertChange(_, _, t) => t
    case RemoveChange(_, _, _) => ""
    case ReplaceChange(_, _, _, t) => t
  }

  /**
   The order a change is applied in: its position in the file. Changes are
   applied from the highest order down, i.e. from the bottom of a file up.
   */
  function Order(c: Change): int {
    c.pos
  }

  /** The text `c` expects at its position; the edits apply without checking it. */
  predicate Matches(c: Change, content: string) {
    0 <= c.pos && c.pos + Span(c) <= |content| &&
    match c
    case InsertChange(_, _, _) => true
    case RemoveChange(_, p, t) => content[p..p + |t|] == t
    case ReplaceChange(_, p, t, _) => content[p..p + |t|] == t
  }

  /** `InsertChange.apply`: `toAdd` goes in at `pos`, clamped into the content. */
  function Insert(content: string, pos: int, toAdd: string): (r: string)
    ensures var k := Clamp(pos, |content|);
      && |r| == |content| + |toAdd|
      && r[..k] == content[..k]
      && r[k..k + |toAdd|] == toAdd
      && r[k + |toAdd|..] == content[k..]
  {
    SubstringTo(content, pos) + toAdd + SubstringFrom(content, pos)
  }

  /** `RemoveChange.apply`: cuts `|toRemove|` characters at `pos`, whatever they are. */
  function Remove(content: string, pos: int, toRemove: string): (r: string)
    ensures var k := Clamp(pos, |content|); var e := Clamp(pos + |toRemove|, |content|);
      && k <= e
      && |r| == |content| - (e - k)
      && r[..k] == content[..k]
      && r[k..] == content[e..]
    ensures 0 <= pos && pos + |toRemove| <= |content| ==> |r| == |content| - |toRemove|
  {
    SubstringTo(content, pos) + SubstringFrom(content, pos + |toRemove|)
  }

  /** `ReplaceChange.apply`: cuts `|oldText|` characters at `pos` and puts `newText` there. */
  function Replace(content: string, pos: int, oldText: string, newText: string): (r: string)
    ensures var k := Clamp(pos, |content|); var e := Clamp(pos + |oldText|, |content|);
      && k <= e
      && |r| == |content| - (e - k) + |newText|
      && r[..k] == content[..k]
      && r[k..k + |newText|] == newText
      && r[k + |newText|..] == content[e..]
  {
    SubstringTo(content, pos) + newText + SubstringFrom(content, pos + |oldText|)
  }

  /** Keeps the text before `pos`, drops `n` characters there and puts `t` in their place. */
  function Splice(content: string, pos: int, n: nat, t: string): string {
    SubstringTo(content, pos) + t + SubstringFrom(content, pos + n)
  }

  /**
   Applies one change to the content of its file. Within the content every
   change is the same splice: the text before `pos` is kept, `Span(c)`
   characters go and `Payload(c)` comes in.
   */
  function ApplyChange(c: Change, content: string): (r: string)
    ensures var k := Clamp(c.pos, |content|); k <= |r| && r[..k] == content[..k]
    ensures 0 <= c.pos && c.pos + Span(c) <= |content| ==>
      r == content[..c.pos] + Payload(c) + content[c.pos + Span(c)..]
  {
    SpliceAt(content, c.pos, Span(c), Payload(c));
    Splice(content, c.pos, Span(c), Payload(c))
  }

  /** The splice is what each kind of change's own `apply` computes. */
  lemma ApplyDispatches(c: Change, content: string)
    ensures c.InsertChange? ==> ApplyChange(c, content) == Insert(content, c.pos, c.toAdd)
    ensures c.RemoveChange? ==> ApplyChange(c, content) == Remove(content, c.pos, c.toRemove)
    ensures c.ReplaceChange? ==> ApplyChange(c, content) == Replace(content, c.pos, c.oldText, c.newText)
  {
    if c.RemoveChange? {
      assert SubstringTo(content, c.pos) + "" == SubstringTo(content, c.pos);
    }
  }

  /** A splice keeps the text before `pos`, and is exactly the cut-and-insert when in range. */
  lemma SpliceAt(content: string, pos: int, n: nat, t: string)
    ensures var r := Splice(content, pos, n, t);
      var k := Clamp(pos, |content|);
      && k <= |r| && r[..k] == content[..k]
      && (0 <= pos && pos + n <= |content| ==> r == content[..pos] + t + content[pos + n..])
  {
    var a := SubstringTo(content, pos);
    var r := a + t + SubstringFrom(content, pos + n);
    assert r[..|a|] == a;
  }

  // ---------------------------------------------------------------------------
  // Laws of the primitives

  /** A removal never looks at the removed span: only its length matters. */
  lemma RemoveIgnoresText(content: string, pos: int, t1: string, t2: string)
    requires |t1| == |t2|
    ensures Remove(content, pos, t1) == Remove(content, pos, t2)
  {
  }

  /** A replacement never looks at the text it replaces: only its length matters. */
  lemma ReplaceIgnoresOldText(content: string, pos: int, o1: string, o2: string, n: string)
    requires |o1| == |o2|
    ensures Replace(content, pos, o1, n) == Replace(content, pos, o2, n)
  {
  }

  /** Replacing nothing is inserting. */
  lemma ReplaceEmptyIsInsert(content: string, pos: int, n: string)
    ensures Replace(content, pos, "", n) == Insert(content, pos, n)
  {
  }

  /** Replacing with nothing is removing. */
  lemma ReplaceWithEmptyIsRemove(content: string, pos: int, o: string)
    ensures Replace(content, pos, o, "") == Remove(content, pos, o)
  {
    assert SubstringTo(content, pos) + "" == SubstringTo(content, pos);
  }

  /** Removing what was just inserted at the same place restores the content. */
  lemma InsertThenRemove(content: string, pos: int, t: string)
    requires 0 <= pos <= |content|
    ensures Remove(Insert(content, pos, t), pos, t) == content
  {
    var r := Insert(content, pos, t);
    assert Remove(r, pos, t) == content[..pos] + content[pos..];
    assert content == content[..pos] + content[pos..];
  }

  /** Re-inserting what a removal took out restores the content, when the removal matched. */
  lemma RemoveThenInsert(content: string, pos: int, t: string)
    requires Matches(RemoveChange([], pos, t), content)
    ensures Insert(Remove(content, pos, t), pos, t) == content
  {
    var r := Remove(content, pos, t);
    assert r == content[..pos] + content[pos + |t|..];
    assert Insert(r, pos, t) == content[..pos] + t + content[pos + |t|..];
    assert content == content[..pos] + content[pos..pos + |t|] + content[pos + |t|..];
  }

  /** A matching replacement is undone by the swapped replacement. */
  lemma ReplaceThenReplaceBack(content: string, pos: int, o: string, n: string)
    requires Matches(ReplaceChange([], pos, o, n), content)
    ensures Replace(Replace(content, pos, o, n), pos, n, o) == content
  {
    var r := Replace(content, pos, o, n);
    assert r == content[..pos] + n + content[pos + |o|..];
    assert Replace(r, pos, n, o) == content[..pos] + o + content[pos + |o|..];
    assert content == content[..pos] + content[pos..pos + |o|] + content[pos + |o|..];
  }

  /** A change inside a prefix `x` leaves the rest `y` alone. */
  lemma ApplyInPrefix(c: Change, x: string, y: string)
    requires 0 <= c.pos && c.pos + Span(c) <= |x|
    ensures ApplyChange(c, x + y) == ApplyChange(c, x) + y
  {
    var p, e, t := c.pos, c.pos + Span(c), Payload(c);
    Spliced(c, x);
    Spliced(c, x + y);
    SpliceInPrefix(x, y, p, e, t);
  }

  lemma Spliced(c: Change, content: string)
    requires 0 <= c.pos && c.pos + Span(c) <= |content|
    ensures ApplyChange(c, content) == content[..c.pos] + Payload(c) + content[c.pos + Span(c)..]
  {
  }

  lemma SpliceInPrefix(x: string, y: string, p: nat, e: nat, t: string)
    requires p <= e <= |x|
    ensures (x + y)[..p] + t + (x + y)[e..] == (x[..p] + t + x[e..]) + y
  {
    assert (x + y)[..p] == x[..p];
    assert (x + y)[e..] == x[e..] + y;
  }

  lemma Associate(a: string, b: string, c: string)
    ensures a + (b + c) == a + b + c
  {
  }

  // ---------------------------------------------------------------------------
  // Several changes to one file

  /** Applies `cs` to one file's content, `cs[0]` first. */
  function ApplyInOrder(content: string, cs: seq<Change>): string
    decreases |cs|
  {
    if |cs| == 0 then content
    else ApplyInOrder(ApplyChange(cs[0], content), cs[1..])
  }

  /**
   `cs` runs from the bottom of a content of length `n` to its top: each span
   lies within the content and ends at or before the start of the change
   applied just before it.
   */
  predicate Layered(cs: seq<Change>, n: int)
    decreases |cs|
  {
    |cs| == 0 ||
    (0 <= cs[0].pos && cs[0].pos + Span(cs[0]) <= n && Layered(cs[1..], cs[0].pos))
  }

  /**
   The changes of a layered list spliced into the ORIGINAL content at their
   original offsets: the part above the bottom-most change is edited by the
   rest, the part below it is untouched.
   */
  function Simultaneous(content: string, cs: seq<Change>): string
    requires Layered(cs, |content|)
    decreases |cs|
  {
    if |cs| == 0 then content
    else
      var c := cs[0];
      Simultaneous(content[..c.pos], cs[1..]) + Payload(c) + content[c.pos + Span(c)..]
  }

  lemma {:induction false} LayeredWeaken(cs: seq<Change>, n: int, m: int)
    requires Layered(cs, n) && n <= m
    ensures Layered(cs, m)
  {
  }

  /** Changes confined to a prefix `x` leave the rest `y` alone. */
  lemma {:induction false} ApplyInOrderInPrefix(x: string, y: string, cs: seq<Change>)
    requires Layered(cs, |x|)
    ensures ApplyInOrder(x + y, cs) == ApplyInOrder(x, cs) + y
    decreases |cs|
  {
    if |cs| > 0 {
      var c := cs[0];
      ApplyInPrefix(c, x, y);
      var x' := ApplyChange(c, x);
      assert |x'| == |x| - Span(c) + |Payload(c)|;
      LayeredWeaken(cs[1..], c.pos, |x'|);
      ApplyInOrderInPrefix(x', y, cs[1..]);
    }
  }

  /**
   Bottom-to-top application is safe: applying a layered list one change
   after another gives the same text as splicing every change into the
   original content at its original offset.
   */
  lemma {:induction false} ApplyInOrderIsSimultaneous(content: string, cs: seq<Change>)
    requires Layered(cs, |content|)
    ensures ApplyInOrder(content, cs) == Simultaneous(content, cs)
    decreases |cs|
  {
    if |cs| > 0 {
      var c := cs[0];
      var x, t, z := content[..c.pos], Payload(c), content[c.pos + Span(c)..];
      Associate(x, t, z);
      ApplyInOrderInPrefix(x, t + z, cs[1..]);
      ApplyInOrderIsSimultaneous(x, cs[1..]);
      Associate(Simultaneous(x, cs[1..]), t, z);
    }
  }
}

=== FILE: dependent_files.dfy ===
/**
 Finding the files that import a component: list every file under the project
 root, keep the component sources, and map each one that names the
 component's directory in an import to that import's module specifier.
 */
module DependentFiles {
  import opened Text
  import opened NodePath
  import opened Outcome
  import opened ObjectMap

  /** A module specifier found in an import clause, with its source offsets. */
  datatype ImportRecord = ImportRecord(specifier: string, pos: int, end: int)

  /** A directory listing as the file system returns it, in listing order. */
  datatype Entry =
    | File(name: Segment)
    | Directory(name: Segment, entries: seq<Entry>)

  // ---------------------------------------------------------------------------
  // getFiles

  /**
   A listing `getFiles` cannot walk: somewhere along its extensionless names
   there is a file without an extension, which it takes for a directory.
   */
  predicate HasBareFile(entries: seq<Entry>)
    decreases entries
  {
    |entries| > 0 &&
    ((Extname(entries[0].name) == "" &&
      match entries[0]
      case File(_) => true
      case Directory(_, children) => HasBareFile(children))
     || HasBareFile(entries[1..]))
  }

  /**
   `getFiles(dir, acc)`: appends to `acc` the path of every entry whose name
   has an extension, descending into every entry whose name has none, in
   listing order. Reading a plain file as a directory fails.
   */
  function GetFiles(dir: Path, entries: seq<Entry>, acc: seq<Path>): (r: Result<seq<Path>>)
    ensures r.Ok? <==> !HasBareFile(entries)
    ensures r.Ok? ==> |acc| <= |r.value| && r.value[..|acc|] == acc
    decreases entries
  {
    if |entries| == 0 then Ok(acc)
    else
      var e := entries[0];
      if Extname(e.name) != "" then
        var r := GetFiles(dir, entries[1..], acc + [dir + [e.name]]);
        if r.Ok? then
          PrefixChain(acc, acc + [dir + [e.name]], r.value);
          r
        else r
      else
        match e
        case File(n) => Err(NotADirectory(dir + [n]))
        case Directory(n, children) =>
          var inner := GetFiles(dir + [n], children, acc);
          if inner.Err? then inner
          else
            var r := GetFiles(dir, entries[1..], inner.value);
            if r.Ok? then
              PrefixChain(acc, inner.value, r.value);
              r
            else r
  }

  lemma PrefixChain(a: seq<Path>, b: seq<Path>, c: seq<Path>)
    requires |a| <= |b| && b[..|a|] == a
    requires |b| <= |c| && c[..|b|] == b
    ensures |a| <= |c| && c[..|a|] == a
  {
    assert c[..|a|] == c[..|b|][..|a|];
  }

  /** The files of a listing: named with an extension, or inside an extensionless directory. */
  ghost predicate Listed(dir: Path, entries: seq<Entry>, p: Path)
    decreases entries
  {
    |entries| > 0 &&
    (ListedEntry(dir, entries[0], p) || Listed(dir, entries[1..], p))
  }

  ghost predicate ListedEntry(dir: Path, e: Entry, p: Path)
    decreases e
  {
    if Extname(e.name) != "" then p == dir + [e.name]
    else e.Directory? && Listed(dir + [e.name], e.entries, p)
  }

  /** `getFiles` collects exactly the listed files, after what `acc` already held. */
  lemma {:induction false} GetFilesListed(dir: Path, entries: seq<Entry>, acc: seq<Path>, p: Path)
    requires GetFiles(dir, entries, acc).Ok?
    ensures var r := GetFiles(dir, entries, acc).value;
      p in r <==> p in acc || Listed(dir, entries, p)
    decreases entries
  {
    if |entries| > 0 {
      var e := entries[0];
      if Extname(e.name) != "" {
        GetFilesListed(dir, entries[1..], acc + [dir + [e.name]], p);
      } else {
        var inner := GetFiles(dir + [e.name], e.entries, acc);
        GetFilesListed(dir + [e.name], e.entries, acc, p);
        GetFilesListed(dir, entries[1..], inner.value, p);
      }
    }
  }

  /** Every listed file lies strictly below the directory listed. */
  lemma {:induction false} ListedBelow(dir: Path, entries: seq<Entry>, p: Path)
    requires Listed(dir, entries, p)
    ensures |dir| < |p| && p[..|dir|] == dir
    decreases entries
  {
    var e := entries[0];
    if ListedEntry(dir, e, p) {
      if Extname(e.name) == "" {
        ListedBelow(dir + [e.name], e.entries, p);
        assert p[..|dir|] == p[..|dir| + 1][..|dir|];
      }
    } else {
      ListedBelow(dir, entries[1..], p);
    }
  }

  // ---------------------------------------------------------------------------
  // The component-file filter

  /**
   The filter of `getDependentFiles`: the extension is `.ts`, and with `.ts`
   taken off the extension is `.component`.
   */
  predicate IsComponentFile(p: Path) {
    Extname(Basename(p)) == ".ts" && Extname(BasenameExt(p, ".ts")) == ".component"
  }

  /** The filter keeps exactly the files named `<something>.component.ts`. */
  lemma IsComponentFileName(p: Path)
    ensures IsComponentFile(p) <==> |Basename(p)| > 13 && EndsWith(Basename(p), ".component.ts")
  {
    var b := Basename(p);
    if IsComponentFile(p) {
      ComponentFileIsNamed(p);
    } else if |b| > 13 && EndsWith(b, ".component.ts") {
      NamedIsComponentFile(p);
    }
  }

  lemma ComponentFileIsNamed(p: Path)
    requires IsComponentFile(p)
    ensures |Basename(p)| > 13 && EndsWith(Basename(p), ".component.ts")
  {
    var b := Basename(p);
    TsStripped(p);
    var b' := BasenameExt(p, ".ts");
    ExtnameIs(b', ".component");
    NameOfParts(b, b');
  }

  /** A name with extension `.ts` loses exactly those three characters. */
  lemma TsStripped(p: Path)
    requires Extname(Basename(p)) == ".ts"
    ensures var b := Basename(p);
      |b| > 3 && EndsWith(b, ".ts") && BasenameExt(p, ".ts") == b[..|b| - 3]
  {
    ExtnameIs(Basename(p), ".ts");
  }

  /** `<stem>.component` followed by `.ts` ends in `.component.ts`. */
  lemma NameOfParts(b: string, b': string)
    requires |b| > 3 && EndsWith(b, ".ts") && b' == b[..|b| - 3]
    requires |b'| > 10 && EndsWith(b', ".component")
    ensures |b| > 13 && EndsWith(b, ".component.ts")
  {
    SuffixConcat(b, 3, 10);
  }

  lemma NamedIsComponentFile(p: Path)
    requires |Basename(p)| > 13 && EndsWith(Basename(p), ".component.ts")
    ensures IsComponentFile(p)
  {
    var b := Basename(p);
    NameParts(b);
    ExtnameOf(b, ".ts");
    var b' := b[..|b| - 3];
    StripTs(p);
    ExtnameOf(b', ".component");
  }

  /** A name ending in `.component.ts` ends in `.ts`, and without it ends in `.component`. */
  lemma NameParts(b: string)
    requires |b| > 13 && EndsWith(b, ".component.ts")
    ensures EndsWith(b, ".ts") && |b[..|b| - 3]| > 10 && EndsWith(b[..|b| - 3], ".component")
  {
    SuffixConcat(b, 3, 10);
    assert ".component.ts" == ".component" + ".ts";
  }

  /** `basename(p, '.ts')` of a name ending in `.ts` drops those three characters. */
  lemma StripTs(p: Path)
    requires |Basename(p)| > 3 && EndsWith(Basename(p), ".ts")
    ensures BasenameExt(p, ".ts") == Basename(p)[..|Basename(p)| - 3]
  {
  }

  /** The last `m + n` characters are the last `n` before the last `m`, then the last `m`. */
  lemma SuffixConcat(s: string, m: nat, n: nat)
    requires m + n <= |s|
    ensures s[|s| - m - n..] == s[..|s| - m][|s| - m - n..] + s[|s| - m..]
  {
  }

  /** What an extension `ext` (a dot and then no dot) says of a name. */
  lemma ExtnameIs(name: string, ext: string)
    requires |ext| > 0 && ext[0] == '.' && '.' !in ext[1..]
    requires Extname(name) == ext
    ensures |ext| < |name| && EndsWith(name, ext)
  {
  }

  /** A name longer than its suffix `ext` (a dot and then no dot) has that extension. */
  lemma ExtnameOf(name: string, ext: string)
    requires |ext| > 0 && ext[0] == '.' && '.' !in ext[1..]
    requires |ext| < |name| && EndsWith(name, ext) && name != ".."
    ensures Extname(name) == ext
  {
    var k := |name| - |ext|;
    assert name[k] == '.';
    assert name[k + 1..] == ext[1..];
    var j := LastIndexOfChar(name, '.');
    assert j == k;
  }

  // ---------------------------------------------------------------------------
  // Reading the component files

  /**
   `allFiles[file] = moduleSpecifiers` for each component file in turn. The
   specifiers of a readable file are given by `scanned`; a file missing from it
   cannot be read.
   */
  function ReadAll(files: seq<Path>, scanned: map<Path, seq<ImportRecord>>,
                   all: Entries<Path, seq<ImportRecord>>): (r: Result<Entries<Path, seq<ImportRecord>>>)
    ensures r.Ok? <==> forall i :: 0 <= i < |files| ==> files[i] in scanned
    decreases |files|
  {
    if |files| == 0 then Ok(all)
    else if files[0] !in scanned then Err(ReadFailed(files[0]))
    else
      var r := ReadAll(files[1..], scanned, Put(all, files[0], scanned[files[0]]));
      assert forall i :: 1 <= i < |files| ==> files[i] == files[1..][i - 1];
      r
  }

  /** `allFiles` holds each file read, with that file's specifiers, and nothing else. */
  lemma {:induction false} ReadAllContents(files: seq<Path>, scanned: map<Path, seq<ImportRecord>>,
                                           all: Entries<Path, seq<ImportRecord>>)
    requires DistinctKeys(all)
    requires forall p :: p in Keys(all) ==> p in scanned && Get(all, p) == scanned[p]
    requires ReadAll(files, scanned, all).Ok?
    ensures var r := ReadAll(files, scanned, all).value;
      && DistinctKeys(r)
      && (forall p :: p in Keys(r) <==> p in Keys(all) || p in files)
      && forall p :: p in Keys(r) ==> p in scanned && Get(r, p) == scanned[p]
    decreases |files|
  {
    if |files| > 0 {
      var all' := Put(all, files[0], scanned[files[0]]);
      ReadAllContents(files[1..], scanned, all');
      assert forall p :: p in files <==> p == files[0] || p in files[1..];
    }
  }

  // ---------------------------------------------------------------------------
  // Picking the dependent files

  /**
   An import refers to the component when the last segment of its specifier is
   the name of the directory the component file sits in.
   */
  predicate Refers(rec: ImportRecord, unit: string) {
    SpecifierBasename(rec.specifier) == unit
  }

  predicate HasMatch(recs: seq<ImportRecord>, unit: string) {
    exists i :: 0 <= i < |recs| && Refers(recs[i], unit)
  }

  /** Index of the last import referring to `unit`, or -1. */
  function LastMatchIndex(recs: seq<ImportRecord>, unit: string): (i: int)
    ensures -1 <= i < |recs|
    ensures i == -1 <==> !HasMatch(recs, unit)
    ensures i >= 0 ==> Refers(recs[i], unit)
    ensures forall j :: i < j < |recs| ==> !Refers(recs[j], unit)
    decreases |recs|
  {
    if |recs| == 0 then -1
    else if Refers(recs[|recs| - 1], unit) then |recs| - 1
    else LastMatchIndex(recs[..|recs| - 1], unit)
  }

  /**
   The inner loop of `getDependentFiles`: `relevantFiles[file] = rec` for every
   import `rec` of `file` that refers to `unit`, in source order.
   */
  function PutMatches(acc: Entries<Path, ImportRecord>, file: Path, recs: seq<ImportRecord>,
                      unit: string): Entries<Path, ImportRecord>
    decreases |recs|
  {
    if |recs| == 0 then acc
    else
      var acc' := if Refers(recs[0], unit) then Put(acc, file, recs[0]) else acc;
      PutMatches(acc', file, recs[1..], unit)
  }

  /** The inner loop keeps only the last referring import of the file. */
  lemma {:induction false} PutMatchesLast(acc: Entries<Path, ImportRecord>, file: Path,
                                          recs: seq<ImportRecord>, unit: string)
    ensures var i := LastMatchIndex(recs, unit);
      PutMatches(acc, file, recs, unit) == if i < 0 then acc else Put(acc, file, recs[i])
    decreases |recs|
  {
    if |recs| > 0 {
      var acc' := if Refers(recs[0], unit) then Put(acc, file, recs[0]) else acc;
      PutMatchesLast(acc', file, recs[1..], unit);
      var i := LastMatchIndex(recs, unit);
      var i' := LastMatchIndex(recs[1..], unit);
      LastMatchShift(recs, unit);
      if i' >= 0 {
        assert recs[1..][i'] == recs[i];
        if Refers(recs[0], unit) {
          PutPut(acc, file, recs[0], recs[i]);
        }
      }
    }
  }

  /** The last match in `recs` is the last match in its tail, or else its head. */
  lemma LastMatchShift(recs: seq<ImportRecord>, unit: string)
    requires |recs| > 0
    ensures var i, i' := LastMatchIndex(recs, unit), LastMatchIndex(recs[1..], unit);
      && (i' >= 0 ==> i == i' + 1)
      && (i' < 0 ==> i == if Refers(recs[0], unit) then 0 else -1)
  {
    var i' := LastMatchIndex(recs[1..], unit);
    forall j | i' + 1 < j < |recs| && 1 <= j ensures !Refers(recs[j], unit) {
      assert recs[j] == recs[1..][j - 1];
    }
    if i' >= 0 {
      assert recs[1..][i'] == recs[i' + 1];
    }
  }

  /** The outer loop of `getDependentFiles`, over `allFiles` in insertion order. */
  function PickDependents(acc: Entries<Path, ImportRecord>, all: Entries<Path, seq<ImportRecord>>,
                          unit: string): Entries<Path, ImportRecord>
    decreases |all|
  {
    if |all| == 0 then acc
    else PickDependents(PutMatches(acc, all[0].0, all[0].1, unit), all[1..], unit)
  }

  /**
   A file is a dependent exactly when it was read and one of its imports
   refers to the component, and it maps to the last such import.
   */
  lemma {:induction false} PickDependentsContents(acc: Entries<Path, ImportRecord>,
                                                  all: Entries<Path, seq<ImportRecord>>,
                                                  unit: string, p: Path)
    requires DistinctKeys(all)
    ensures var r := PickDependents(acc, all, unit);
      var picked := p in Keys(all) && HasMatch(Get(all, p), unit);
      && (p in Keys(r) <==> p in Keys(acc) || picked)
      && (picked ==> Get(r, p) == Get(all, p)[LastMatchIndex(Get(all, p), unit)])
      && (!picked && p in Keys(acc) ==> Get(r, p) == Get(acc, p))
    decreases |all|
  {
    if |all| > 0 {
      var file := all[0].0;
      var acc' := PutMatches(acc, file, all[0].1, unit);
      PutMatchesLast(acc, file, all[0].1, unit);
      assert DistinctKeys(all[1..]);
      PickDependentsContents(acc', all[1..], unit, p);
      assert Keys(all) == {file} + Keys(all[1..]);
      if p == file {
        forall q | q in Keys(all[1..]) ensures q != file {
          var j := KeyIndex(all[1..], q);
          assert all[j + 1].0 == q;
        }
      } else if p in Keys(all[1..]) {
        assert Get(all, p) == Get(all[1..], p);
      }
    } else {
      assert Keys(all) == {};
    }
  }

  // ---------------------------------------------------------------------------
  // getDependentFiles

  /**
   `getDependentFiles(fileName, rootPath)`: `tree` is the listing under
   `rootPath`, `scanned` the module specifiers of every readable file.
   */
  function GetDependentFiles(fileName: Path, rootPath: Path, tree: seq<Entry>,
                             scanned: map<Path, seq<ImportRecord>>): (r: Result<Entries<Path, ImportRecord>>)
    ensures r.Ok? ==> DistinctKeys(r.value)
  {
    var files :- GetFiles(rootPath, tree, []);
    var components := Filter(files);
    var all :- ReadAll(components, scanned, []);
    ReadAllContents(components, scanned, []);
    var r := PickDependents([], all, Basename(Dirname(fileName)));
    PickDependentsDistinct([], all, Basename(Dirname(fileName)));
    Ok(r)
  }

  /** `files.filter(...)` with the component-file test. */
  function Filter(files: seq<Path>): (r: seq<Path>)
    ensures forall p :: p in r <==> p in files && IsComponentFile(p)
  {
    if |files| == 0 then []
    else
      var rest := Filter(files[1..]);
      assert forall p :: p in files <==> p == files[0] || p in files[1..];
      if IsComponentFile(files[0]) then [files[0]] + rest else rest
  }

  /**
   The component files keep the order and the repetitions of the listing:
   the filter distributes over concatenation and tests each file alone.
   */
  lemma {:induction false} FilterIsFilter(a: seq<Path>, b: seq<Path>, x: Path)
    ensures Filter(a + b) == Filter(a) + Filter(b)
    ensures Filter([x]) == if IsComponentFile(x) then [x] else []
    decreases |a|
  {
    if |a| > 0 {
      var t := a[1..];
      HeadTail(a, b);
      FilterIsFilter(t, b, x);
      FilterCons(a[0], t);
      FilterCons(a[0], t + b);
      AppendAssoc(if IsComponentFile(a[0]) then [a[0]] else [], Filter(t), Filter(b));
    } else {
      assert a + b == b;
    }
    FilterOne(x);
  }

  lemma FilterOne(x: Path)
    ensures Filter([x]) == if IsComponentFile(x) then [x] else []
  {
    FilterCons(x, []);
    assert [x] + [] == [x];
  }

  lemma FilterCons(e: Path, s: seq<Path>)
    ensures Filter([e] + s) == (if IsComponentFile(e) then [e] else []) + Filter(s)
  {
    var es := [e] + s;
    assert es[0] == e && es[1..] == s;
    if !IsComponentFile(e) {
      assert [] + Filter(s) == Filter(s);
    }
  }

  lemma {:induction false} PickDependentsDistinct(acc: Entries<Path, ImportRecord>,
                                                  all: Entries<Path, seq<ImportRecord>>, unit: string)
    requires DistinctKeys(acc)
    ensures DistinctKeys(PickDependents(acc, all, unit))
    decreases |all|
  {
    if |all| > 0 {
      var acc' := PutMatches(acc, all[0].0, all[0].1, unit);
      PutMatchesLast(acc, all[0].0, all[0].1, unit);
      PickDependentsDistinct(acc', all[1..], unit);
    }
  }

  /**
   The whole search: a file under the root is a dependent of `fileName` exactly
   when it is a component file and one of its imports names the directory
   `fileName` sits in; it maps to the last such import. It fails when the
   listing cannot be walked or a component file cannot be read.
   */
  lemma GetDependentFilesSpec(fileName: Path, rootPath: Path, tree: seq<Entry>,
                              scanned: map<Path, seq<ImportRecord>>, p: Path)
    ensures var r := GetDependentFiles(fileName, rootPath, tree, scanned);
      var unit := Basename(Dirname(fileName));
      && (r.Ok? <==>
            (!HasBareFile(tree) &&
             forall q :: Listed(rootPath, tree, q) && IsComponentFile(q) ==> q in scanned))
      && (r.Ok? ==>
            (p in Keys(r.value) <==>
               Listed(rootPath, tree, p) && IsComponentFile(p) && HasMatch(scanned[p], unit))
            && (p in Keys(r.value) ==>
                  Get(r.value, p) == scanned[p][LastMatchIndex(scanned[p], unit)]))
  {
    var unit := Basename(Dirname(fileName));
    var files := GetFiles(rootPath, tree, []);
    if files.Ok? {
      forall q ensures q in files.value <==> Listed(rootPath, tree, q) {
        GetFilesListed(rootPath, tree, [], q);
      }
      var components := Filter(files.value);
      var all := ReadAll(components, scanned, []);
      if all.Ok? {
        ReadAllContents(components, scanned, []);
        PickDependentsContents([], all.value, unit, p);
        assert p in Keys(all.value) <==> p in components;
      } else {
        var i :| 0 <= i < |components| && components[i] !in scanned;
        assert Listed(rootPath, tree, components[i]) && IsComponentFile(components[i]);
      }
    }
  }
}

=== FILE: module_resolve.dfy ===
/**
 `ModuleResolve`: the resolver that moves a unit directory and patches the
 import specifier of every dependent with a path delta, either inserting the
 directories the unit moved down into or removing the one it moved up out
 of. Paths here are relative to the project (`src/app/...`) and are given as
 segment lists.
 */
module ModuleResolve {
  import opened Text
  import opened NodePath
  import opened Outcome
  import opened ObjectMap
  import opened Change
  import opened DependentFiles
  import opened ModuleResolver

  /** `rootPath`. */
  const RootText: string := "src/app"

  /** `rootPath.split('/')`. */
  const Root: Path := ["src", "app"]

  datatype Operation = ToAdd | ToRemove

  /** What `diffPaths` returns: the text to splice into specifiers, and which way. */
  datatype Delta = Delta(text: string, operation: Operation)

  /** `path.dirname(p).split('/')` of a project-relative path: a bare name has the parent `.`. */
  function ParentSegments(p: Path): Path {
    if |p| <= 1 then ["."] else Dirname(p)
  }

  /** `segs.indexOf(s)`: the first index holding `s`, or -1. */
  function IndexOfSegment(segs: seq<string>, s: string): (i: int)
    ensures -1 <= i
    ensures i == -1 <==> s !in segs
    ensures i >= 0 ==> i < |segs| && segs[i] == s && forall j :: 0 <= j < i ==> segs[j] != s
    decreases |segs|
  {
    if |segs| == 0 then -1
    else if segs[0] == s then 0
    else
      var k := IndexOfSegment(segs[1..], s);
      assert s in segs <==> s in segs[1..];
      if k == -1 then -1
      else
        assert forall j :: 1 <= j <= k ==> segs[j] == segs[1..][j - 1];
        assert segs[k + 1] == s;
        k + 1
  }

  /**
   The `toAdd` filter: a segment of the new parent `dir` stays when it is not
   empty and its first occurrence lies below the root.
   */
  predicate KeptOnAdd(dir: Path, s: string) {
    s != "" && IndexOfSegment(dir, s) > |Root| - 1
  }

  function KeepOnAdd(dir: Path, rest: Path): (r: Path)
    ensures forall s :: s in r <==> s in rest && KeptOnAdd(dir, s)
    decreases |rest|
  {
    if |rest| == 0 then []
    else
      assert forall s :: s in rest <==> s == rest[0] || s in rest[1..];
      if KeptOnAdd(dir, rest[0]) then [rest[0]] + KeepOnAdd(dir, rest[1..])
      else KeepOnAdd(dir, rest[1..])
  }

  /**
   The `toAdd` filter keeps the order and the repetitions of the segments it
   keeps: it distributes over concatenation and tests each segment alone.
   */
  lemma {:induction false} KeepOnAddIsFilter(dir: Path, a: Path, b: Path, x: Segment)
    ensures KeepOnAdd(dir, a + b) == KeepOnAdd(dir, a) + KeepOnAdd(dir, b)
    ensures KeepOnAdd(dir, [x]) == if KeptOnAdd(dir, x) then [x] else []
    decreases |a|
  {
    if |a| > 0 {
      var t := a[1..];
      HeadTail(a, b);
      KeepOnAddIsFilter(dir, t, b, x);
      KeepOnAddCons(dir, a[0], t);
      KeepOnAddCons(dir, a[0], t + b);
      AppendAssoc(if KeptOnAdd(dir, a[0]) then [a[0]] else [], KeepOnAdd(dir, t), KeepOnAdd(dir, b));
    } else {
      assert a + b == b;
    }
    KeepOnAddOne(dir, x);
  }

  lemma KeepOnAddOne(dir: Path, x: Segment)
    ensures KeepOnAdd(dir, [x]) == if KeptOnAdd(dir, x) then [x] else []
  {
    KeepOnAddCons(dir, x, []);
    assert [x] + [] == [x];
  }

  lemma KeepOnAddCons(dir: Path, e: Segment, s: Path)
    ensures KeepOnAdd(dir, [e] + s) == (if KeptOnAdd(dir, e) then [e] else []) + KeepOnAdd(dir, s)
  {
    var es := [e] + s;
    assert es[0] == e && es[1..] == s;
    if !KeptOnAdd(dir, e) {
      assert [] + KeepOnAdd(dir, s) == KeepOnAdd(dir, s);
    }
  }

  /** The `toRemove` filter: a segment stays when it occurs nowhere in the text `src/app`. */
  predicate KeptOnRemove(s: string) {
    !Contains(RootText, s)
  }

  function KeepOnRemove(rest: Path): (r: Path)
    ensures forall s :: s in r <==> s in rest && KeptOnRemove(s)
    decreases |rest|
  {
    if |rest| == 0 then []
    else
      assert forall s :: s in rest <==> s == rest[0] || s in rest[1..];
      if KeptOnRemove(rest[0]) then [rest[0]] + KeepOnRemove(rest[1..])
      else KeepOnRemove(rest[1..])
  }

  /**
   The `toRemove` filter keeps the order and the repetitions of the segments
   it keeps: it distributes over concatenation and tests each segment alone.
   */
  lemma {:induction false} KeepOnRemoveIsFilter(a: Path, b: Path, x: Segment)
    ensures KeepOnRemove(a + b) == KeepOnRemove(a) + KeepOnRemove(b)
    ensures KeepOnRemove([x]) == if KeptOnRemove(x) then [x] else []
    decreases |a|
  {
    if |a| > 0 {
      var t := a[1..];
      HeadTail(a, b);
      KeepOnRemoveIsFilter(t, b, x);
      KeepOnRemoveCons(a[0], t);
      KeepOnRemoveCons(a[0], t + b);
      AppendAssoc(if KeptOnRemove(a[0]) then [a[0]] else [], KeepOnRemove(t), KeepOnRemove(b));
    } else {
      assert a + b == b;
    }
    KeepOnRemoveOne(x);
  }

  lemma KeepOnRemoveOne(x: Segment)
    ensures KeepOnRemove([x]) == if KeptOnRemove(x) then [x] else []
  {
    KeepOnRemoveCons(x, []);
    assert [x] + [] == [x];
  }

  lemma KeepOnRemoveCons(e: Segment, s: Path)
    ensures KeepOnRemove([e] + s) == (if KeptOnRemove(e) then [e] else []) + KeepOnRemove(s)
  {
    var es := [e] + s;
    assert es[0] == e && es[1..] == s;
    if !KeptOnRemove(e) {
      assert [] + KeepOnRemove(s) == KeepOnRemove(s);
    }
  }

  /**
   `path.normalize` of the kept segments, each written with a leading `/`:
   a delta is `.` when nothing was kept and otherwise a `/`-led path.
   */
  function DeltaText(kept: Path): (t: string)
    ensures t == "." <==> |kept| == 0
    ensures t == "." || StartsWith(t, "/")
    ensures |kept| > 0 && IsPlain(kept) ==> t == "/" + Join(kept)
  {
    if |kept| == 0 then "."
    else
      var t := "/" + Join(Normalize(kept));
      assert t[0] == '/';
      assert IsPlain(kept) ==> t == "/" + Join(kept) by {
        if IsPlain(kept) {
          NormalizePlain(kept);
        }
      }
      t
  }

  /**
   `diffPaths`: refuses a move within one directory, adds the new parent's
   directories below the root when the new parent is deeper, and otherwise
   removes the old parent's directories that are not part of the root.
   */
  function DiffPaths(oldPath: Path, newPath: Path): (r: Result<Delta>)
    ensures r.Err? <==> ParentSegments(oldPath) == ParentSegments(newPath)
    ensures r.Err? ==> r.error == SameDirectory
    ensures r.Ok? ==>
      (r.value.operation == ToAdd <==> |ParentSegments(newPath)| > |ParentSegments(oldPath)|)
    ensures r.Ok? ==>
      var oldDir, newDir := ParentSegments(oldPath), ParentSegments(newPath);
      r.value.text == DeltaText(if r.value.operation == ToAdd then KeepOnAdd(newDir, newDir) else KeepOnRemove(oldDir))
  {
    var oldDir, newDir := ParentSegments(oldPath), ParentSegments(newPath);
    if oldDir == newDir then Err(SameDirectory)
    else if |newDir| > |oldDir| then Ok(Delta(DeltaText(KeepOnAdd(newDir, newDir)), ToAdd))
    else Ok(Delta(DeltaText(KeepOnRemove(oldDir)), ToRemove))
  }

  // ---------------------------------------------------------------------------
  // The delta of the moves the resolver is written for

  lemma {:induction false} KeepAllOnAdd(dir: Path, rest: Path)
    requires forall i :: 0 <= i < |rest| ==> KeptOnAdd(dir, rest[i])
    ensures KeepOnAdd(dir, rest) == rest
    decreases |rest|
  {
    if |rest| > 0 {
      KeepAllOnAdd(dir, rest[1..]);
    }
  }

  /**
   Moving a unit from directly under the root down into the directories `y`
   makes the delta `/` followed by `y`, to be added.
   */
  lemma DiffPathsMoveDown(oldPath: Path, newPath: Path, y: Path)
    requires ParentSegments(oldPath) == Root && ParentSegments(newPath) == Root + y
    requires |y| > 0 && IsPlain(y)
    requires forall i :: 0 <= i < |y| ==> y[i] != "src" && y[i] != "app"
    ensures DiffPaths(oldPath, newPath) == Ok(Delta("/" + Join(y), ToAdd))
  {
    DiffPathsAdd(oldPath, newPath, y);
  }

  /**
   Moving a unit down into `src/app/<y>` from any shallower directory makes
   the delta `/` followed by all of `y`, to be added, whatever part of `y`
   the old directory already shares.
   */
  lemma DiffPathsAdd(oldPath: Path, newPath: Path, y: Path)
    requires ParentSegments(newPath) == Root + y && |ParentSegments(oldPath)| < |Root + y|
    requires |y| > 0 && IsPlain(y)
    requires forall i :: 0 <= i < |y| ==> y[i] != "src" && y[i] != "app"
    ensures DiffPaths(oldPath, newPath) == Ok(Delta("/" + Join(y), ToAdd))
  {
    var d := Root + y;
    forall i | 0 <= i < |y| ensures KeptOnAdd(d, y[i]) {
      assert y[i] in d by {
        assert d[i + 2] == y[i];
      }
      var k := IndexOfSegment(d, y[i]);
      assert k != 0 && k != 1 by {
        assert d[0] == "src" && d[1] == "app";
      }
    }
    KeepAllOnAdd(d, y);
    KeepOnAddDropsRoot(y);
    NormalizePlain(y);
  }

  /** The root's own segments never survive the `toAdd` filter. */
  lemma KeepOnAddDropsRoot(y: Path)
    ensures KeepOnAdd(Root + y, Root + y) == KeepOnAdd(Root + y, y)
  {
    var d := Root + y;
    assert d[0] == "src" && d[1] == "app";
    assert IndexOfSegment(d, "src") == 0;
    assert IndexOfSegment(d, "app") == 1;
    assert d[1..] == ["app"] + y;
    assert d[1..][1..] == y;
  }

  /** `t` occurs in `s` at `k`. */
  lemma {:induction false} ContainsAt(s: string, k: nat, t: string)
    requires k <= |s| && StartsWith(s[k..], t)
    ensures Contains(s, t)
    decreases k
  {
    if k > 0 {
      assert s[1..][k - 1..] == s[k..];
      ContainsAt(s[1..], k - 1, t);
    }
  }

  /** A text whose first character does not occur in `s` does not occur in `s`. */
  lemma {:induction false} NotContainsHead(s: string, t: string)
    requires |t| > 0 && t[0] !in s
    ensures !Contains(s, t)
    decreases |s|
  {
    if |s| > 0 {
      assert s[0] != t[0];
      NotContainsHead(s[1..], t);
    }
  }

  /** A text longer than `s` does not occur in `s`. */
  lemma {:induction false} NotContainsLonger(s: string, t: string)
    requires |s| < |t|
    ensures !Contains(s, t)
    decreases |s|
  {
    if |s| > 0 {
      NotContainsLonger(s[1..], t);
    }
  }

  /**
   Moving a unit from the directory `b` under the root up to the root makes
   the delta `/b`, to be removed, provided `b` is not part of the text
   `src/app`.
   */
  lemma DiffPathsMoveUp(oldPath: Path, newPath: Path, b: Segment)
    requires ParentSegments(oldPath) == Root + [b] && ParentSegments(newPath) == Root
    requires IsPlainSegment(b) && !Contains(RootText, b)
    ensures DiffPaths(oldPath, newPath) == Ok(Delta("/" + b, ToRemove))
  {
    DiffPathsRemove(oldPath, newPath, [b]);
  }

  /**
   When the new parent is no deeper and differs, the delta is the old
   parent below the root, to be removed, provided none of its names is part
   of the text `src/app`.
   */
  lemma DiffPathsRemove(oldPath: Path, newPath: Path, kept: Path)
    requires ParentSegments(oldPath) == Root + kept
    requires ParentSegments(newPath) != Root + kept && |ParentSegments(newPath)| <= |Root + kept|
    requires |kept| > 0 && IsPlain(kept)
    requires forall i :: 0 <= i < |kept| ==> !Contains(RootText, kept[i])
    ensures DiffPaths(oldPath, newPath) == Ok(Delta("/" + Join(kept), ToRemove))
  {
    RootOnRemove(kept);
    KeepAllOnRemove(kept);
    NormalizePlain(kept);
  }

  lemma {:induction false} KeepAllOnRemove(rest: Path)
    requires forall i :: 0 <= i < |rest| ==> KeptOnRemove(rest[i])
    ensures KeepOnRemove(rest) == rest
    decreases |rest|
  {
    if |rest| > 0 {
      KeepAllOnRemove(rest[1..]);
    }
  }

  /** The root's own segments never survive the `toRemove` filter. */
  lemma RootOnRemove(rest: Path)
    ensures KeepOnRemove(Root + rest) == KeepOnRemove(rest)
  {
    RootTextHolds(RootText, "src", 0);
    RootTextHolds(RootText, "app", 4);
    var d := Root + rest;
    assert d[0] == "src" && d[1] == "app";
    assert d[1..] == ["app"] + rest;
    assert d[1..][1..] == rest;
  }

  /** `src/app` holds `src` at 0, `app` at 4 and `pp` at 5. */
  lemma RootTextHolds(t: string, s: string, k: nat)
    requires t == RootText
    requires (s == "src" && k == 0) || (s == "app" && k == 4) || (s == "pp" && k == 5)
    ensures Contains(t, s)
  {
    assert t[k..][..|s|] == s;
    ContainsAt(t, k, s);
  }

  // ---------------------------------------------------------------------------
  // The edit of one dependent

  /**
   The edit `parseModuleSpecifiers` plans for the import `rec` of `file`,
   where `rec.pos` is the space before the opening quote and `unit` is the
   name of the moved directory. Removing: a specifier without the delta gets
   a `.` in front (`./x` becomes `../x`), any other loses `|text|` characters
   after its first two. Adding: the delta goes in before the final `/<unit>`.
   */
  function EditFor(file: Path, rec: ImportRecord, d: Delta, unit: string): (c: Change)
    ensures c.path == file
    ensures c.RemoveChange? ==> d.operation == ToRemove && c.toRemove == d.text
    ensures c.InsertChange? ==> c.toAdd == (if d.operation == ToAdd then d.text else ".")
  {
    match d.operation
    case ToRemove =>
      if !Contains(rec.specifier, d.text) then InsertChange(file, rec.pos + 2, ".")
      else RemoveChange(file, rec.pos + 4, d.text)
    case ToAdd =>
      InsertChange(file, rec.end - |unit| - 1 - 1, d.text)
  }

  /** The import is written with one space before the opening quote. */
  predicate SpacedImport(content: string, rec: ImportRecord) {
    && SpecifierPosition(rec) == rec.pos + 2
    && 0 <= rec.pos
    && Quoted(content, rec)
    && content[rec.pos] == ' '
  }

  /** The edit falls inside the specifier. */
  predicate EditInside(spec: string, d: Delta, unit: string) {
    match d.operation
    case ToRemove => !Contains(spec, d.text) || 2 + |d.text| <= |spec|
    case ToAdd => |unit| + 1 <= |spec|
  }

  /** The specifier after the edit, in the terms of the specifier text alone. */
  function EditedSpecifier(spec: string, d: Delta, unit: string): string
    requires EditInside(spec, d, unit)
  {
    match d.operation
    case ToRemove =>
      if !Contains(spec, d.text) then "." + spec else spec[..2] + spec[2 + |d.text|..]
    case ToAdd =>
      var k := |spec| - |unit| - 1;
      spec[..k] + d.text + spec[k..]
  }

  /**
   The planned edit only touches the text between the quotes: the file is
   unchanged up to the opening quote and from the closing quote on, and the
   specifier in between is the edited one.
   */
  lemma EditStaysInQuotes(content: string, file: Path, rec: ImportRecord, d: Delta, unit: string)
    requires SpacedImport(content, rec) && EditInside(rec.specifier, d, unit)
    ensures var s := rec.pos + 2;
      ApplyChange(EditFor(file, rec, d, unit), content)
        == content[..s] + EditedSpecifier(rec.specifier, d, unit) + content[rec.end - 1..]
  {
    var s := rec.pos + 2;
    SpacedParts(content, rec);
    var c := EditFor(file, rec, d, unit);
    EditedIsSplice(file, rec, d, unit);
    Reassemble(c, content, content[..s], rec.specifier, content[rec.end - 1..],
               EditedSpecifier(rec.specifier, d, unit), c.pos - s);
  }

  /**
   With more than one space before the opening quote, the `.` that a
   `toRemove` edit puts at `pos + 2` lands in the whitespace: the file still
   holds the same specifier between the same quotes, one character on.
   */
  lemma WideSpacedImportMisses(content: string, file: Path, rec: ImportRecord, d: Delta, unit: string)
    requires Quoted(content, rec) && 0 <= rec.pos && rec.pos + 3 <= SpecifierPosition(rec)
    requires d.operation == ToRemove && !Contains(rec.specifier, d.text)
    ensures var after := ApplyChange(EditFor(file, rec, d, unit), content);
      && after[rec.pos + 2] == '.'
      && Quoted(after, rec.(end := rec.end + 1))
  {
    var c := EditFor(file, rec, d, unit);
    var p := rec.pos + 2;
    assert c == InsertChange(file, p, ".");
    Spliced(c, content);
    ShiftedQuote(content, p, rec);
  }

  /** A character put before the opening quote moves the quoted specifier one place on. */
  lemma ShiftedQuote(content: string, p: int, rec: ImportRecord)
    requires Quoted(content, rec) && 0 <= p && p + 1 <= SpecifierPosition(rec)
    ensures var after := content[..p] + "." + content[p..];
      && after[p] == '.'
      && Quoted(after, rec.(end := rec.end + 1))
  {
    var e, n := rec.end, |rec.specifier|;
    ShiftAfter(content, p, e - n - 2, e);
  }

  /** After a character is put in at `p`, the text from `i` to `j` sits one place on. */
  lemma ShiftAfter(content: string, p: int, i: int, j: int)
    requires 0 <= p <= i < j <= |content|
    ensures var after := content[..p] + "." + content[p..];
      && |after| == |content| + 1
      && after[p] == '.'
      && after[i + 1..j + 1] == content[i..j]
  {
    var after := content[..p] + "." + content[p..];
    assert after[p + 1..] == content[p..];
    assert after[i + 1..j + 1] == after[p + 1..][i - p..j - p];
  }

  /** A change inside the middle part `m` of a text turns that part into `e` and keeps the rest. */
  lemma Reassemble(c: Change, content: string, a: string, m: string, z: string, e: string, k: int)
    requires content == a + m + z
    requires c.pos == |a| + k && 0 <= k && k + Span(c) <= |m|
    requires e == m[..k] + Payload(c) + m[k + Span(c)..]
    ensures ApplyChange(c, content) == a + e + z
  {
    ApplyInside(c, a, m, z, k);
  }

  /** A spaced import splits its file into the text up to the opening quote, the specifier and the rest. */
  lemma SpacedParts(content: string, rec: ImportRecord)
    requires SpacedImport(content, rec)
    ensures 0 <= rec.pos + 2 <= rec.end - 1 <= |content|
    ensures content == content[..rec.pos + 2] + rec.specifier + content[rec.end - 1..]
  {
    var s, e := rec.pos + 2, rec.end - 1;
    assert content[s..e] == rec.specifier;
    assert content == content[..s] + content[s..e] + content[e..];
  }

  /** The edited specifier is the splice of the planned edit at its offset inside the specifier. */
  lemma EditedIsSplice(file: Path, rec: ImportRecord, d: Delta, unit: string)
    requires SpecifierPosition(rec) == rec.pos + 2 && EditInside(rec.specifier, d, unit)
    ensures var c, spec := EditFor(file, rec, d, unit), rec.specifier;
      var k := c.pos - (rec.pos + 2);
      && 0 <= k && k + Span(c) <= |spec|
      && EditedSpecifier(spec, d, unit) == spec[..k] + Payload(c) + spec[k + Span(c)..]
  {
    var spec := rec.specifier;
    match d.operation
    case ToRemove =>
      if !Contains(spec, d.text) {
        assert spec[..0] + "." + spec[0..] == "." + spec;
      } else {
        assert spec[..2] + "" + spec[2 + |d.text|..] == spec[..2] + spec[2 + |d.text|..];
      }
    case ToAdd =>
  }

  /** A change at offset `k` of the middle part `m` of `a + m + z` edits `m` alone. */
  lemma ApplyInside(c: Change, a: string, m: string, z: string, k: nat)
    requires c.pos == |a| + k && k + Span(c) <= |m|
    ensures ApplyChange(c, a + m + z) == a + (m[..k] + Payload(c) + m[k + Span(c)..]) + z
  {
    ApplyInPrefix(c, a + m, z);
    ApplyAfter(c, a, m, k);
  }

  /** A change at offset `k` of the part `m` of `a + m` leaves `a` alone. */
  lemma ApplyAfter(c: Change, a: string, m: string, k: nat)
    requires c.pos == |a| + k && k + Span(c) <= |m|
    ensures ApplyChange(c, a + m) == a + (m[..k] + Payload(c) + m[k + Span(c)..])
  {
    SpliceAfter(a, m, k, Span(c), Payload(c));
  }

  /** Cutting `n` characters at offset `k` of `m` and putting `t` there, inside `a + m`. */
  lemma SpliceAfter(a: string, m: string, k: nat, n: nat, t: string)
    requires k + n <= |m|
    ensures (a + m)[..|a| + k] + t + (a + m)[|a| + k + n..] == a + (m[..k] + t + m[k + n..])
  {
    var x := a + m;
    assert x[..|a| + k] == a + m[..k];
    assert x[|a| + k + n..] == m[k + n..];
  }

  /**
   A move down from directly under the root: a dependent whose specifier
   `<h>/<unit>` named the unit, edited with the delta of the move, names the
   unit's new place.
   */
  lemma MoveDownRepoints(oldPath: Path, newPath: Path, y: Path, dir: Path, h: string)
    requires ParentSegments(oldPath) == Root && ParentSegments(newPath) == Root + y
    requires |y| > 0 && IsPlain(y)
    requires forall i :: 0 <= i < |y| ==> y[i] != "src" && y[i] != "app"
    requires IsPlainSegment(Basename(oldPath))
    requires |h| > 0 && h[0] != '/'
    requires Resolve(dir, h + "/" + Basename(oldPath)) == Root + [Basename(oldPath)]
    ensures var d := DiffPaths(oldPath, newPath).value;
      var spec := h + "/" + Basename(oldPath);
      && EditInside(spec, d, Basename(oldPath))
      && Resolve(dir, EditedSpecifier(spec, d, Basename(oldPath))) == Root + y + [Basename(oldPath)]
  {
    var u := Basename(oldPath);
    DiffPathsMoveDown(oldPath, newPath, y);
    AddEditChild(h, u, "/" + Join(y));
    DescendChild(dir, h, u, y, Root);
  }

  /** The `toAdd` edit puts the delta between `<h>` and `/<u>`. */
  lemma AddEditChild(h: string, u: string, t: string)
    ensures var spec := h + "/" + u;
      && EditInside(spec, Delta(t, ToAdd), u)
      && EditedSpecifier(spec, Delta(t, ToAdd), u) == h + t + "/" + u
  {
    var spec := h + "/" + u;
    assert spec[..|h|] == h && spec[|h|..] == "/" + u;
  }

  /** If `<h>/<u>` names `<p>/<u>`, then `<h>/<y>/<u>` names `<p>/<y>/<u>`. */
  lemma DescendChild(dir: Path, h: string, u: Segment, y: Path, p: Path)
    requires |h| > 0 && h[0] != '/' && IsPlainSegment(u)
    requires |y| > 0 && IsPlain(y)
    requires Resolve(dir, h + "/" + u) == p + [u]
    ensures Resolve(dir, h + ("/" + Join(y)) + "/" + u) == p + y + [u]
  {
    var h' := h + "/" + Join(y);
    SpecRegroup(h, Join(y), u);
    HeadNamesParent(dir, h, u, p);
    ResolveDescend(dir, h, y);
    ChildOf(dir, h', u);
  }

  lemma SpecRegroup(h: string, j: string, u: string)
    requires |h| > 0
    ensures (h + "/" + j)[0] == h[0]
    ensures h + ("/" + j) + "/" + u == (h + "/" + j) + "/" + u
  {
  }

  /** If `<h>/<u>` names `<p>/<u>`, then `<h>` names `p`. */
  lemma HeadNamesParent(dir: Path, h: string, u: Segment, p: Path)
    requires |h| > 0 && h[0] != '/' && IsPlainSegment(u)
    requires Resolve(dir, h + "/" + u) == p + [u]
    ensures Resolve(dir, h) == p
  {
    ChildOf(dir, h, u);
    DropLast(Resolve(dir, h), p, u);
  }

  /** `<h>/<u>` names `u` inside what `<h>` names. */
  lemma ChildOf(dir: Path, h: string, u: Segment)
    requires |h| > 0 && h[0] != '/' && IsPlainSegment(u)
    ensures Resolve(dir, h + "/" + u) == Resolve(dir, h) + [u]
  {
    ResolveChild(dir, h, u);
    ResolvePlain(Resolve(dir, h), [u]);
  }

  lemma DropLast(a: Path, b: Path, u: Segment)
    requires a + [u] == b + [u]
    ensures a == b
  {
    assert a == (a + [u])[..|a|];
    assert b == (b + [u])[..|b|];
  }

  /** `/<b>` does not occur in `./<u>` unless `u` starts with `b`. */
  lemma SiblingLacksDelta(b: Segment, u: Segment)
    requires !StartsWith(u, b)
    ensures !Contains("./" + u, "/" + b)
  {
    var s := "./" + u;
    assert s[1..] == "/" + u && s[1..][1..] == u;
    NotContainsHead(u, "/" + b);
    StartsWithTail('/', u, b);
  }

  lemma StartsWithTail(c: char, u: string, b: string)
    ensures StartsWith([c] + u, [c] + b) ==> StartsWith(u, b)
  {
    if StartsWith([c] + u, [c] + b) {
      assert u[..|b|] == ([c] + u)[1..|b| + 1];
    }
  }

  /**
   A move up from the directory `b` under the root: a dependent in `b` whose
   specifier `./<unit>` named the unit now reads `../<unit>` and names the
   unit's new place.
   */
  lemma MoveUpRepointsSibling(oldPath: Path, newPath: Path, b: Segment, dir: Path)
    requires ParentSegments(oldPath) == Root + [b] && ParentSegments(newPath) == Root
    requires IsPlainSegment(b) && !Contains(RootText, b)
    requires IsPlainSegment(Basename(oldPath)) && !StartsWith(Basename(oldPath), b)
    requires Resolve(dir, "./" + Basename(oldPath)) == Root + [b, Basename(oldPath)]
    ensures var d := DiffPaths(oldPath, newPath).value;
      var spec := "./" + Basename(oldPath);
      && EditInside(spec, d, Basename(oldPath))
      && EditedSpecifier(spec, d, Basename(oldPath)) == "../" + Basename(oldPath)
      && Resolve(dir, EditedSpecifier(spec, d, Basename(oldPath))) == Root + [Basename(oldPath)]
  {
    var u := Basename(oldPath);
    DiffPathsMoveUp(oldPath, newPath, b);
    RemoveEditSibling(b, u, u);
    UpFromSibling(dir, b, u);
  }

  /** From inside `b`, `../<u>` names what was `./<u>`, one level up. */
  lemma UpFromSibling(dir: Path, b: Segment, u: Segment)
    requires IsPlainSegment(u)
    requires Resolve(dir, "./" + u) == Root + [b, u]
    ensures Resolve(dir, "../" + u) == Root + [u]
  {
    DotChild(dir, u);
    ResolvePlain(Normalize(dir), [u]);
    assert Root + [b, u] == (Root + [b]) + [u];
    DropLast(Normalize(dir), Root + [b], u);
    SiblingSpecifier(dir, Normalize(dir), u);
  }

  /**
   A move up from the directory `b` under the root: a dependent elsewhere
   whose specifier `../<b>/<unit>` named the unit now reads `../<unit>` and
   names the unit's new place.
   */
  lemma MoveUpRepointsCousin(oldPath: Path, newPath: Path, b: Segment, dir: Path)
    requires ParentSegments(oldPath) == Root + [b] && ParentSegments(newPath) == Root
    requires IsPlainSegment(b) && !Contains(RootText, b)
    requires IsPlainSegment(Basename(oldPath))
    requires Resolve(dir, "../" + b + "/" + Basename(oldPath)) == Root + [b, Basename(oldPath)]
    ensures var d := DiffPaths(oldPath, newPath).value;
      var spec := "../" + b + "/" + Basename(oldPath);
      && EditInside(spec, d, Basename(oldPath))
      && EditedSpecifier(spec, d, Basename(oldPath)) == "../" + Basename(oldPath)
      && Resolve(dir, EditedSpecifier(spec, d, Basename(oldPath))) == Root + [Basename(oldPath)]
  {
    var u := Basename(oldPath);
    DiffPathsMoveUp(oldPath, newPath, b);
    RemoveEditCousin(b, u, u);
    UpFromCousin(dir, b, u);
  }

  /** From outside `b`, `../<u>` names `<u>` next to where `../<b>/<u>` named it. */
  lemma UpFromCousin(dir: Path, b: Segment, u: Segment)
    requires IsPlainSegment(b) && IsPlainSegment(u)
    requires Resolve(dir, "../" + b + "/" + u) == Root + [b, u]
    ensures Resolve(dir, "../" + u) == Root + [u]
  {
    var q := Dirname(Normalize(dir));
    ResolveChild(dir, "../" + b, u);
    SiblingSpecifier(dir, Normalize(dir), b);
    ResolvePlain(q + [b], [u]);
    assert Root + [b, u] == Root + [b] + [u];
    DropLast(q + [b], Root + [b], u);
    DropLast(q, Root, b);
    SiblingSpecifier(dir, Normalize(dir), u);
  }

  /** Removing `/<b>` from `../<b>/<u>` leaves `../<u>`. */
  lemma RemoveEditCousin(b: Segment, u: string, unit: string)
    ensures var d := Delta("/" + b, ToRemove);
      var spec := "../" + b + "/" + u;
      && EditInside(spec, d, unit)
      && EditedSpecifier(spec, d, unit) == "../" + u
  {
    var spec := "../" + b + "/" + u;
    assert spec[2..][..|b| + 1] == "/" + b;
    ContainsAt(spec, 2, "/" + b);
    assert spec[..2] + spec[2 + |b| + 1..] == "../" + u;
  }

  /** `./<u>` lacks `/<b>` unless `u` starts with `b`, and then gains a `.`. */
  lemma RemoveEditSibling(b: Segment, u: Segment, unit: string)
    requires !StartsWith(u, b)
    ensures var d := Delta("/" + b, ToRemove);
      && EditInside("./" + u, d, unit)
      && EditedSpecifier("./" + u, d, unit) == "../" + u
  {
    SiblingLacksDelta(b, u);
    assert "." + ("./" + u) == "../" + u;
  }

  /** `../../<s>` climbs two levels. */
  lemma DoubleUp(dir: Path, s: Segment)
    ensures Resolve(dir, "../../" + s) == ResolveSegments(Dirname(Dirname(Normalize(dir))), [s])
  {
    var up := "../" + "..";
    assert up + "/" + s == "../../" + s;
    ResolveChild(dir, up, s);
    UpThen(dir, "..");
  }

  // ---------------------------------------------------------------------------
  // Moves the delta gets wrong

  /**
   A move between two directories of the same depth is treated as a move up:
   moving a unit from `src/app/<a>` to `src/app/<b>` removes `/<a>`, so a
   dependent that imported `../<a>/<unit>` is pointed at `src/app/<unit>`,
   which is not where the unit went.
   */
  lemma SiblingMoveMisses(oldPath: Path, newPath: Path, a: Segment, b: Segment, dir: Path)
    requires ParentSegments(oldPath) == Root + [a] && ParentSegments(newPath) == Root + [b] && a != b
    requires IsPlainSegment(a) && !Contains(RootText, a)
    requires IsPlainSegment(Basename(oldPath))
    requires Resolve(dir, "../" + a + "/" + Basename(oldPath)) == Root + [a, Basename(oldPath)]
    ensures var d := DiffPaths(oldPath, newPath);
      var spec := "../" + a + "/" + Basename(oldPath);
      && d == Ok(Delta("/" + a, ToRemove))
      && EditInside(spec, d.value, Basename(oldPath))
      && EditedSpecifier(spec, d.value, Basename(oldPath)) == "../" + Basename(oldPath)
      && Resolve(dir, "../" + Basename(oldPath)) == Root + [Basename(oldPath)]
      && Root + [Basename(oldPath)] != ParentSegments(newPath) + [Basename(oldPath)]
  {
    var u := Basename(oldPath);
    assert |ParentSegments(newPath)| == 3 && ParentSegments(newPath) != Root + [a] by {
      assert ParentSegments(newPath)[2] == b;
    }
    DiffPathsRemove(oldPath, newPath, [a]);
    assert Join([a]) == a;
    RemoveEditCousin(a, u, u);
    UpFromCousin(dir, a, u);
    assert |Root + [u]| != |ParentSegments(newPath) + [u]|;
  }

  /**
   A segment that occurs inside the text `src/app` is never removed: moving a
   unit from `src/app/<s>` up to `src/app` gives the delta `.`, and the
   dependent's `../<s>/<unit>` loses its third character and reads
   `..<s>/<unit>`. `pp` is such a segment.
   */
  lemma RootSubstringMisses(oldPath: Path, newPath: Path, s: Segment, u: Segment)
    requires ParentSegments(oldPath) == Root + [s] && ParentSegments(newPath) == Root
    requires Contains(RootText, s)
    ensures var d := DiffPaths(oldPath, newPath);
      var spec := "../" + s + "/" + u;
      && d == Ok(Delta(".", ToRemove))
      && EditInside(spec, d.value, u)
      && EditedSpecifier(spec, d.value, u) == ".." + s + "/" + u
  {
    RootSubstringDelta(oldPath, newPath, s);
    RemoveDotEdit(s, u);
  }

  lemma RootSubstringDelta(oldPath: Path, newPath: Path, s: Segment)
    requires ParentSegments(oldPath) == Root + [s] && ParentSegments(newPath) == Root
    requires Contains(RootText, s)
    ensures DiffPaths(oldPath, newPath) == Ok(Delta(".", ToRemove))
  {
    RootOnRemove([s]);
    assert KeepOnRemove([s]) == [] by {
      assert [s][1..] == [];
    }
    assert Root + [s] != Root by {
      assert |Root + [s]| == 3;
    }
  }

  /** The delta `.` occurs at the head of `../<s>/<u>`, so its third character goes. */
  lemma RemoveDotEdit(s: string, u: string)
    ensures var spec := "../" + s + "/" + u;
      && EditInside(spec, Delta(".", ToRemove), u)
      && EditedSpecifier(spec, Delta(".", ToRemove), u) == ".." + s + "/" + u
  {
    var spec := "../" + s + "/" + u;
    assert spec[0..][..1] == ".";
    ContainsAt(spec, 0, ".");
    assert spec[..2] + spec[3..] == ".." + s + "/" + u;
  }

  /** `pp` is part of the text `src/app`. */
  lemma RootSubstringExample(s: Segment)
    requires s == "pp"
    ensures Contains(RootText, s) && IsPlainSegment(s)
  {
    RootTextHolds(RootText, s, 5);
  }

  /**
   A move down from below the root adds every new-parent directory below the
   root, including the ones the old parent already had: moving a unit `u`
   from `src/app/<a>` to `src/app/<a>/<b>` makes the delta `/<a>/<b>`, so a
   dependent whose `<h>/<u>` named `src/app/<a>/<u>` is pointed at
   `src/app/<a>/<a>/<b>/<u>`, which is not where the unit went.
   */
  lemma DeepMoveDownMisses(oldPath: Path, newPath: Path, a: Segment, b: Segment, dir: Path, h: string)
    requires ParentSegments(oldPath) == Root + [a] && ParentSegments(newPath) == Root + [a, b]
    requires IsPlainSegment(a) && IsPlainSegment(b)
    requires a != "src" && a != "app" && b != "src" && b != "app"
    requires IsPlainSegment(Basename(oldPath))
    requires |h| > 0 && h[0] != '/'
    requires Resolve(dir, h + "/" + Basename(oldPath)) == Root + [a, Basename(oldPath)]
    ensures var d := DiffPaths(oldPath, newPath);
      var u := Basename(oldPath);
      var spec := h + "/" + u;
      && d == Ok(Delta("/" + Join([a, b]), ToAdd))
      && EditInside(spec, d.value, u)
      && Resolve(dir, EditedSpecifier(spec, d.value, u)) == Root + [a, a, b, u]
      && Resolve(dir, EditedSpecifier(spec, d.value, u)) != ParentSegments(newPath) + [u]
  {
    var u := Basename(oldPath);
    var t := "/" + Join([a, b]);
    DiffPathsAdd(oldPath, newPath, [a, b]);
    AddEditChild(h, u, t);
    DescendTwice(dir, h, u, a, b);
  }

  /** If `<h>/<u>` names `src/app/<a>/<u>`, then `<h>/<a>/<b>/<u>` names `src/app/<a>/<a>/<b>/<u>`. */
  lemma DescendTwice(dir: Path, h: string, u: Segment, a: Segment, b: Segment)
    requires |h| > 0 && h[0] != '/'
    requires IsPlainSegment(u) && IsPlainSegment(a) && IsPlainSegment(b)
    requires Resolve(dir, h + "/" + u) == Root + [a, u]
    ensures Resolve(dir, h + ("/" + Join([a, b])) + "/" + u) == Root + [a, a, b, u]
  {
    var p := Root + [a];
    assert Root + [a, u] == p + [u];
    DescendChild(dir, h, u, [a, b], p);
    assert p + [a, b] + [u] == Root + [a, a, b, u];
  }

  /**
   A move up between deeper directories removes the whole old parent below
   the root: moving a unit `u` from `src/app/<a>/<b>/<c>` to
   `src/app/<a>/<b>` turns the neighbour `<w>`'s `../<u>` into `.../<u>`,
   where `../../<u>` names the new place.
   */
  lemma DeepMoveUpMisses(oldPath: Path, newPath: Path, a: Segment, b: Segment, c: Segment, u: Segment, w: Segment)
    requires ParentSegments(oldPath) == Root + [a, b, c] && ParentSegments(newPath) == Root + [a, b]
    requires IsPlainSegment(a) && IsPlainSegment(b) && IsPlainSegment(c)
    requires IsPlainSegment(u) && IsPlainSegment(w)
    requires !Contains(RootText, a) && !Contains(RootText, b) && !Contains(RootText, c)
    requires !Contains("../" + u, "/" + Join([a, b, c]))
    ensures var d := DiffPaths(oldPath, newPath);
      && d == Ok(Delta("/" + Join([a, b, c]), ToRemove))
      && EditInside("../" + u, d.value, u)
      && EditedSpecifier("../" + u, d.value, u) == ".../" + u
      && Resolve(Root + [a, b, c, w], "../" + u) == Root + [a, b, c, u]
      && Resolve(Root + [a, b, c, w], "../../" + u) == Root + [a, b, u]
  {
    DeepDelta(oldPath, newPath, a, b, c, u);
    DeepNeighbour(a, b, c, u, w);
  }

  lemma DeepDelta(oldPath: Path, newPath: Path, a: Segment, b: Segment, c: Segment, u: Segment)
    requires ParentSegments(oldPath) == Root + [a, b, c] && ParentSegments(newPath) == Root + [a, b]
    requires IsPlainSegment(a) && IsPlainSegment(b) && IsPlainSegment(c)
    requires !Contains(RootText, a) && !Contains(RootText, b) && !Contains(RootText, c)
    requires !Contains("../" + u, "/" + Join([a, b, c]))
    ensures var d := DiffPaths(oldPath, newPath);
      && d == Ok(Delta("/" + Join([a, b, c]), ToRemove))
      && EditInside("../" + u, d.value, u)
      && EditedSpecifier("../" + u, d.value, u) == ".../" + u
  {
    var kept := [a, b, c];
    assert |Root + [a, b]| < |Root + kept|;
    forall i | 0 <= i < |kept| ensures !Contains(RootText, kept[i]) && IsPlainSegment(kept[i]) {
      assert kept[i] == a || kept[i] == b || kept[i] == c;
    }
    DiffPathsRemove(oldPath, newPath, kept);
    RemoveEditMissing(u, "/" + Join(kept));
  }

  /** A `toRemove` delta missing from `../<u>` puts a `.` in front. */
  lemma RemoveEditMissing(u: string, t: string)
    requires !Contains("../" + u, t)
    ensures EditInside("../" + u, Delta(t, ToRemove), u)
    ensures EditedSpecifier("../" + u, Delta(t, ToRemove), u) == ".../" + u
  {
    assert "." + ("../" + u) == ".../" + u;
  }

  /** The neighbour `<w>` of the old place names the unit with `../<u>`; the new place is `../../<u>`. */
  lemma DeepNeighbour(a: Segment, b: Segment, c: Segment, u: Segment, w: Segment)
    requires IsPlainSegment(a) && IsPlainSegment(b) && IsPlainSegment(c)
    requires IsPlainSegment(u) && IsPlainSegment(w)
    ensures Resolve(Root + [a, b, c, w], "../" + u) == Root + [a, b, c, u]
    ensures Resolve(Root + [a, b, c, w], "../../" + u) == Root + [a, b, u]
  {
    var p := Root + [a, b];
    PlainUnderRoot([a, b, c, w]);
    assert Root + [a, b, c, w] == p + [c, w] == p + [c] + [w];
    UpPlain(p + [c], w, u);
    TwoUpPlain(p, c, w, u);
  }

  lemma PlainUnderRoot(x: Path)
    requires IsPlain(x)
    ensures IsPlain(Root + x)
  {
    forall i | 0 <= i < |Root + x| ensures IsPlainSegment((Root + x)[i]) {
      if i >= 2 {
        assert (Root + x)[i] == x[i - 2];
      }
    }
  }

  /** From inside `<p>/<w>`, `../<u>` names `<p>/<u>`. */
  lemma UpPlain(p: Path, w: Segment, u: Segment)
    requires IsPlain(p + [w]) && IsPlainSegment(u)
    ensures Resolve(p + [w], "../" + u) == p + [u]
  {
    NormalizePlain(p + [w]);
    UpThen(p + [w], u);
    assert Dirname(p + [w]) == p;
  }

  /** From inside `<p>/<c>/<w>`, `../../<u>` names `<p>/<u>`. */
  lemma TwoUpPlain(p: Path, c: Segment, w: Segment, u: Segment)
    requires IsPlain(p + [c, w]) && IsPlainSegment(u)
    ensures Resolve(p + [c, w], "../../" + u) == p + [u]
  {
    NormalizePlain(p + [c, w]);
    DoubleUp(p + [c, w], u);
    assert Dirname(p + [c, w]) == p + [c];
    assert Dirname(p + [c]) == p;
  }

  /**
   The names of the deep move in the repository's own test: none of
   `foo-baz`, `qux`, `quux` is part of `src/app`, and the delta
   `/foo-baz/qux/quux` does not occur in `../fooqux`.
   */
  lemma DeepMoveUpExample(a: Segment, b: Segment, c: Segment, u: Segment)
    requires a == "foo-baz" && b == "qux" && c == "quux" && u == "fooqux"
    ensures !Contains(RootText, a) && !Contains(RootText, b) && !Contains(RootText, c)
    ensures !Contains("../" + u, "/" + Join([a, b, c]))
  {
    NotContainsHead(RootText, a);
    NotContainsHead(RootText, b);
    NotContainsHead(RootText, c);
    JoinThree(a, b, c);
    NotContainsLonger("../" + u, "/" + Join([a, b, c]));
  }

  lemma JoinThree(a: Segment, b: Segment, c: Segment)
    ensures Join([a, b, c]) == a + "/" + (b + "/" + c)
  {
    assert [a, b, c][1..] == [b, c];
    assert [b, c][1..] == [c];
    assert Join([c]) == c;
    assert Join([b, c]) == b + "/" + c;
  }

  /**
   A `toRemove` removal always starts two characters into the specifier,
   wherever the delta lies in it. Moving a unit `u` from `src/app/<b>` up to
   `src/app` removes `/<b>`. A dependent in `src/app/<x>/<y>` that named the
   unit with `../../<b>/<u>` loses the `|b| + 1` characters after its leading
   `..`, which for a one-letter `b` leaves `.../<b>/<u>`. The result is never
   `../../<u>`, the specifier that names the new place.
   */
  lemma TwoUpRemoveMisses(oldPath: Path, newPath: Path, b: Segment, u: Segment, x: Segment, y: Segment)
    requires ParentSegments(oldPath) == Root + [b] && ParentSegments(newPath) == Root
    requires IsPlainSegment(b) && !Contains(RootText, b)
    requires IsPlainSegment(u) && IsPlainSegment(x) && IsPlainSegment(y)
    ensures var d := DiffPaths(oldPath, newPath);
      var spec := "../../" + b + "/" + u;
      && d == Ok(Delta("/" + b, ToRemove))
      && Resolve(Root + [x, y], spec) == Root + [b, u]
      && Resolve(Root + [x, y], "../../" + u) == Root + [u]
      && EditInside(spec, d.value, u)
      && EditedSpecifier(spec, d.value, u) == ".." + spec[3 + |b|..]
      && EditedSpecifier(spec, d.value, u) != "../../" + u
      && (|b| == 1 ==> EditedSpecifier(spec, d.value, u) == ".../" + b + "/" + u)
  {
    DiffPathsMoveUp(oldPath, newPath, b);
    RemoveAtTwo(b, u);
    TwoDown(x, y, b, u);
  }

  /** The removal of `/<b>` from `../../<b>/<u>` cuts from offset 2, not where `/<b>` lies. */
  lemma RemoveAtTwo(b: Segment, u: Segment)
    requires IsPlainSegment(b)
    ensures var d, spec := Delta("/" + b, ToRemove), "../../" + b + "/" + u;
      && EditInside(spec, d, u)
      && EditedSpecifier(spec, d, u) == ".." + spec[3 + |b|..]
      && EditedSpecifier(spec, d, u) != "../../" + u
      && (|b| == 1 ==> EditedSpecifier(spec, d, u) == ".../" + b + "/" + u)
  {
    var spec := "../../" + b + "/" + u;
    assert spec[5..][..|b| + 1] == "/" + b;
    ContainsAt(spec, 5, "/" + b);
    CutDiffers(b, u, spec, ".." + spec[3 + |b|..]);
  }

  /** What is left of `../../<b>/<u>` after the cut is not `../../<u>`. */
  lemma CutDiffers(b: Segment, u: Segment, spec: string, e: string)
    requires IsPlainSegment(b) && spec == "../../" + b + "/" + u && e == ".." + spec[3 + |b|..]
    ensures e != "../../" + u
    ensures |b| == 1 ==> e == ".../" + b + "/" + u
  {
    var want := "../../" + u;
    assert |e| == |want|;
    if |b| == 1 {
      CutOne(b, u, spec, e);
      assert e[2] == '.' && want[2] == '/';
    } else if |b| == 2 {
      assert e[3] == spec[6] == b[0] && e[4] == spec[7] == b[1];
      assert e[3..5] == b;
      assert want[3..5] == "..";
    } else {
      assert e[2] == spec[3 + |b|] == b[|b| - 3];
      assert want[2] == '/';
    }
  }

  lemma CutOne(b: Segment, u: Segment, spec: string, e: string)
    requires |b| == 1 && spec == "../../" + b + "/" + u && e == ".." + spec[4..]
    ensures e == ".../" + b + "/" + u
  {
    assert spec[4..] == "./" + b + "/" + u;
  }

  /** From `src/app/<x>/<y>`, `../../<b>/<u>` names `src/app/<b>/<u>` and `../../<u>` names `src/app/<u>`. */
  lemma TwoDown(x: Segment, y: Segment, b: Segment, u: Segment)
    requires IsPlainSegment(x) && IsPlainSegment(y) && IsPlainSegment(b) && IsPlainSegment(u)
    ensures Resolve(Root + [x, y], "../../" + b + "/" + u) == Root + [b, u]
    ensures Resolve(Root + [x, y], "../../" + u) == Root + [u]
  {
    PlainUnderRoot([x, y]);
    TwoUpPlain(Root, x, y, u);
    TwoUpPlain(Root, x, y, b);
    assert "../../" + b + "/" + u == ("../../" + b) + "/" + u;
    ResolveChild(Root + [x, y], "../../" + b, u);
    ResolvePlain(Root + [b], [u]);
  }

  // ---------------------------------------------------------------------------
  // Planning the edits of all dependents

  /** What `parseModuleSpecifiers` settles on: no dependents, or the edits to write. */
  datatype Plan = NoDependentFiles | Edits(changes: seq<Change>)

  /** The dependent the `toRemove` branch edits whatever was moved. */
  const HardCodedDependent: Path := ["src", "app", "bar", "bar.component.ts"]

  /**
   `parseModuleSpecifiers` as written, given the dependents `getDependentFiles`
   found. Removing: the edits of the loop are never recorded
   (`changes.push[...]` reads a property instead of calling), and the one edit
   applied inserts `.` into `src/app/bar/bar.component.ts`, which must be a
   dependent. Adding: each turn of the loop overwrites the last, so only the
   last dependent's edit is applied.
   */
  function ParseModuleSpecifiersAsWritten(oldPath: Path, newPath: Path,
                                          deps: Entries<Path, ImportRecord>): (r: Result<Plan>)
    ensures |deps| == 0 <==> r == Ok(NoDependentFiles)
    ensures r.Ok? && r.value.Edits? ==> |r.value.changes| == 1
    ensures r.Err? ==> r.error == SameDirectory || r.error == MissingKey(HardCodedDependent)
  {
    if |deps| == 0 then Ok(NoDependentFiles)
    else
      var d :- DiffPaths(oldPath, newPath);
      match d.operation
      case ToRemove =>
        if HardCodedDependent in Keys(deps) then
          Ok(Edits([InsertChange(HardCodedDependent, Get(deps, HardCodedDependent).pos + 2, ".")]))
        else Err(MissingKey(HardCodedDependent))
      case ToAdd =>
        var last := deps[|deps| - 1].0;
        Ok(Edits([EditFor(last, Get(deps, last), d, Basename(oldPath))]))
  }

  /** The planned edits of the dependents from index `i` on, in key order. */
  function EditsFrom(deps: Entries<Path, ImportRecord>, i: nat, d: Delta, unit: string): (r: seq<Change>)
    requires i <= |deps|
    ensures |r| == |deps| - i
    ensures forall k :: i <= k < |deps| ==> r[k - i] == EditFor(deps[k].0, Get(deps, deps[k].0), d, unit)
    decreases |deps| - i
  {
    if i == |deps| then []
    else [EditFor(deps[i].0, Get(deps, deps[i].0), d, unit)] + EditsFrom(deps, i + 1, d, unit)
  }

  /**
   The loop of `parseModuleSpecifiers` as it is evidently meant: every
   dependent gets the edit the delta prescribes for its import, and all of
   them are applied.
   */
  function PlanDependentEdits(oldPath: Path, newPath: Path,
                              deps: Entries<Path, ImportRecord>): (r: Result<Plan>)
    ensures |deps| == 0 <==> r == Ok(NoDependentFiles)
    ensures |deps| > 0 ==> (r.Err? <==> ParentSegments(oldPath) == ParentSegments(newPath))
    ensures r.Err? ==> r.error == SameDirectory
    ensures r.Ok? && r.value.Edits? ==>
      && |r.value.changes| == |deps|
      && forall i :: 0 <= i < |deps| ==> r.value.changes[i].path == deps[i].0
  {
    if |deps| == 0 then Ok(NoDependentFiles)
    else
      var d :- DiffPaths(oldPath, newPath);
      Ok(Edits(EditsFrom(deps, 0, d, Basename(oldPath))))
  }

  /**
   When the unit moves down, the source applies exactly the last of the
   planned edits and drops the others.
   */
  lemma AsWrittenAddsOnlyLast(oldPath: Path, newPath: Path, deps: Entries<Path, ImportRecord>)
    requires |deps| > 0
    requires |ParentSegments(newPath)| > |ParentSegments(oldPath)|
    ensures var plan := PlanDependentEdits(oldPath, newPath, deps).value.changes;
      ParseModuleSpecifiersAsWritten(oldPath, newPath, deps) == Ok(Edits([plan[|plan| - 1]]))
  {
  }

  /**
   The move of `src/app/bar/baz` to `src/app/baz`, with the two dependents
   `bar.component.ts` (`./baz`) and `foo.component.ts` (`../bar/baz`): the
   source edits the first only, the plan edits both.
   */
  lemma AsWrittenMissesDependent()
    ensures var bar := Root + ["bar", "bar.component.ts"];
      var foo := Root + ["foo", "foo.component.ts"];
      var deps := [(bar, ImportRecord("./" + "baz", 13, 21)), (foo, ImportRecord("../" + "bar" + "/" + "baz", 13, 26))];
      && ParseModuleSpecifiersAsWritten(Root + ["bar", "baz"], Root + ["baz"], deps)
         == Ok(Edits([InsertChange(bar, 15, ".")]))
      && PlanDependentEdits(Root + ["bar", "baz"], Root + ["baz"], deps)
         == Ok(Edits([InsertChange(bar, 15, "."), RemoveChange(foo, 17, "/" + "bar")]))
  {
    var bar := Root + ["bar", "bar.component.ts"];
    var foo := Root + ["foo", "foo.component.ts"];
    PlansOfBazUp(bar, foo, [(bar, ImportRecord("./" + "baz", 13, 21)), (foo, ImportRecord("../" + "bar" + "/" + "baz", 13, 26))]);
  }

  lemma PlansOfBazUp(bar: Path, foo: Path, deps: Entries<Path, ImportRecord>)
    requires bar == Root + ["bar", "bar.component.ts"] && foo == Root + ["foo", "foo.component.ts"]
    requires deps == [(bar, ImportRecord("./" + "baz", 13, 21)), (foo, ImportRecord("../" + "bar" + "/" + "baz", 13, 26))]
    ensures ParseModuleSpecifiersAsWritten(Root + ["bar", "baz"], Root + ["baz"], deps)
      == Ok(Edits([InsertChange(bar, 15, ".")]))
    ensures PlanDependentEdits(Root + ["bar", "baz"], Root + ["baz"], deps)
      == Ok(Edits([InsertChange(bar, 15, "."), RemoveChange(foo, 17, "/" + "bar")]))
  {
    MoveBazUp(Root + ["bar", "baz"], Root + ["baz"]);
    var d := Delta("/" + "bar", ToRemove);
    assert HardCodedDependent == bar;
    assert bar in Keys(deps);
    assert bar != foo by {
      assert bar[2] != foo[2];
    }
    assert Get(deps, bar) == deps[0].1;
    assert Get(deps, foo) == deps[1].1;
    EditsOfBazUp(bar, foo, deps[0].1, deps[1].1);
    var plan := EditsFrom(deps, 0, d, "baz");
    assert plan[0] == EditFor(deps[0].0, Get(deps, deps[0].0), d, "baz");
    assert plan[1] == EditFor(deps[1].0, Get(deps, deps[1].0), d, "baz");
    assert plan == [InsertChange(bar, 15, "."), RemoveChange(foo, 17, "/" + "bar")];
  }

  lemma MoveBazUp(oldPath: Path, newPath: Path)
    requires oldPath == Root + ["bar", "baz"] && newPath == Root + ["baz"]
    ensures DiffPaths(oldPath, newPath) == Ok(Delta("/" + "bar", ToRemove))
    ensures Basename(oldPath) == "baz"
  {
    NotContainsHead(RootText, "bar");
    assert ParentSegments(oldPath) == Root + ["bar"];
    DiffPathsMoveUp(oldPath, newPath, "bar");
  }

  lemma EditsOfBazUp(bar: Path, foo: Path, r1: ImportRecord, r2: ImportRecord)
    requires r1 == ImportRecord("./" + "baz", 13, 21) && r2 == ImportRecord("../" + "bar" + "/" + "baz", 13, 26)
    ensures EditFor(bar, r1, Delta("/" + "bar", ToRemove), "baz") == InsertChange(bar, 15, ".")
    ensures EditFor(foo, r2, Delta("/" + "bar", ToRemove), "baz") == RemoveChange(foo, 17, "/" + "bar")
  {
    assert "baz"[..3] != "bar" by {
      assert "baz"[2] != "bar"[2];
    }
    RemoveEditSibling("bar", "baz", "baz");
    RemoveEditCousin("bar", "baz", "baz");
  }
}

=== FILE: module_resolver.dfy ===
/**
 The specifier rewriting of `ModuleResolver`: which imports are relative, the
 new specifier a dependent file gets when a component unit moves, the edits
 that rewrite the moved file's own imports, and the edits planned for the
 barrel `index.ts` files of the old and the new directory.

 `oldFilePath` is the component file being moved and `newFilePath` the
 directory it moves into.
 */
module ModuleResolver {
  import opened Text
  import opened NodePath
  import opened ObjectMap
  import opened Change
  import opened DependentFiles

  // ---------------------------------------------------------------------------
  // isRelativeImport

  /** `isRelativeImport`: the first character is `/`, or the first two are `./`, or the first three `../`. */
  function IsRelativeImport(spec: string): (b: bool)
    ensures b <==> StartsWith(spec, "/") || StartsWith(spec, "./") || StartsWith(spec, "../")
  {
    CharAt(spec, 0) == "/" || SliceTo(spec, 2) == "./" || SliceTo(spec, 3) == "../"
  }

  // ---------------------------------------------------------------------------
  // getNewSpecifierText

  /** An empty relative path means the two directories are the same. */
  lemma RelativeEmpty(from: Path, to: Path)
    ensures Relative(from, to) == "" <==> Normalize(from) == Normalize(to)
  {
    var f := Normalize(from);
    ResolveRelative(from, to);
    if Relative(from, to) == "" {
      assert Split("") == [""];
      assert ResolveSegments(f, [""]) == ResolveSegments(f, []);
    }
    if f == Normalize(to) {
      var k := CommonPrefixLength(f, f);
      assert k == |f|;
      assert Repeat("..", |f| - k) + f[k..] == [];
    }
  }

  /**
   `getNewSpecifierText(file)`: the path from the dependent file's directory
   to the new directory, led by `./` when it does not start with a dot. It
   names the new directory, and it is empty exactly when the dependent file
   already sits there.
   */
  function NewSpecifierText(file: Path, newDir: Path): (t: string)
    ensures t == "" || t[0] == '.'
    ensures !StartsWith(t, "/")
    ensures Resolve(Dirname(file), t) == Normalize(newDir)
    ensures t == "" <==> Normalize(Dirname(file)) == Normalize(newDir)
  {
    var rel := Relative(Dirname(file), newDir);
    RelativeNotRooted(Dirname(file), newDir);
    ResolveDotLed(Dirname(file), rel);
    ResolveRelative(Dirname(file), newDir);
    RelativeEmpty(Dirname(file), newDir);
    DotLed(rel)
  }

  // ---------------------------------------------------------------------------
  // resolveDependentFiles

  /** `path.basename(oldFilePath, '.ts')`: the unit's name, e.g. `foo.component`. */
  function ComponentName(oldFile: Path): Segment {
    BasenameExt(oldFile, ".ts")
  }

  /**
   What the new specifier of a dependent file should name: the new
   directory's `index.ts` barrel when there is one, the moved file itself
   otherwise.
   */
  function Target(oldFile: Path, newDir: Path, hasNewIndex: bool): Path {
    if hasNewIndex then Normalize(newDir) else ResolveSegments(Normalize(newDir), [ComponentName(oldFile)])
  }

  /**
   The new specifier exactly as the source builds it. With a barrel in the new
   directory and a dependent file inside that directory it becomes `../`
   followed by the name of the new directory's PARENT.
   */
  function NewSpecifierAsWritten(file: Path, oldFile: Path, newDir: Path, hasNewIndex: bool): string {
    var t := NewSpecifierText(file, newDir);
    if !hasNewIndex then (if t == "" then "./" + t else t) + "/" + ComponentName(oldFile)
    else if t == "" then "../" + Basename(Dirname(newDir))
    else t
  }

  /**
   With a barrel in the new directory, a dependent file inside that directory
   is sent to `<parent of newDir>/<name of that parent>`, which is the new
   directory only when it has the same name as its parent.
   */
  lemma NewSpecifierAsWrittenMisses(file: Path, oldFile: Path, newDir: Path)
    requires IsPlain(newDir) && |newDir| >= 2
    requires Normalize(Dirname(file)) == newDir
    ensures var r := Resolve(Dirname(file), NewSpecifierAsWritten(file, oldFile, newDir, true));
      && r == Dirname(newDir) + [Basename(Dirname(newDir))]
      && (r == Target(oldFile, newDir, true) <==> Basename(Dirname(newDir)) == Basename(newDir))
  {
    NormalizePlain(newDir);
    assert IsPlainSegment(newDir[|newDir| - 2]);
    SiblingSpecifier(Dirname(file), newDir, Basename(Dirname(newDir)));
    assert newDir == Dirname(newDir) + [Basename(newDir)];
  }

  /** The smallest case: a file in `src/app/shared` is pointed at `src/app/app`. */
  lemma NewSpecifierAsWrittenExample()
    ensures var file := ["src", "app", "shared", "a.component.ts"];
      var oldFile := ["src", "app", "b", "b.component.ts"];
      var newDir := ["src", "app", "shared"];
      && Resolve(Dirname(file), NewSpecifierAsWritten(file, oldFile, newDir, true)) == ["src", "app", "app"]
      && Target(oldFile, newDir, true) == ["src", "app", "shared"]
  {
    ExampleAt(["src", "app", "shared", "a.component.ts"], ["src", "app", "b", "b.component.ts"],
              ["src", "app", "shared"]);
  }

  lemma ExampleAt(file: Path, oldFile: Path, newDir: Path)
    requires file == ["src", "app", "shared", "a.component.ts"]
    requires newDir == ["src", "app", "shared"]
    ensures Resolve(Dirname(file), NewSpecifierAsWritten(file, oldFile, newDir, true)) == ["src", "app", "app"]
    ensures Target(oldFile, newDir, true) == ["src", "app", "shared"]
  {
    assert IsPlain(newDir);
    assert Dirname(file) == newDir;
    NormalizePlain(newDir);
    NewSpecifierAsWrittenMisses(file, oldFile, newDir);
    assert Dirname(newDir) + [Basename(Dirname(newDir))] == ["src", "app", "app"];
  }

  /** From inside directory `n`, `../<s>` names the sibling `s` of `n`. */
  lemma SiblingSpecifier(dir: Path, n: Path, s: Segment)
    requires Normalize(dir) == n && IsPlainSegment(s)
    ensures Resolve(dir, "../" + s) == Dirname(n) + [s]
  {
    UpThen(dir, s);
  }

  /** `../<s>` steps out of the directory and then to `s`. */
  lemma UpThen(dir: Path, s: Segment)
    ensures Resolve(dir, "../" + s) == ResolveSegments(Dirname(Normalize(dir)), [s])
  {
    var n := Normalize(dir);
    assert "../" + s == ".." + "/" + s;
    SplitConcat("..", s);
    SplitSegment("..");
    SplitSegment(s);
    assert Split("../" + s) == ["..", s];
    assert !StartsWith("../" + s, "/");
    assert ResolveSegments(n, ["..", s]) == ResolveSegments(Step(n, ".."), [s]);
  }

  /**
   The new specifier with the barrel case corrected to `../` followed by the
   new directory's own name. It names the target in every case, and it
   differs from the source's only in that case.
   */
  function NewSpecifier(file: Path, oldFile: Path, newDir: Path, hasNewIndex: bool): (r: string)
    ensures Resolve(Dirname(file), r) == Target(oldFile, newDir, hasNewIndex)
    ensures r != NewSpecifierAsWritten(file, oldFile, newDir, hasNewIndex) ==>
      hasNewIndex && Normalize(Dirname(file)) == Normalize(newDir)
  {
    var t := NewSpecifierText(file, newDir);
    if hasNewIndex && t == "" then
      ParentSpecifier(Dirname(file), Normalize(newDir));
      "../" + Basename(Normalize(newDir))
    else if !hasNewIndex then
      var head := if t == "" then "./" + t else t;
      ChildSpecifier(Dirname(file), head, ComponentName(oldFile));
      head + "/" + ComponentName(oldFile)
    else
      t
  }

  /** From inside directory `n`, `../<name of n>` names `n` again. */
  lemma ParentSpecifier(dir: Path, n: Path)
    requires Normalize(dir) == n
    ensures Resolve(dir, "../" + Basename(n)) == n
  {
    var b := Basename(n);
    UpThen(dir, b);
    if |n| > 0 {
      assert IsPlainSegment(n[|n| - 1]);
      assert n == Dirname(n) + [b];
    }
  }

  /** `<head>/<name>` names `name` inside what `head` names; `./` names the directory itself. */
  lemma ChildSpecifier(dir: Path, head: string, name: Segment)
    requires |head| > 0 && head[0] != '/'
    ensures Resolve(dir, head + "/" + name) == ResolveSegments(Resolve(dir, head), [name])
    ensures head == "./" ==> Resolve(dir, head) == Normalize(dir)
  {
    ResolveChild(dir, head, name);
    if head == "./" {
      assert "./" == "." + "/" + "";
      SplitConcat(".", "");
      SplitSegment(".");
      assert Split(head) == [".", ""];
      assert !StartsWith(head, "/");
      assert ResolveSegments(Normalize(dir), [".", ""]) == Normalize(dir);
    }
  }

  /**
   `basename(basename(file, '.ts'), '.spec')` for a name of one segment: a
   name equal to the suffix gives "".
   */
  function StripSuffix(name: string, ext: string): string {
    if name == ext then ""
    else if 0 < |ext| < |name| && EndsWith(name, ext) then name[..|name| - |ext|]
    else name
  }

  /** The test of the spec-file filter: true for the file the filter drops. */
  predicate IsOwnSpecFile(file: Path, base: string) {
    var b := BasenameExt(file, ".ts");
    Extname(b) == ".spec" && StripSuffix(b, ".spec") == base
  }

  /**
   The filter drops exactly `<base>.spec.ts` and `<base>.spec` for a non-empty
   base, and keeps every other file.
   */
  lemma OwnSpecFileName(file: Path, base: string)
    ensures IsOwnSpecFile(file, base) <==>
      |base| > 0 && (Basename(file) == base + ".spec.ts" || Basename(file) == base + ".spec")
  {
    var b := Basename(file);
    if IsOwnSpecFile(file, base) {
      OwnSpecFileIsNamed(file, base);
    } else if |base| > 0 && b == base + ".spec.ts" {
      SpecTsIsOwnSpecFile(file, base);
    } else if |base| > 0 && b == base + ".spec" {
      SpecIsOwnSpecFile(file, base);
    }
  }

  lemma OwnSpecFileIsNamed(file: Path, base: string)
    requires IsOwnSpecFile(file, base)
    ensures |base| > 0 && (Basename(file) == base + ".spec.ts" || Basename(file) == base + ".spec")
  {
    var b := Basename(file);
    var b1 := BasenameExt(file, ".ts");
    StripSpec(b1, base);
    StripTsCases(file);
    if b1 != b {
      RestoreTs(b, base);
    }
  }

  /** A name with extension `.spec` is the rest of the name followed by `.spec`. */
  lemma StripSpec(b1: string, base: string)
    requires Extname(b1) == ".spec" && StripSuffix(b1, ".spec") == base
    ensures |base| > 0 && b1 == base + ".spec"
  {
    ExtnameIs(b1, ".spec");
    assert b1 == b1[..|b1| - 5] + b1[|b1| - 5..];
  }

  /** `basename(file, '.ts')` is the name, the name without `.ts`, or "". */
  lemma StripTsCases(file: Path)
    ensures var b, b1 := Basename(file), BasenameExt(file, ".ts");
      || b1 == b
      || b1 == ""
      || (|b| > 3 && EndsWith(b, ".ts") && b1 == b[..|b| - 3])
  {
  }

  lemma RestoreTs(b: string, base: string)
    requires |b| > 3 && EndsWith(b, ".ts") && b[..|b| - 3] == base + ".spec"
    ensures b == base + ".spec.ts"
  {
    assert b == b[..|b| - 3] + b[|b| - 3..];
  }

  lemma SpecTsIsOwnSpecFile(file: Path, base: string)
    requires |base| > 0 && Basename(file) == base + ".spec.ts"
    ensures IsOwnSpecFile(file, base)
  {
    var b1 := BasenameExt(file, ".ts");
    assert base + ".spec.ts" == (base + ".spec") + ".ts";
    assert b1 == base + ".spec";
    ExtnameOf(b1, ".spec");
  }

  lemma SpecIsOwnSpecFile(file: Path, base: string)
    requires |base| > 0 && Basename(file) == base + ".spec"
    ensures IsOwnSpecFile(file, base)
  {
    var b := Basename(file);
    assert b[|b| - 1] == 'c';
    assert BasenameExt(file, ".ts") == b;
    ExtnameOf(b, ".spec");
  }

  /** Index of the first character of a specifier ending just before the closing quote at `end - 1`. */
  function SpecifierPosition(rec: ImportRecord): int {
    rec.end - |rec.specifier| - 1
  }

  predicate IsQuote(c: char) {
    c == '\'' || c == '"'
  }

  /** `rec.specifier` sits in `content` between two like quotes, the closing one at `rec.end - 1`. */
  predicate Quoted(content: string, rec: ImportRecord) {
    var e, n := rec.end, |rec.specifier|;
    && n + 2 <= e <= |content|
    && IsQuote(content[e - 1])
    && content[e - n - 2] == content[e - 1]
    && content[e - n - 1..e - 1] == rec.specifier
  }

  /**
   The replacement at `end - |specifier| - 1` swaps exactly the text between
   the quotes: it matches the text it replaces, and the result holds the new
   specifier between the same quotes, ending `|new| - |oldFile|` further on.
   */
  lemma ReplaceInsideQuotes(content: string, p: Path, rec: ImportRecord, newText: string)
    requires Quoted(content, rec)
    ensures var k := SpecifierPosition(rec);
      var c := ReplaceChange(p, k, rec.specifier, newText);
      var r := ApplyChange(c, content);
      && Matches(c, content)
      && r == content[..k] + newText + content[rec.end - 1..]
      && Quoted(r, ImportRecord(newText, rec.pos, rec.end - |rec.specifier| + |newText|))
  {
    var k := SpecifierPosition(rec);
    var c := ReplaceChange(p, k, rec.specifier, newText);
    Spliced(c, content);
    Requoted(content, rec, newText);
  }

  /** Splicing a new text between the quotes leaves it between the same quotes. */
  lemma Requoted(content: string, rec: ImportRecord, newText: string)
    requires Quoted(content, rec)
    ensures var k := SpecifierPosition(rec);
      var r := content[..k] + newText + content[rec.end - 1..];
      Quoted(r, ImportRecord(newText, rec.pos, rec.end - |rec.specifier| + |newText|))
  {
    var k := SpecifierPosition(rec);
    var r := content[..k] + newText + content[rec.end - 1..];
    var e' := rec.end - |rec.specifier| + |newText|;
    assert r[e' - 1] == content[rec.end - 1];
    assert r[k - 1] == content[k - 1];
    assert r[k..k + |newText|] == newText;
  }

  /**
   `c` rewrites the import `rec` of `file` in place: it replaces the text
   between the quotes, and the new text names `target` from the file's
   directory.
   */
  predicate Repoints(c: Change, file: Path, rec: ImportRecord, target: Path) {
    && c.ReplaceChange?
    && c.path == file
    && c.oldText == rec.specifier
    && c.pos == SpecifierPosition(rec)
    && Resolve(Dirname(file), c.newText) == target
  }

  /**
   The case the source's new specifier gets wrong: the new directory has a
   barrel and the dependent file already lies in it.
   */
  predicate InNewBarrelDir(file: Path, newDir: Path, hasNewIndex: bool) {
    hasNewIndex && Normalize(Dirname(file)) == Normalize(newDir)
  }

  /**
   What the new specifier of the dependent `file` names. The corrected text
   always names the target. The source's text names, in the case above, the
   entry called like the new directory's parent inside that parent.
   */
  function Aim(file: Path, oldFile: Path, newDir: Path, hasNewIndex: bool, corrected: bool): Path {
    if !corrected && InNewBarrelDir(file, newDir, hasNewIndex)
    then ResolveSegments(Dirname(Normalize(newDir)), [Basename(Dirname(newDir))])
    else Target(oldFile, newDir, hasNewIndex)
  }

  /**
   The source's new specifier names the target for every dependent file
   except one inside a new directory that has a barrel.
   */
  lemma NewSpecifierAsWrittenAims(file: Path, oldFile: Path, newDir: Path, hasNewIndex: bool)
    ensures var r := Resolve(Dirname(file), NewSpecifierAsWritten(file, oldFile, newDir, hasNewIndex));
      && (!InNewBarrelDir(file, newDir, hasNewIndex) ==> r == Target(oldFile, newDir, hasNewIndex))
      && (InNewBarrelDir(file, newDir, hasNewIndex) ==>
            r == ResolveSegments(Dirname(Normalize(newDir)), [Basename(Dirname(newDir))]))
  {
    var n := NewSpecifier(file, oldFile, newDir, hasNewIndex);
    if InNewBarrelDir(file, newDir, hasNewIndex) {
      assert NewSpecifierText(file, newDir) == "";
      UpThen(Dirname(file), Basename(Dirname(newDir)));
    }
  }

  /** The new specifier of the dependent `file`: the source's text, or the corrected one. */
  function SpecifierFor(file: Path, oldFile: Path, newDir: Path, hasNewIndex: bool, corrected: bool): (r: string)
    ensures Resolve(Dirname(file), r) == Aim(file, oldFile, newDir, hasNewIndex, corrected)
  {
    if corrected then NewSpecifier(file, oldFile, newDir, hasNewIndex)
    else
      NewSpecifierAsWrittenAims(file, oldFile, newDir, hasNewIndex);
      NewSpecifierAsWritten(file, oldFile, newDir, hasNewIndex)
  }

  /** The edits of one dependent file: one replacement per import record, in order. */
  function EditsOf(file: Path, recs: seq<ImportRecord>, oldFile: Path, newDir: Path,
                   hasNewIndex: bool, corrected: bool): (r: seq<Change>)
    ensures |r| == |recs|
    ensures forall i :: 0 <= i < |r| ==>
      Repoints(r[i], file, recs[i], Aim(file, oldFile, newDir, hasNewIndex, corrected))
    decreases |recs|
  {
    if |recs| == 0 then []
    else
      var c := ReplaceChange(file, SpecifierPosition(recs[0]), recs[0].specifier,
                             SpecifierFor(file, oldFile, newDir, hasNewIndex, corrected));
      var rest := EditsOf(file, recs[1..], oldFile, newDir, hasNewIndex, corrected);
      ConsRepoints(c, rest, file, recs, Aim(file, oldFile, newDir, hasNewIndex, corrected));
      [c] + rest
  }

  lemma ConsRepoints(c: Change, rest: seq<Change>, file: Path, recs: seq<ImportRecord>, target: Path)
    requires |recs| > 0 && |rest| == |recs| - 1
    requires Repoints(c, file, recs[0], target)
    requires forall i :: 0 <= i < |rest| ==> Repoints(rest[i], file, recs[1..][i], target)
    ensures forall i :: 0 <= i < |recs| ==> Repoints(([c] + rest)[i], file, recs[i], target)
  {
    var r := [c] + rest;
    forall i | 1 <= i < |recs| ensures Repoints(r[i], file, recs[i], target) {
      var j := i - 1;
      assert r[i] == rest[j];
      assert recs[i] == recs[1..][j];
    }
    assert r[0] == c;
  }

  /**
   The replacements the source plans for one dependent file: one per import
   record, in order, each pointing the import at the target unless the file
   lies in a new directory that has a barrel.
   */
  function DependentEdits(file: Path, recs: seq<ImportRecord>, oldFile: Path, newDir: Path,
                          hasNewIndex: bool): (r: seq<Change>)
    ensures |r| == |recs|
    ensures forall i :: 0 <= i < |r| ==>
      Repoints(r[i], file, recs[i], Aim(file, oldFile, newDir, hasNewIndex, false))
    ensures !InNewBarrelDir(file, newDir, hasNewIndex) ==>
      forall i :: 0 <= i < |r| ==> Repoints(r[i], file, recs[i], Target(oldFile, newDir, hasNewIndex))
  {
    EditsOf(file, recs, oldFile, newDir, hasNewIndex, false)
  }

  /** The replacements of one dependent file with the corrected specifier: each names the target. */
  function CorrectedDependentEdits(file: Path, recs: seq<ImportRecord>, oldFile: Path, newDir: Path,
                                   hasNewIndex: bool): (r: seq<Change>)
    ensures |r| == |recs|
    ensures forall i :: 0 <= i < |r| ==> Repoints(r[i], file, recs[i], Target(oldFile, newDir, hasNewIndex))
  {
    EditsOf(file, recs, oldFile, newDir, hasNewIndex, true)
  }

  /**
   For every dependent file other than the unit's own spec file, in order,
   the edits of that file.
   */
  function PlanDependents(deps: Entries<Path, seq<ImportRecord>>, oldFile: Path, newDir: Path,
                          hasNewIndex: bool, corrected: bool): (r: seq<Change>)
    ensures forall c :: c in r ==> Retargets(c, Keys(deps), oldFile, newDir, hasNewIndex, corrected)
    decreases |deps|
  {
    if |deps| == 0 then []
    else
      var file := deps[0].0;
      var rest := PlanDependents(deps[1..], oldFile, newDir, hasNewIndex, corrected);
      assert Keys(deps) == {file} + Keys(deps[1..]);
      if IsOwnSpecFile(file, ComponentName(oldFile)) then rest
      else
        var edits := EditsOf(file, deps[0].1, oldFile, newDir, hasNewIndex, corrected);
        RetargetsAll(edits, rest, file, deps[0].1, Keys(deps[1..]), Keys(deps), oldFile, newDir,
                     hasNewIndex, corrected);
        edits + rest
  }

  /**
   `c` is a replacement in one of `files`, not in the unit's own spec file,
   whose new text names what the specifier of its file aims at.
   */
  predicate Retargets(c: Change, files: set<Path>, oldFile: Path, newDir: Path, hasNewIndex: bool,
                      corrected: bool) {
    && c.ReplaceChange?
    && c.path in files
    && !IsOwnSpecFile(c.path, ComponentName(oldFile))
    && Resolve(Dirname(c.path), c.newText) == Aim(c.path, oldFile, newDir, hasNewIndex, corrected)
  }

  lemma RetargetsAll(edits: seq<Change>, rest: seq<Change>, file: Path, recs: seq<ImportRecord>,
                     restFiles: set<Path>, files: set<Path>, oldFile: Path, newDir: Path,
                     hasNewIndex: bool, corrected: bool)
    requires files == {file} + restFiles && !IsOwnSpecFile(file, ComponentName(oldFile))
    requires |edits| == |recs|
    requires forall i :: 0 <= i < |edits| ==>
      Repoints(edits[i], file, recs[i], Aim(file, oldFile, newDir, hasNewIndex, corrected))
    requires forall c :: c in rest ==> Retargets(c, restFiles, oldFile, newDir, hasNewIndex, corrected)
    ensures forall c :: c in edits + rest ==> Retargets(c, files, oldFile, newDir, hasNewIndex, corrected)
  {
    forall c | c in edits ensures Retargets(c, files, oldFile, newDir, hasNewIndex, corrected) {
      var i :| 0 <= i < |edits| && edits[i] == c;
    }
  }

  /**
   `resolveDependentFiles` as the source writes it: replacements in dependent
   files other than the unit's own spec file, each pointing its import at the
   target unless its file lies in a new directory that has a barrel.
   */
  function ResolveDependentFiles(deps: Entries<Path, seq<ImportRecord>>, oldFile: Path, newDir: Path,
                                 hasNewIndex: bool): (r: seq<Change>)
    ensures forall c :: c in r ==> Retargets(c, Keys(deps), oldFile, newDir, hasNewIndex, false)
    ensures forall c :: c in r && !InNewBarrelDir(c.path, newDir, hasNewIndex) ==>
      NamesTarget(c, oldFile, newDir, hasNewIndex)
  {
    var r := PlanDependents(deps, oldFile, newDir, hasNewIndex, false);
    forall c | c in r && !InNewBarrelDir(c.path, newDir, hasNewIndex)
      ensures NamesTarget(c, oldFile, newDir, hasNewIndex)
    {
      RetargetsTarget(c, Keys(deps), oldFile, newDir, hasNewIndex, false);
    }
    r
  }

  /** `resolveDependentFiles` with the corrected specifier: every replacement names the target. */
  function CorrectedResolveDependentFiles(deps: Entries<Path, seq<ImportRecord>>, oldFile: Path,
                                          newDir: Path, hasNewIndex: bool): (r: seq<Change>)
    ensures forall c :: c in r ==> Retargets(c, Keys(deps), oldFile, newDir, hasNewIndex, true)
    ensures forall c :: c in r ==> NamesTarget(c, oldFile, newDir, hasNewIndex)
  {
    var r := PlanDependents(deps, oldFile, newDir, hasNewIndex, true);
    forall c | c in r ensures NamesTarget(c, oldFile, newDir, hasNewIndex) {
      RetargetsTarget(c, Keys(deps), oldFile, newDir, hasNewIndex, true);
    }
    r
  }

  lemma RetargetsTarget(c: Change, files: set<Path>, oldFile: Path, newDir: Path, hasNewIndex: bool,
                        corrected: bool)
    requires Retargets(c, files, oldFile, newDir, hasNewIndex, corrected)
    requires corrected || !InNewBarrelDir(c.path, newDir, hasNewIndex)
    ensures NamesTarget(c, oldFile, newDir, hasNewIndex)
  {
  }

  /** `c` is a replacement whose new text names the target from its file's directory. */
  predicate NamesTarget(c: Change, oldFile: Path, newDir: Path, hasNewIndex: bool) {
    c.ReplaceChange? && Resolve(Dirname(c.path), c.newText) == Target(oldFile, newDir, hasNewIndex)
  }

  /** Every import of every kept dependent file gets its replacement. */
  lemma {:induction false} PlanDependentsComplete(deps: Entries<Path, seq<ImportRecord>>, oldFile: Path,
                                                  newDir: Path, hasNewIndex: bool, corrected: bool,
                                                  file: Path, i: int)
    requires file in Keys(deps) && !IsOwnSpecFile(file, ComponentName(oldFile))
    requires 0 <= i < |Get(deps, file)|
    ensures exists c ::
              && c in PlanDependents(deps, oldFile, newDir, hasNewIndex, corrected)
              && Repoints(c, file, Get(deps, file)[i], Aim(file, oldFile, newDir, hasNewIndex, corrected))
    decreases |deps|
  {
    var aim := Aim(file, oldFile, newDir, hasNewIndex, corrected);
    var all := PlanDependents(deps, oldFile, newDir, hasNewIndex, corrected);
    var rest := PlanDependents(deps[1..], oldFile, newDir, hasNewIndex, corrected);
    var edits := EditsOf(deps[0].0, deps[0].1, oldFile, newDir, hasNewIndex, corrected);
    assert all == (if IsOwnSpecFile(deps[0].0, ComponentName(oldFile)) then rest else edits + rest);
    if deps[0].0 == file {
      assert Get(deps, file) == deps[0].1;
      assert Repoints(edits[i], file, Get(deps, file)[i], aim);
      assert edits[i] in all;
    } else {
      assert Keys(deps) == {deps[0].0} + Keys(deps[1..]);
      assert Get(deps, file) == Get(deps[1..], file);
      PlanDependentsComplete(deps[1..], oldFile, newDir, hasNewIndex, corrected, file, i);
      var c :| c in rest && Repoints(c, file, Get(deps, file)[i], aim);
      assert c in all;
    }
  }

  /**
   The source plans a replacement for every import of every kept dependent
   file; it repoints the import at the target unless the file lies in a new
   directory that has a barrel.
   */
  lemma ResolveDependentFilesComplete(deps: Entries<Path, seq<ImportRecord>>, oldFile: Path,
                                      newDir: Path, hasNewIndex: bool, file: Path, i: int)
    requires file in Keys(deps) && !IsOwnSpecFile(file, ComponentName(oldFile))
    requires 0 <= i < |Get(deps, file)|
    ensures exists c ::
              && c in ResolveDependentFiles(deps, oldFile, newDir, hasNewIndex)
              && Repoints(c, file, Get(deps, file)[i], Aim(file, oldFile, newDir, hasNewIndex, false))
    ensures !InNewBarrelDir(file, newDir, hasNewIndex) ==>
      exists c ::
        && c in ResolveDependentFiles(deps, oldFile, newDir, hasNewIndex)
        && Repoints(c, file, Get(deps, file)[i], Target(oldFile, newDir, hasNewIndex))
  {
    PlanDependentsComplete(deps, oldFile, newDir, hasNewIndex, false, file, i);
  }

  /** With the corrected specifier every import of every kept dependent file is repointed at the target. */
  lemma CorrectedResolveDependentFilesComplete(deps: Entries<Path, seq<ImportRecord>>, oldFile: Path,
                                               newDir: Path, hasNewIndex: bool, file: Path, i: int)
    requires file in Keys(deps) && !IsOwnSpecFile(file, ComponentName(oldFile))
    requires 0 <= i < |Get(deps, file)|
    ensures exists c ::
              && c in CorrectedResolveDependentFiles(deps, oldFile, newDir, hasNewIndex)
              && Repoints(c, file, Get(deps, file)[i], Target(oldFile, newDir, hasNewIndex))
  {
    PlanDependentsComplete(deps, oldFile, newDir, hasNewIndex, true, file, i);
  }

  // ---------------------------------------------------------------------------
  // resolveOwnImports

  /** The relative imports, in source order. */
  function RelativeImports(recs: seq<ImportRecord>): (r: seq<ImportRecord>)
    ensures forall rec :: rec in r <==> rec in recs && IsRelativeImport(rec.specifier)
    decreases |recs|
  {
    if |recs| == 0 then []
    else
      assert forall rec :: rec in recs <==> rec == recs[0] || rec in recs[1..];
      if IsRelativeImport(recs[0].specifier) then [recs[0]] + RelativeImports(recs[1..])
      else RelativeImports(recs[1..])
  }

  /**
   The relative imports keep their source order and repetitions: the
   selection distributes over concatenation and tests each import alone.
   */
  lemma {:induction false} RelativeImportsIsFilter(a: seq<ImportRecord>, b: seq<ImportRecord>, x: ImportRecord)
    ensures RelativeImports(a + b) == RelativeImports(a) + RelativeImports(b)
    ensures RelativeImports([x]) == if IsRelativeImport(x.specifier) then [x] else []
    decreases |a|
  {
    if |a| > 0 {
      var t := a[1..];
      HeadTail(a, b);
      RelativeImportsIsFilter(t, b, x);
      RelativeImportsCons(a[0], t);
      RelativeImportsCons(a[0], t + b);
      AppendAssoc(if IsRelativeImport(a[0].specifier) then [a[0]] else [], RelativeImports(t), RelativeImports(b));
    } else {
      assert a + b == b;
    }
    RelativeImportsOne(x);
  }

  lemma RelativeImportsOne(x: ImportRecord)
    ensures RelativeImports([x]) == if IsRelativeImport(x.specifier) then [x] else []
  {
    RelativeImportsCons(x, []);
    assert [x] + [] == [x];
  }

  lemma RelativeImportsCons(e: ImportRecord, s: seq<ImportRecord>)
    ensures RelativeImports([e] + s) == (if IsRelativeImport(e.specifier) then [e] else []) + RelativeImports(s)
  {
    var es := [e] + s;
    assert es[0] == e && es[1..] == s;
    if !IsRelativeImport(e.specifier) {
      assert [] + RelativeImports(s) == RelativeImports(s);
    }
  }

  /** The new text of one relative import of the moved file: the same module, seen from the new directory. */
  function OwnImportText(oldFile: Path, newDir: Path, spec: string): (t: string)
    ensures t == "" || t[0] == '.'
    ensures Resolve(newDir, t) == Resolve(Dirname(oldFile), spec)
  {
    var target := Resolve(Dirname(oldFile), spec);
    var rel := Relative(newDir, target);
    RelativeNotRooted(newDir, target);
    ResolveDotLed(newDir, rel);
    ResolveRelative(newDir, target);
    NormalizePlain(target);
    DotLed(rel)
  }

  /**
   `resolveOwnImports`: one replacement in the moved file per relative import,
   in source order; each new specifier, read from the new directory, names
   the module the oldFile one named from the oldFile directory.
   */
  function ResolveOwnImports(oldFile: Path, newDir: Path, recs: seq<ImportRecord>): (r: seq<Change>)
    ensures var rel := RelativeImports(recs);
      && |r| == |rel|
      && forall i :: 0 <= i < |r| ==> Carries(r[i], oldFile, newDir, rel[i])
  {
    OwnImportEdits(oldFile, newDir, RelativeImports(recs))
  }

  /**
   `c` rewrites the import `rec` of the moved file in place, and the new
   text, read from the new directory, names the module the old text named
   from the old directory.
   */
  predicate Carries(c: Change, oldFile: Path, newDir: Path, rec: ImportRecord) {
    && c.ReplaceChange?
    && c.path == oldFile
    && c.oldText == rec.specifier
    && c.pos == SpecifierPosition(rec)
    && Resolve(newDir, c.newText) == Resolve(Dirname(oldFile), rec.specifier)
  }

  function OwnImportEdits(oldFile: Path, newDir: Path, rel: seq<ImportRecord>): (r: seq<Change>)
    ensures |r| == |rel|
    ensures forall i :: 0 <= i < |r| ==> Carries(r[i], oldFile, newDir, rel[i])
    decreases |rel|
  {
    if |rel| == 0 then []
    else
      var spec := rel[0].specifier;
      var c := ReplaceChange(oldFile, SpecifierPosition(rel[0]), spec, OwnImportText(oldFile, newDir, spec));
      var rest := OwnImportEdits(oldFile, newDir, rel[1..]);
      ConsCarries(c, rest, oldFile, newDir, rel);
      [c] + rest
  }

  lemma ConsCarries(c: Change, rest: seq<Change>, oldFile: Path, newDir: Path, rel: seq<ImportRecord>)
    requires |rel| > 0 && |rest| == |rel| - 1
    requires Carries(c, oldFile, newDir, rel[0])
    requires forall i :: 0 <= i < |rest| ==> Carries(rest[i], oldFile, newDir, rel[1..][i])
    ensures forall i :: 0 <= i < |rel| ==> Carries(([c] + rest)[i], oldFile, newDir, rel[i])
  {
    var r := [c] + rest;
    forall i | 1 <= i < |rel| ensures Carries(r[i], oldFile, newDir, rel[i]) {
      var j := i - 1;
      assert r[i] == rest[j];
      assert rel[i] == rel[1..][j];
    }
    assert r[0] == c;
  }

  // ---------------------------------------------------------------------------
  // resolveExport

  /** An export declaration of a barrel file, as the parser reports it. */
  datatype ModuleExport = ModuleExport(symbols: seq<string>, blockText: string, specifierText: string,
                                       pos: int, end: int)

  /** The barrel file of a directory. */
  function IndexFile(dir: Path): Path {
    dir + ["index.ts"]
  }

  /** The export statement the refactoring writes for a unit named `base`. */
  function ExportLine(base: string): string {
    "export * from './" + base + "';"
  }

  /** The exports of the oldFile barrel that re-export the unit: specifier exactly `./<base>`. */
  function UnitExports(oldFile: Path, exports: seq<ModuleExport>): (r: seq<ModuleExport>)
    ensures forall e :: e in r <==> e in exports && e.specifierText == "./" + ComponentName(oldFile)
    decreases |exports|
  {
    if |exports| == 0 then []
    else
      assert forall e :: e in exports <==> e == exports[0] || e in exports[1..];
      if exports[0].specifierText == "./" + ComponentName(oldFile) then [exports[0]] + UnitExports(oldFile, exports[1..])
      else UnitExports(oldFile, exports[1..])
  }

  /**
   The exports of the unit keep their order and repetitions in the barrel:
   the selection distributes over concatenation and tests each export alone.
   */
  lemma {:induction false} UnitExportsIsFilter(oldFile: Path, a: seq<ModuleExport>, b: seq<ModuleExport>, x: ModuleExport)
    ensures UnitExports(oldFile, a + b) == UnitExports(oldFile, a) + UnitExports(oldFile, b)
    ensures UnitExports(oldFile, [x]) == if x.specifierText == "./" + ComponentName(oldFile) then [x] else []
    decreases |a|
  {
    if |a| > 0 {
      var t := a[1..];
      HeadTail(a, b);
      UnitExportsIsFilter(oldFile, t, b, x);
      UnitExportsCons(oldFile, a[0], t);
      UnitExportsCons(oldFile, a[0], t + b);
      AppendAssoc(if a[0].specifierText == "./" + ComponentName(oldFile) then [a[0]] else [], UnitExports(oldFile, t), UnitExports(oldFile, b));
    } else {
      assert a + b == b;
    }
    UnitExportsOne(oldFile, x);
  }

  lemma UnitExportsOne(oldFile: Path, x: ModuleExport)
    ensures UnitExports(oldFile, [x]) == if x.specifierText == "./" + ComponentName(oldFile) then [x] else []
  {
    UnitExportsCons(oldFile, x, []);
    assert [x] + [] == [x];
  }

  lemma UnitExportsCons(oldFile: Path, e: ModuleExport, s: seq<ModuleExport>)
    ensures UnitExports(oldFile, [e] + s)
         == (if e.specifierText == "./" + ComponentName(oldFile) then [e] else []) + UnitExports(oldFile, s)
  {
    var es := [e] + s;
    assert es[0] == e && es[1..] == s;
    if e.specifierText != "./" + ComponentName(oldFile) {
      assert [] + UnitExports(oldFile, s) == UnitExports(oldFile, s);
    }
  }

  /** The removal of one export statement together with the line break after it. */
  function RemoveExport(indexFile: Path, e: ModuleExport): Change {
    var toRemove := e.blockText + "\n";
    RemoveChange(indexFile, (e.end + 2) - |toRemove|, toRemove)
  }

  /** The statement `e` ends with `;` just after its specifier and is followed by a line break. */
  predicate StatementAt(content: string, e: ModuleExport) {
    var start := e.end + 1 - |e.blockText|;
    && 0 <= start
    && e.end + 2 <= |content|
    && content[start..e.end + 1] == e.blockText
    && content[e.end + 1] == '\n'
  }

  /** A planned removal takes out exactly the statement and its line break, and nothing else. */
  lemma RemoveExportDeletesLine(content: string, indexFile: Path, e: ModuleExport)
    requires StatementAt(content, e)
    ensures var c := RemoveExport(indexFile, e);
      && Matches(c, content)
      && ApplyChange(c, content) == content[..e.end + 1 - |e.blockText|] + content[e.end + 2..]
  {
    var start := e.end + 1 - |e.blockText|;
    assert content[start..e.end + 2] == content[start..e.end + 1] + [content[e.end + 1]];
  }

  /** The removals in the oldFile directory's barrel: one per export of the unit, in order. */
  function BarrelRemovals(oldFile: Path, exports: seq<ModuleExport>): (r: seq<Change>)
    ensures var unit := UnitExports(oldFile, exports);
      && |r| == |unit|
      && forall i :: 0 <= i < |r| ==>
           && r[i].RemoveChange?
           && r[i].path == IndexFile(Dirname(oldFile))
           && r[i].toRemove == unit[i].blockText + "\n"
           && r[i].pos == unit[i].end + 1 - |unit[i].blockText|
  {
    RemoveAll(IndexFile(Dirname(oldFile)), UnitExports(oldFile, exports))
  }

  function RemoveAll(indexFile: Path, es: seq<ModuleExport>): (r: seq<Change>)
    ensures |r| == |es|
    ensures forall i :: 0 <= i < |r| ==> r[i] == RemoveExport(indexFile, es[i])
    decreases |es|
  {
    if |es| == 0 then [] else [RemoveExport(indexFile, es[0])] + RemoveAll(indexFile, es[1..])
  }

  /**
   The insertion in the new directory's barrel: the export line at the top
   of a barrel without exports, otherwise on a new line just after the `;` of
   the last export.
   */
  function BarrelInsert(oldFile: Path, newDir: Path, exports: seq<ModuleExport>): (c: Change)
    ensures c.InsertChange? && c.path == IndexFile(newDir)
    ensures |exports| == 0 ==> c.pos == 0 && c.toAdd == ExportLine(ComponentName(oldFile)) + "\n"
    ensures |exports| > 0 ==>
      c.pos == exports[|exports| - 1].end + 1 && c.toAdd == "\n" + ExportLine(ComponentName(oldFile))
  {
    var line := ExportLine(ComponentName(oldFile));
    if |exports| == 0 then InsertChange(IndexFile(newDir), 0, line + "\n")
    else InsertChange(IndexFile(newDir), exports[|exports| - 1].end + 1, "\n" + line)
  }

  /** The inserted export names the moved file in the new directory. */
  lemma ExportNamesUnit(oldFile: Path, newDir: Path)
    ensures Resolve(newDir, "./" + ComponentName(oldFile))
      == ResolveSegments(Normalize(newDir), [ComponentName(oldFile)])
  {
    DotChild(newDir, ComponentName(oldFile));
  }

  /** `./<name>` names `name` inside the directory itself. */
  lemma DotChild(dir: Path, name: Segment)
    ensures Resolve(dir, "./" + name) == ResolveSegments(Normalize(dir), [name])
  {
    assert "./" + name == "." + "/" + name;
    SplitConcat(".", name);
    SplitSegment(".");
    SplitSegment(name);
    assert Split("./" + name) == [".", name];
    assert !StartsWith("./" + name, "/");
    assert ResolveSegments(Normalize(dir), [".", name]) == ResolveSegments(Normalize(dir), [name]);
  }

  /** The export a parser reports for the line `BarrelInsert` wrote. */
  function InsertedExport(oldFile: Path, exports: seq<ModuleExport>): ModuleExport {
    var base := ComponentName(oldFile);
    var line := ExportLine(base);
    var start := if |exports| == 0 then 0 else exports[|exports| - 1].end + 2;
    ModuleExport(["*"], line, "./" + base, start + 13, start + |line| - 1)
  }

  /**
   The barrel after the insertion holds the statement `export * from
   './<base>';` followed by a line break, where a parser reports the export
   `e`; and the removal planned for `e` is the inverse of the insertion:
   promoting the unit out of the new directory again restores the barrel,
   provided the last export was followed by a line break.
   */
  lemma BarrelInsertThenRemove(content: string, oldFile: Path, newDir: Path, exports: seq<ModuleExport>)
    requires |exports| > 0 ==>
      var k := exports[|exports| - 1].end + 1;
      0 <= k < |content| && content[k] == '\n'
    ensures var e := InsertedExport(oldFile, exports);
      var added := ApplyChange(BarrelInsert(oldFile, newDir, exports), content);
      && e.blockText == ExportLine(ComponentName(oldFile))
      && StatementAt(added, e)
      && UnitExports(oldFile, [e]) == [e]
      && ApplyChange(RemoveExport(IndexFile(newDir), e), added) == content
  {
    var e := InsertedExport(oldFile, exports);
    assert UnitExports(oldFile, [e]) == [e] by {
      assert UnitExports(oldFile, [e][1..]) == [];
    }
    if |exports| == 0 {
      InsertAtTopThenRemove(content, oldFile, newDir);
    } else {
      InsertAfterLastThenRemove(content, oldFile, newDir, exports);
    }
  }

  lemma InsertAtTopThenRemove(content: string, oldFile: Path, newDir: Path)
    ensures var e := InsertedExport(oldFile, []);
      var added := ApplyChange(BarrelInsert(oldFile, newDir, []), content);
      && StatementAt(added, e)
      && ApplyChange(RemoveExport(IndexFile(newDir), e), added) == content
  {
    InsertAtTopStatement(content, oldFile, newDir);
    var line := ExportLine(ComponentName(oldFile));
    var ins := BarrelInsert(oldFile, newDir, []);
    assert ins == InsertChange(IndexFile(newDir), 0, line + "\n");
    Spliced(ins, content);
    var added := ApplyChange(ins, content);
    LineAtTop(content, line + "\n");
    var rm := RemoveExport(IndexFile(newDir), InsertedExport(oldFile, []));
    assert rm == RemoveChange(IndexFile(newDir), 0, line + "\n");
    Spliced(rm, added);
  }

  /** The export line inserted at the top of a barrel is a statement followed by a line break. */
  lemma InsertAtTopStatement(content: string, oldFile: Path, newDir: Path)
    ensures StatementAt(ApplyChange(BarrelInsert(oldFile, newDir, []), content), InsertedExport(oldFile, []))
  {
    var line := ExportLine(ComponentName(oldFile));
    var ins := BarrelInsert(oldFile, newDir, []);
    var e := InsertedExport(oldFile, []);
    assert e.blockText == line && e.end == |line| - 1;
    Spliced(ins, content);
    LineFirst(ApplyChange(ins, content), content, line);
  }

  /** A text that starts with `line` and a line break holds `line` at 0, followed by that break. */
  lemma LineFirst(added: string, content: string, line: string)
    requires added == content[..0] + (line + "\n") + content[0..]
    ensures added[0..|line|] == line && added[|line|] == '\n'
  {
    assert added == line + "\n" + content;
  }

  /** Cutting what was put in front of the text restores the text. */
  lemma LineAtTop(content: string, t: string)
    ensures var added := content[..0] + t + content[0..];
      |t| <= |added| && added[..0] + "" + added[|t|..] == content
  {
    var added := content[..0] + t + content[0..];
    assert added == t + content;
    assert added[|t|..] == content;
  }

  lemma InsertAfterLastThenRemove(content: string, oldFile: Path, newDir: Path, exports: seq<ModuleExport>)
    requires |exports| > 0
    requires var k := exports[|exports| - 1].end + 1;
      0 <= k < |content| && content[k] == '\n'
    ensures var e := InsertedExport(oldFile, exports);
      var added := ApplyChange(BarrelInsert(oldFile, newDir, exports), content);
      && StatementAt(added, e)
      && ApplyChange(RemoveExport(IndexFile(newDir), e), added) == content
  {
    var line := ExportLine(ComponentName(oldFile));
    var e := InsertedExport(oldFile, exports);
    var k := exports[|exports| - 1].end + 1;
    var ins := BarrelInsert(oldFile, newDir, exports);
    assert ins == InsertChange(IndexFile(newDir), k, "\n" + line);
    var added := ApplyChange(ins, content);
    LineAfter(content, k, line);
    assert e.blockText == line && e.end == k + |line|;
    RemoveExportDeletesLine(added, IndexFile(newDir), e);
  }

  /** Inserting `"\n" + line` before a line break at `k` and then cutting `line + "\n"` after it restores the text. */
  lemma LineAfter(content: string, k: int, line: string)
    requires 0 <= k < |content| && content[k] == '\n'
    ensures var added := content[..k] + ("\n" + line) + content[k..];
      && added[k + 1..k + 1 + |line|] == line
      && added[k + 1 + |line|] == '\n'
      && added[..k + 1] + added[k + 1 + |line| + 1..] == content
  {
    var added := content[..k] + ("\n" + line) + content[k..];
    assert added[k + 1 + |line|..] == content[k..];
    assert added[..k + 1] == content[..k] + "\n";
    assert content == content[..k] + [content[k]] + content[k + 1..];
  }

  /**
   `resolveExport`: the removals in the old directory's barrel when it
   exists, then the insertion in the new directory's barrel when that
   exists. Each barrel's exports are given by the parser.
   */
  function ResolveExport(oldFile: Path, newDir: Path, hasOldIndex: bool, oldExports: seq<ModuleExport>,
                         hasNewIndex: bool, newExports: seq<ModuleExport>): (r: seq<Change>)
    ensures |r| == (if hasOldIndex then |UnitExports(oldFile, oldExports)| else 0) + (if hasNewIndex then 1 else 0)
    ensures forall c :: c in r && c.RemoveChange? ==> hasOldIndex && c.path == IndexFile(Dirname(oldFile))
    ensures forall c :: c in r && c.InsertChange? ==> hasNewIndex && c.path == IndexFile(newDir)
    ensures forall c :: c in r ==> c.RemoveChange? || c.InsertChange?
    ensures hasOldIndex ==> r[..|UnitExports(oldFile, oldExports)|] == BarrelRemovals(oldFile, oldExports)
    ensures hasNewIndex ==> r[|r| - 1] == BarrelInsert(oldFile, newDir, newExports)
  {
    var removals := if hasOldIndex then BarrelRemovals(oldFile, oldExports) else [];
    var inserts := if hasNewIndex then [BarrelInsert(oldFile, newDir, newExports)] else [];
    ExportKinds(removals, inserts, IndexFile(Dirname(oldFile)), IndexFile(newDir));
    removals + inserts
  }

  lemma ExportKinds(removals: seq<Change>, inserts: seq<Change>, oldIndex: Path, newIndex: Path)
    requires forall i :: 0 <= i < |removals| ==> removals[i].RemoveChange? && removals[i].path == oldIndex
    requires forall c :: c in inserts ==> c.InsertChange? && c.path == newIndex
    ensures forall c :: c in removals + inserts ==>
      || (c in removals && c.RemoveChange? && c.path == oldIndex)
      || (c in inserts && c.InsertChange? && c.path == newIndex)
  {
  }
}

=== FILE: node_path.dfy ===
/**
 Node's `path` functions over absolute paths given as segment lists, with `/`
 as the only separator: `dirname`, `basename`, `extname`, `resolve`,
 `relative` and `normalize`.
 */
module NodePath {
  import opened Text

  /** An absolute path, root first; `[]` is the root `/`. */
  type Path = seq<Segment>

  /** `path.dirname`: the path without its last segment. */
  function Dirname(p: Path): Path {
    if |p| == 0 then [] else p[..|p| - 1]
  }

  /** `path.basename`: the last segment. */
  function Basename(p: Path): Segment {
    if |p| == 0 then "" else p[|p| - 1]
  }

  /**
   `path.basename(p, ext)` of an absolute path: the last segment with a
   trailing `ext` removed, unless that would leave nothing.
   */
  function BasenameExt(p: Path, ext: string): (r: string)
    ensures if 0 < |ext| < |Basename(p)| && EndsWith(Basename(p), ext) then r + ext == Basename(p)
            else r == Basename(p)
    ensures '/' !in r
  {
    var b := Basename(p);
    if 0 < |ext| < |b| && EndsWith(b, ext) then b[..|b| - |ext|]
    else b
  }

  /**
   `path.extname` of a single name: from the last `.` to the end, except that
   a name without a `.`, a name whose only `.` leads it, and `..` have none.
   */
  function Extname(name: string): (r: string)
    ensures r == "" <==> |name| <= 1 || '.' !in name[1..] || name == ".."
    ensures r == "" || (StartsWith(r, ".") && EndsWith(name, r) && |r| < |name|)
    ensures r != "" ==> '.' !in r[1..]
  {
    var k := LastIndexOfChar(name, '.');
    LastDotAfterHead(name, k);
    if k <= 0 || name == ".." then "" else name[k..]
  }

  /** The last `.` of `name` lies after its first character iff the rest of `name` holds one. */
  lemma LastDotAfterHead(name: string, k: int)
    requires k == LastIndexOfChar(name, '.')
    ensures k > 0 <==> |name| > 1 && '.' in name[1..]
  {
    if k > 0 {
      assert name[1..][k - 1] == '.';
    }
    if |name| > 1 && '.' in name[1..] {
      var i :| 0 <= i < |name[1..]| && name[1..][i] == '.';
      LastIndexAtLeast(name, '.', i + 1);
    }
  }

  predicate IsPlainSegment(s: string) {
    s != "" && s != "." && s != ".."
  }

  /** A normalised path: no empty, `.` or `..` segment. */
  predicate IsPlain(p: seq<Segment>) {
    forall i :: 0 <= i < |p| ==> IsPlainSegment(p[i])
  }

  /** One step of resolution: "" and `.` stay, `..` climbs (not above the root). */
  function Step(base: Path, s: Segment): Path {
    if s == "" || s == "." then base
    else if s == ".." then Dirname(base)
    else base + [s]
  }

  /** Resolves the segments `segs` one by one starting from `base`. */
  function ResolveSegments(base: Path, segs: seq<Segment>): (r: Path)
    ensures IsPlain(base) ==> IsPlain(r)
    decreases |segs|
  {
    if |segs| == 0 then base
    else ResolveSegments(Step(base, segs[0]), segs[1..])
  }

  /** `path.normalize` of an absolute path. */
  function Normalize(p: Path): (r: Path)
    ensures IsPlain(r)
  {
    ResolveSegments([], p)
  }

  /** `path.resolve(dir, spec)`: a `/`-led specifier starts again from the root. */
  function Resolve(dir: Path, spec: string): (r: Path)
    ensures IsPlain(r)
  {
    if StartsWith(spec, "/") then ResolveSegments([], Split(spec))
    else ResolveSegments(Normalize(dir), Split(spec))
  }

  /** Length of the longest common prefix of `a` and `b`. */
  function CommonPrefixLength(a: Path, b: Path): (k: nat)
    ensures k <= |a| && k <= |b|
    ensures a[..k] == b[..k]
    ensures k < |a| && k < |b| ==> a[k] != b[k]
  {
    if |a| == 0 || |b| == 0 || a[0] != b[0] then 0
    else
      var k := CommonPrefixLength(a[1..], b[1..]) + 1;
      assert a[..k] == [a[0]] + a[1..][..k - 1];
      assert b[..k] == [b[0]] + b[1..][..k - 1];
      k
  }

  /** `path.relative(from, to)`: `..` for each segment of `from` below the common prefix, then the rest of `to`. */
  function Relative(from: Path, to: Path): string {
    var f := Normalize(from);
    var t := Normalize(to);
    var k := CommonPrefixLength(f, t);
    Join(Repeat("..", |f| - k) + t[k..])
  }

  /** The `./` prefix the resolver puts on a relative path that does not start with `.`. */
  function DotLed(rel: string): (r: string)
    ensures r == "" || r[0] == '.'
    ensures |rel| > 0 <==> |r| > 0
  {
    if |rel| > 0 && rel[0] != '.' then "./" + rel else rel
  }

  /** The last non-empty piece of a segment list, or "". */
  function LastNonEmpty(segs: seq<string>): string {
    if |segs| == 0 then ""
    else if segs[|segs| - 1] != "" then segs[|segs| - 1]
    else LastNonEmpty(segs[..|segs| - 1])
  }

  /** `path.basename` of a specifier string: trailing separators are ignored. */
  function SpecifierBasename(spec: string): string {
    LastNonEmpty(Split(spec))
  }

  // ---------------------------------------------------------------------------
  // Resolution lemmas

  lemma {:induction false} ResolveConcat(base: Path, x: seq<Segment>, y: seq<Segment>)
    ensures ResolveSegments(base, x + y) == ResolveSegments(ResolveSegments(base, x), y)
    decreases |x|
  {
    if |x| > 0 {
      assert (x + y)[0] == x[0];
      assert (x + y)[1..] == x[1..] + y;
      ResolveConcat(Step(base, x[0]), x[1..], y);
    } else {
      assert x + y == y;
    }
  }

  /** Plain segments are appended unchanged. */
  lemma {:induction false} ResolvePlain(base: Path, y: seq<Segment>)
    requires IsPlain(y)
    ensures ResolveSegments(base, y) == base + y
    decreases |y|
  {
    if |y| > 0 {
      ResolvePlain(base + [y[0]], y[1..]);
      assert base + [y[0]] + y[1..] == base + y;
    }
  }

  /** `n` times `..` climbs `n` levels. */
  lemma {:induction false} ResolveUps(base: Path, n: nat)
    requires n <= |base|
    ensures ResolveSegments(base, Repeat("..", n)) == base[..|base| - n]
    decreases n
  {
    if n > 0 {
      var r := Repeat("..", n);
      assert r[0] == ".." && r[1..] == Repeat("..", n - 1);
      assert ResolveSegments(base, r) == ResolveSegments(Dirname(base), r[1..]);
      ResolveUps(Dirname(base), n - 1);
      assert Dirname(base)[..|Dirname(base)| - (n - 1)] == base[..|base| - n];
    }
  }

  lemma NormalizePlain(p: Path)
    requires IsPlain(p)
    ensures Normalize(p) == p
  {
    ResolvePlain([], p);
  }

  /** `path.relative` is never `/`-led. */
  lemma RelativeNotRooted(from: Path, to: Path)
    ensures !StartsWith(Relative(from, to), "/")
  {
    var f := Normalize(from);
    var t := Normalize(to);
    var k := CommonPrefixLength(f, t);
    var segs := Repeat("..", |f| - k) + t[k..];
    if |segs| > 0 {
      JoinStartsWith(segs);
      assert segs[0] == ".." || segs[0] == t[k];
      assert segs[0] != "";
      assert Join(segs)[0] == segs[0][0];
    }
  }

  /**
   The round trip behind every rewritten specifier: resolving `relative(from, to)`
   from `from` names `to` again.
   */
  lemma ResolveRelative(from: Path, to: Path)
    ensures Resolve(from, Relative(from, to)) == Normalize(to)
  {
    var f := Normalize(from);
    var t := Normalize(to);
    var k := CommonPrefixLength(f, t);
    RelativeNotRooted(from, to);
    ClimbThenDescend(f, t, k);
  }

  /**
   From `f`, climbing to the common prefix of length `k` and descending along
   the rest of `t` reaches `t`.
   */
  lemma ClimbThenDescend(f: Path, t: Path, k: nat)
    requires IsPlain(t) && k <= |f| && k <= |t| && f[..k] == t[..k]
    ensures ResolveSegments(f, Split(Join(Repeat("..", |f| - k) + t[k..]))) == t
  {
    var ups := Repeat("..", |f| - k);
    var segs := ups + t[k..];
    if |segs| == 0 {
      StayPut(f, t, k);
    } else {
      SplitJoin(segs);
      ClimbAlong(f, t, k, ups);
    }
  }

  /** With nothing to climb or descend, the empty path stays at `f`, which is `t`. */
  lemma StayPut(f: Path, t: Path, k: nat)
    requires k == |f| == |t| && f[..k] == t[..k]
    ensures ResolveSegments(f, Split(Join(Repeat("..", |f| - k) + t[k..]))) == t
  {
    assert Repeat("..", 0) + t[k..] == [];
    assert Join([]) == "";
    assert Split("") == [""];
    assert Step(f, "") == f;
    assert f == f[..k] && t == t[..k];
  }

  /** Climbing `ups` from `f` and then descending along the rest of `t` reaches `t`. */
  lemma ClimbAlong(f: Path, t: Path, k: nat, ups: seq<Segment>)
    requires IsPlain(t) && k <= |f| && k <= |t| && f[..k] == t[..k]
    requires ups == Repeat("..", |f| - k)
    ensures ResolveSegments(f, ups + t[k..]) == t
  {
    ResolveConcat(f, ups, t[k..]);
    ResolveUps(f, |f| - k);
    ResolvePlain(f[..k], t[k..]);
    assert t == t[..k] + t[k..];
  }

  /** The `./` prefix does not change what a specifier names. */
  lemma ResolveDotLed(dir: Path, rel: string)
    requires !StartsWith(rel, "/")
    ensures !StartsWith(DotLed(rel), "/")
    ensures Resolve(dir, DotLed(rel)) == Resolve(dir, rel)
  {
    if |rel| > 0 && rel[0] != '.' {
      assert "./" + rel == "." + "/" + rel;
      SplitConcat(".", rel);
      SplitSegment(".");
      ResolveConcat(Normalize(dir), ["."], Split(rel));
    }
  }

  /** Appending `/name` to a specifier appends `name` to what it names. */
  lemma ResolveChild(dir: Path, spec: string, name: Segment)
    requires |spec| > 0 && spec[0] != '/'
    ensures Resolve(dir, spec + "/" + name) == ResolveSegments(Resolve(dir, spec), [name])
  {
    SplitConcat(spec, name);
    SplitSegment(name);
    ResolveConcat(Normalize(dir), Split(spec), [name]);
    assert (spec + "/" + name)[..1] == spec[..1];
  }

  /** Appending `/` and a plain relative path to a specifier descends into that path. */
  lemma ResolveDescend(dir: Path, spec: string, y: seq<Segment>)
    requires |spec| > 0 && spec[0] != '/'
    requires |y| > 0 && IsPlain(y)
    ensures Resolve(dir, spec + "/" + Join(y)) == Resolve(dir, spec) + y
  {
    var s := spec + "/" + Join(y);
    assert s[0] == spec[0];
    assert !StartsWith(s, "/") && !StartsWith(spec, "/");
    var base := Normalize(dir);
    calc {
      Resolve(dir, s);
      ResolveSegments(base, Split(s));
      { SplitConcat(spec, Join(y)); SplitJoin(y); }
      ResolveSegments(base, Split(spec) + y);
      { ResolveConcat(base, Split(spec), y); }
      ResolveSegments(ResolveSegments(base, Split(spec)), y);
      { ResolvePlain(ResolveSegments(base, Split(spec)), y); }
      ResolveSegments(base, Split(spec)) + y;
    }
  }
}

=== FILE: object_map.dfy ===
/**
 A JavaScript object used as a dictionary: its entries in key insertion
 order. Assigning to an existing key overwrites the value in place; assigning
 to a new key appends an entry.
 */
module ObjectMap {

  type Entries<K, V> = seq<(K, V)>

  function Keys<K, V>(m: Entries<K, V>): (ks: set<K>)
    ensures forall i :: 0 <= i < |m| ==> m[i].0 in ks
    decreases |m|
  {
    if |m| == 0 then {} else
      var ks := {m[0].0} + Keys(m[1..]);
      assert forall i :: 1 <= i < |m| ==> m[i].0 == m[1..][i - 1].0;
      ks
  }

  predicate DistinctKeys<K(==), V>(m: Entries<K, V>) {
    forall i, j :: 0 <= i < j < |m| ==> m[i].0 != m[j].0
  }

  /** `m[k]`: the value of the first entry with key `k`. */
  function Get<K(==), V>(m: Entries<K, V>, k: K): V
    requires k in Keys(m)
    decreases |m|
  {
    if m[0].0 == k then m[0].1 else Get(m[1..], k)
  }

  /** `m[k] = v`. */
  function Put<K(==), V>(m: Entries<K, V>, k: K, v: V): (r: Entries<K, V>)
    ensures Keys(r) == Keys(m) + {k}
    ensures Get(r, k) == v
    ensures forall k' :: k' in Keys(m) && k' != k ==> Get(r, k') == Get(m, k')
    ensures DistinctKeys(m) ==> DistinctKeys(r)
    ensures |m| <= |r| && forall i :: 0 <= i < |m| ==> r[i].0 == m[i].0
    decreases |m|
  {
    if |m| == 0 then [(k, v)]
    else if m[0].0 == k then [(k, v)] + m[1..]
    else
      var rest := Put(m[1..], k, v);
      if DistinctKeys(m) then
        HeadNotInTail(m);
        PrependDistinct(m[0], rest);
        [m[0]] + rest
      else [m[0]] + rest
  }

  lemma HeadNotInTail<K, V>(m: Entries<K, V>)
    requires |m| > 0 && DistinctKeys(m)
    ensures m[0].0 !in Keys(m[1..])
    ensures DistinctKeys(m[1..])
  {
    forall k | k in Keys(m[1..]) ensures k != m[0].0 {
      var j := KeyIndex(m[1..], k);
      assert m[j + 1].0 == k;
    }
  }

  lemma PrependDistinct<K, V>(x: (K, V), m: Entries<K, V>)
    requires DistinctKeys(m) && x.0 !in Keys(m)
    ensures DistinctKeys([x] + m)
  {
    forall i, j | 0 <= i < j < |[x] + m| ensures ([x] + m)[i].0 != ([x] + m)[j].0 {
      assert ([x] + m)[j] == m[j - 1];
      if i > 0 {
        assert ([x] + m)[i] == m[i - 1];
      }
    }
  }

  /** Where a key sits. */
  function KeyIndex<K(==), V>(m: Entries<K, V>, k: K): (i: nat)
    requires k in Keys(m)
    ensures i < |m| && m[i].0 == k
    decreases |m|
  {
    if m[0].0 == k then 0 else KeyIndex(m[1..], k) + 1
  }

  /** Writing the same key twice keeps only the second value. */
  lemma {:induction false} PutPut<K, V>(m: Entries<K, V>, k: K, a: V, b: V)
    ensures Put(Put(m, k, a), k, b) == Put(m, k, b)
    decreases |m|
  {
    if |m| > 0 && m[0].0 != k {
      PutPut(m[1..], k, a, b);
      var r := Put(m, k, a);
      assert r[1..] == Put(m[1..], k, a);
    }
  }
}

=== FILE: outcome.dfy ===
/**
 Success or failure of an operation, usable with `:-`. The failures are the
 exceptions the modelled code throws or the promises it rejects.
 */
module Outcome {

  datatype Error =
    /** `diffPaths`: the old and new parent directories are the same. */
    | SameDirectory
    /** `readdirSync` on an extension-less name that is not a directory. */
    | NotADirectory(path: seq<string>)
    /** `readFile`/`readFileSync` of a file that is not there. */
    | ReadFailed(path: seq<string>)
    /** Property access on a key an object does not have (a `TypeError`). */
    | MissingKey(path: seq<string>)

  datatype Result<+T> = Ok(value: T) | Err(error: Error) {
    predicate IsFailure() {
      Err?
    }

    function PropagateFailure<U>(): Result<U>
      requires Err?
    {
      Err(error)
    }

    function Extract(): T
      requires Ok?
    {
      value
    }
  }
}

=== FILE: text.dfy ===
/**
 String helpers shared by the model: prefix/suffix tests, JavaScript's clamping
 `substring`, and splitting/joining on the path separator `/`.
 */
module Text {

  /** A path segment: a string that holds no separator. */
  type Segment = s: string | '/' !in s

  predicate StartsWith(s: string, p: string) {
    |p| <= |s| && s[..|p|] == p
  }

  predicate EndsWith(s: string, p: string) {
    |p| <= |s| && s[|s| - |p|..] == p
  }

  /** JavaScript `s.indexOf(t) !== -1`: `t` occurs somewhere in `s`. */
  predicate Contains(s: string, t: string)
    decreases |s|
  {
    StartsWith(s, t) || (|s| > 0 && Contains(s[1..], t))
  }

  /** JavaScript clamps a string index into `[0, n]`. */
  function Clamp(i: int, n: nat): (k: nat)
    ensures k <= n
  {
    if i < 0 then 0 else if i > n then n else i
  }

  /** JavaScript `s.substring(0, i)`. */
  function SubstringTo(s: string, i: int): string {
    s[..Clamp(i, |s|)]
  }

  /** JavaScript `s.substring(i)`. */
  function SubstringFrom(s: string, i: int): string {
    s[Clamp(i, |s|)..]
  }

  /** JavaScript `s.slice(0, n)` for a non-negative `n`. */
  function SliceTo(s: string, n: nat): string {
    s[..Clamp(n, |s|)]
  }

  /** JavaScript `s.charAt(i)`: the one-character string, or "" past the end. */
  function CharAt(s: string, i: nat): string {
    if i < |s| then [s[i]] else ""
  }

  /** Joins segments with `/` (JavaScript `segs.join('/')`). */
  function Join(segs: seq<string>): string {
    if |segs| == 0 then ""
    else if |segs| == 1 then segs[0]
    else segs[0] + "/" + Join(segs[1..])
  }

  /** Index of the first occurrence of `c` in `s`. */
  function IndexOfChar(s: string, c: char): (i: nat)
    requires c in s
    ensures i < |s| && s[i] == c
    ensures c !in s[..i]
  {
    if s[0] == c then 0
    else
      var i := IndexOfChar(s[1..], c) + 1;
      assert s[..i] == [s[0]] + s[1..][..i - 1];
      i
  }

  /** Index of the last occurrence of `c` in `s`, or -1. */
  function LastIndexOfChar(s: string, c: char): (i: int)
    ensures -1 <= i < |s|
    ensures i == -1 <==> c !in s
    ensures i >= 0 ==> s[i] == c && c !in s[i + 1..]
  {
    if |s| == 0 then -1
    else if s[|s| - 1] == c then |s| - 1
    else
      var i := LastIndexOfChar(s[..|s| - 1], c);
      LastIndexStep(s, c, i);
      i
  }

  /** The last occurrence of `c` is at or after any occurrence. */
  lemma {:induction false} LastIndexAtLeast(s: string, c: char, j: int)
    requires 0 <= j < |s| && s[j] == c
    ensures LastIndexOfChar(s, c) >= j
    decreases |s|
  {
    if s[|s| - 1] != c {
      LastIndexAtLeast(s[..|s| - 1], c, j);
    }
  }

  lemma LastIndexStep(s: string, c: char, i: int)
    requires |s| > 0 && s[|s| - 1] != c && -1 <= i < |s| - 1
    requires i == -1 <==> c !in s[..|s| - 1]
    requires i >= 0 ==> s[i] == c && c !in s[..|s| - 1][i + 1..]
    ensures i == -1 <==> c !in s
    ensures i >= 0 ==> c !in s[i + 1..]
  {
    var t := s[..|s| - 1];
    assert s == t + [s[|s| - 1]];
    if i >= 0 {
      assert s[i + 1..] == t[i + 1..] + [s[|s| - 1]];
    }
  }

  /** JavaScript `s.split('/')`: never empty, and no piece holds a separator. */
  function Split(s: string): (segs: seq<Segment>)
    ensures |segs| > 0
    decreases |s|
  {
    if '/' in s then
      var i := IndexOfChar(s, '/');
      [s[..i]] + Split(s[i + 1..])
    else [s]
  }

  /** `n` copies of `s`. */
  function Repeat(s: Segment, n: nat): (r: seq<Segment>)
    ensures |r| == n
    ensures forall i :: 0 <= i < n ==> r[i] == s
  {
    if n == 0 then [] else [s] + Repeat(s, n - 1)
  }

  lemma {:induction false} IndexOfCharAppend(a: string, b: string, c: char)
    requires c in a + b
    ensures c in a ==> IndexOfChar(a + b, c) == IndexOfChar(a, c)
    ensures c !in a ==> IndexOfChar(a + b, c) == |a| + IndexOfChar(b, c)
    decreases |a|
  {
    if |a| > 0 {
      assert (a + b)[0] == a[0];
      assert (a + b)[1..] == a[1..] + b;
      if a[0] != c {
        IndexOfCharAppend(a[1..], b, c);
      }
    } else {
      assert a + b == b;
    }
  }

  /** Splitting a separator-free string yields the string itself. */
  lemma SplitSegment(s: Segment)
    ensures Split(s) == [s]
  {
  }

  /** Splitting distributes over a separator. */
  lemma {:induction false} SplitConcat(a: string, b: string)
    ensures Split(a + "/" + b) == Split(a) + Split(b)
    decreases |a|
  {
    if '/' in a {
      var j := IndexOfChar(a, '/');
      var y := a[j + 1..];
      SlashFacts(a, b, j);
      SplitAt(a, j, a[..j], y);
      SplitAt(a + "/" + b, j, a[..j], y + "/" + b);
      SplitConcat(y, b);
      Regroup(Split(a + "/" + b), [a[..j]], Split(y + "/" + b), Split(y), Split(b), Split(a));
    } else {
      SplitAtSlash(a, b);
    }
  }

  /** A non-empty `a` is its head before its tail, also at the front of `a + b`. */
  lemma HeadTail<T>(a: seq<T>, b: seq<T>)
    requires |a| > 0
    ensures a == [a[0]] + a[1..] && a + b == [a[0]] + (a[1..] + b)
  {
  }

  lemma AppendAssoc<T>(h: seq<T>, u: seq<T>, v: seq<T>)
    ensures h + (u + v) == (h + u) + v
  {
  }

  lemma Regroup(p: seq<Segment>, x: seq<Segment>, q: seq<Segment>, r: seq<Segment>, s: seq<Segment>, t: seq<Segment>)
    requires p == x + q && q == r + s && t == x + r
    ensures p == t + s
  {
  }

  /** The first separator of `a + "/" + b` is the one after `a` when `a` holds none. */
  lemma SplitAtSlash(a: string, b: string)
    requires '/' !in a
    ensures Split(a + "/" + b) == [a] + Split(b)
  {
    var s := a + "/" + b;
    assert s == a + ("/" + b);
    IndexOfCharAppend(a, "/" + b, '/');
    assert s[..|a|] == a;
    assert s[|a| + 1..] == b;
  }

  /** Where the first separator of `a + "/" + b` lies, and the text on either side of it. */
  lemma SlashFacts(a: string, b: string, j: nat)
    requires '/' in a && j == IndexOfChar(a, '/')
    ensures var s := a + "/" + b;
      && '/' in s && IndexOfChar(s, '/') == j
      && s[..j] == a[..j] && s[j + 1..] == a[j + 1..] + "/" + b
  {
    var r := "/" + b;
    AppendAssoc(a, "/", b);
    SlashInPrefix(a, r, j);
    AppendAssoc(a[j + 1..], "/", b);
  }

  /** Splitting at a known first separator. */
  lemma SplitAt(s: string, j: nat, head: string, tail: string)
    requires '/' in s && IndexOfChar(s, '/') == j && s[..j] == head && s[j + 1..] == tail
    ensures Split(s) == [head] + Split(tail)
  {
    SplitStep(s);
  }

  /** One unfolding of `Split` at the first separator. */
  lemma SplitStep(s: string)
    requires '/' in s
    ensures var i := IndexOfChar(s, '/');
      Split(s) == [s[..i]] + Split(s[i + 1..])
  {
  }

  /** The first separator of `a` is the first one of `a + r`, with the same text around it. */
  lemma SlashInPrefix(a: string, r: string, j: nat)
    requires '/' in a && j == IndexOfChar(a, '/')
    ensures '/' in a + r && IndexOfChar(a + r, '/') == j
    ensures (a + r)[..j] == a[..j] && (a + r)[j + 1..] == a[j + 1..] + r
  {
    var s := a + r;
    assert s[j] == '/';
    IndexOfCharAppend(a, r, '/');
  }

  /** Splitting undoes joining, for segments that hold no separator. */
  lemma {:induction false} SplitJoin(segs: seq<Segment>)
    requires |segs| > 0
    ensures Split(Join(segs)) == segs
  {
    if |segs| > 1 {
      SplitConcat(segs[0], Join(segs[1..]));
      SplitJoin(segs[1..]);
      assert segs == [segs[0]] + segs[1..];
    }
  }

  /** A join starts with its first segment. */
  lemma JoinStartsWith(segs: seq<string>)
    requires |segs| > 0
    ensures StartsWith(Join(segs), segs[0])
  {
    if |segs| > 1 {
      assert Join(segs) == segs[0] + ("/" + Join(segs[1..]));
    }
  }
}
